=== FILE: README.md ===
# Portfolio site: project rules and admin front end, in Dafny

This project models the logic of a portfolio website whose back end stores
projects and whose front end shows and edits them.

- **Back end.** It validates, stores and shapes projects. Each project has
  a business type, a category, technologies, gallery images and
  description sections of bullet points.
- **Front end.** It shows projects publicly:
  - a filtered, paginated grid;
  - a featured carousel;
  - a detail page with a media gallery and tabbed descriptions.

  An admin area lets a logged-in user edit projects and the three
  reference lists.

What the model covers:
- **Project controller.** Each request handler is a pure function from
  a store and a payload to a new store and a response. The database
  becomes a map from id to project row, plus the three reference tables
  and the id counter.
- **Front-end helpers.** Those that compute something are pure functions
  over sequences and strings:
  - filtering, pagination and list updates;
  - carousel slides and chip rows;
  - media lists, video detection, embed rewriting and gallery navigation;
  - grouping descriptions into tabs;
  - the technology colour hash.
- **Forms and small state machines.** These are modelled as state
  transitions:
  - the project dialog and the three name dialogs;
  - the reference-list hooks;
  - the admin login and session guard;
  - the theme toggle.

Time, the network's answers and the user's confirmations are inputs.

JavaScript semantics are written out where they matter:
- `trim` uses the ECMAScript white-space set.
- `toLowerCase` lower-cases ASCII letters.
- `parseInt` reads a decimal prefix.
- `<<` wraps to 32 bits.
- `%` truncates toward zero.
- `slice` accepts negative indices.
- Truthiness decides the `||` and `if` tests.

Modules:
- `Wrappers`, `JsText`, `Seqs`: options, the JavaScript string builtins,
  and sequence helpers (filter, slice, chunks, sort).
- `ProjectController`: the handlers `getAllProjects` and the other list
  handlers, `getProjectById`, `createProject`, `updateProject`,
  `deleteProject`, and `formatProject`.
- `ProjectLists`, `MainPage`, `AdminPage`, `Carousel`: the list logic of
  the public grid, the admin grid and the carousel.
- `ProjectDetail`: the detail page.
- `ProjectDialog`: the project editor, and how its requests fare
  against the controller.
- `ProjectsView`: the admin project grid.
- `ReferenceHooks`, `ReferenceDialogs`: categories, technologies and
  business types.
- `Session`, `Theme`.

## Model

| member | source | states |
|---|---|---|
| ProjectController.DescriptionFault | backend/controllers/projectController.js:197-212 | no fault exactly when the description has a category, a section title and a non-empty list of string points; a fault is one of the four checks' messages |
| ProjectController.FirstFault | backend/controllers/projectController.js:197-212 | no fault exactly when every description passes; a fault is always one of the four messages the loop can return |
| ProjectController.FirstFaultIsFirst | backend/controllers/projectController.js:197-212 | a reported fault is the fault of some description, and every description before it passes: the loop stops at the first failing one |
| ProjectController.SanitizeImages | backend/controllers/projectController.js:215-225 | exactly the entries with a usable URL survive, in order; each URL is trimmed and non-empty, alt text defaults to "", and order defaults to the position among the survivors |
| ProjectController.SanitizeSkipsUnusable | backend/controllers/projectController.js:215-225 | an entry without a usable URL, wherever it stands, changes nothing in the result |
| ProjectController.DescriptionRows | backend/controllers/projectController.js:243-250 | one row per description, keeping category, title and points, with the given order or else the list position |
| ProjectController.IdFromPayload | backend/controllers/projectController.js:232-233 | a falsy id (absent, null or 0) is stored as null, any other id as itself |
| ProjectController.Links | backend/controllers/projectController.js:37 | the joined links are at most the stored ones, each naming a known technology with its stored name; when every id is known, there is one link per id, in the stored order |
| ProjectController.Include | backend/controllers/projectController.js:55-61 | the join keeps the project's row, returns its images and descriptions sorted by ascending order with none lost or added, and finds a business type or category exactly when the stored id names one |
| ProjectController.FormatProject | backend/controllers/projectController.js:6-28 | scalars are copied, technology links are flattened to their technologies in order, and descriptions are the decoded rows as a permutation sorted by ascending order |
| ProjectController.ViewOfValidStore | backend/controllers/projectController.js:6-28 | on a consistent store the response lists exactly the linked technologies (in the order their ids were submitted), the images sorted by order, and one decoded description per stored row |
| ProjectController.View | backend/controllers/projectController.js:51-72 | the response for a stored project carries its id and title, no more technologies than it links, its images sorted by order with none lost or added, and its descriptions sorted by order |
| ProjectController.DecodeAllPermutes | backend/controllers/projectController.js:19-25 | decoding the stored points commutes with reordering the rows |
| ProjectController.GetProjects | backend/controllers/projectController.js:31-157 | 200 with the formatted projects that match the query, each matching project exactly once (no id repeats), newest first |
| ProjectController.GetProjectById | backend/controllers/projectController.js:51-72 | 200 with the formatted project when the id exists, 404 "Project not found" otherwise |
| ProjectController.CreateRejection | backend/controllers/projectController.js:179-212 | create's checks fail, always with 400, exactly when the payload is not writable |
| ProjectController.InsertProject | backend/controllers/projectController.js:214-274 | the new row gets the next id and the response is 201 with that project, unless the database refuses the row, in which case nothing is written |
| ProjectController.CreateProject | backend/controllers/projectController.js:161-279 | the checks run in order (title, main image, GitHub URL, preview URL, non-empty descriptions, each description) on truthiness alone; the first failure answers 400 without writing; 201 exactly when all pass and the row is accepted |
| ProjectController.CreatePreservesValid | backend/controllers/projectController.js:161-279 | create keeps the store consistent |
| ProjectController.CreatedProjectEchoesInput | backend/controllers/projectController.js:240-274 | a created project carries the new id and title; every submitted description comes back with its points; omitted technologies or images come back as empty lists |
| ProjectController.ViewDescriptionsPermute | backend/controllers/projectController.js:19-25 | a response's descriptions are the stored rows decoded, as a permutation |
| ProjectController.ClearChildren | backend/controllers/projectController.js:370-380 | the three deletions empty the project's links, images and descriptions, keep its fields and every other project, and change nothing for an absent id |
| ProjectController.ClearChildrenValid | backend/controllers/projectController.js:370-380 | deleting one project's links, images and descriptions keeps the store consistent |
| ProjectController.UpdateRejection | backend/controllers/projectController.js:300-353 | the checks fail exactly when the update may not write; a present but blank title gives its 400; 409 exactly when every earlier check passes and another project in the category has the title |
| ProjectController.UpdateWrite | backend/controllers/projectController.js:355-434 | after the checks the children are deleted first; a null description list, an absent id or a refused key then answers 400 with the deletions done; success answers 200 with the rewritten project |
| ProjectController.UpdateProject | backend/controllers/projectController.js:282-436 | nothing is written unless every check passes; a refusal after the checks leaves the project without children; 200 only for an existing id with a description list |
| ProjectController.UpdateWithoutDescriptionsRejected | backend/controllers/projectController.js:295-316 | an update without `descriptions` is always a 400 that changes nothing |
| ProjectController.UpdateOfAbsentIdIsNot404 | backend/controllers/projectController.js:418-434 | updating an absent id never answers 404, never changes the store, and answers 400 once the checks pass |
| ProjectController.UpdateReplacesChildren | backend/controllers/projectController.js:370-414 | after a successful update the links, images and descriptions are exactly those built from the payload; a falsy title, an absent category and an absent `featured` keep the old values; `createdAt` stays and `updatedAt` is the time of the update |
| ProjectController.UpdateMergesFields | backend/controllers/projectController.js:382-393 | after a successful update a truthy title, image path, GitHub or preview URL replaces the stored one and any other value keeps it; a business type, category or featured flag that is present (even null) replaces the stored value, one that is absent keeps it |
| ProjectController.UpdateWithNullDescriptionsLosesChildren | backend/controllers/projectController.js:313-414 | a `null` description list passes the checks, then deletes the children and fails with 400 |
| ProjectController.UpdatePreservesValid | backend/controllers/projectController.js:282-436 | update keeps the store consistent on every path |
| ProjectController.BlankTitleCreateVersusUpdate | backend/controllers/projectController.js:180-303 | a title of spaces passes create's title check but is rejected by update's |
| ProjectController.DeleteProject | backend/controllers/projectController.js:439-446 | an existing project is removed with 204: every other project, the reference tables and the id counter stay as they were; an absent id answers 400 and changes nothing |
| ProjectController.DeletePreservesValid | backend/controllers/projectController.js:439-446 | delete keeps the store consistent |
| ProjectLists.ReplaceById | frontend/src/components/3-main/Main.jsx:77 | every entry with the saved id becomes the saved project; the others stay in place |
| ProjectLists.SaveIntoList | frontend/src/components/3-main/Main.jsx:73-84 | an edit replaces by id in place (and changes nothing when the id is absent); a create puts the project first |
| ProjectLists.ReplaceByIdIdempotent | frontend/src/components/3-main/Main.jsx:77 | saving the same edit twice is saving it once |
| ProjectLists.ReplaceByIdKeepsIds | frontend/src/components/3-main/Main.jsx:77 | an edit keeps the set of ids |
| ProjectLists.RemoveById | frontend/src/components/3-main/Main.jsx:117 | exactly the entries with another id survive |
| ProjectLists.RemoveByIdSingle | frontend/src/components/3-main/Main.jsx:117 | a one-entry list keeps its entry exactly when the id differs |
| ProjectLists.RemoveByIdConcat | frontend/src/components/3-main/Main.jsx:117 | deleting from two joined lists is deleting from each and joining; with the one-entry case this fixes the result entry by entry, so order and repetitions are kept |
| ProjectLists.RemoveAbsentId | frontend/src/components/3-main/Main.jsx:117 | deleting an id the list does not hold changes nothing |
| ProjectLists.RemoveByIdIdempotent | frontend/src/components/3-main/Main.jsx:117 | deleting twice is deleting once |
| ProjectLists.Chips | frontend/src/components/3-main/Main.jsx:836-873 | at most three chips, a prefix of the technologies, and a "+k" label ending in the given suffix exactly when there are more than three |
| ProjectLists.ChipsAccountForAll | frontend/src/components/3-main/Main.jsx:866-869 | the shown chips plus the number read back from the label account for every technology |
| ProjectLists.FirstPoint | frontend/src/components/3-main/Main.jsx:299-307 | the first point of the first description exists exactly when both are non-empty |
| ProjectLists.PreviewComesFromLowestOrder | frontend/src/components/3-main/Main.jsx:299-307 | for a project the server returned, the preview is a point of a section of lowest order |
| MainPage.FetchProjects | frontend/src/components/3-main/Main.jsx:134-154 | the list becomes the answer when it is an array and is empty otherwise; a failure also sets the load error |
| MainPage.ApplyFilters | frontend/src/components/3-main/Main.jsx:219-273 | with every filter at "all" the answer is taken unchanged; a failed request gives an empty list; filtering never adds entries |
| MainPage.ApplyFiltersIsOneFilter | frontend/src/components/3-main/Main.jsx:245-265 | the filters applied in turn keep exactly the projects that satisfy every active filter, in their order |
| MainPage.SetBusinessType | frontend/src/components/3-main/Main.jsx:199-203 | choosing a business type sets that filter, returns to page 1 and refilters |
| MainPage.SetCategory | frontend/src/components/3-main/Main.jsx:205-209 | choosing a category sets that filter, returns to page 1 and refilters |
| MainPage.SetTechnology | frontend/src/components/3-main/Main.jsx:212-216 | choosing a technology sets that filter, returns to page 1 and refilters |
| MainPage.ClearAllFilters | frontend/src/components/3-main/Main.jsx:275-281 | every filter goes back to "all", page 1, and the whole list is fetched again |
| MainPage.ClearingIsNoFilter | frontend/src/components/3-main/Main.jsx:275-281 | clearing shows what filtering with no active filter shows |
| MainPage.TotalPages | frontend/src/components/3-main/Main.jsx:285 | the page count is the ceiling of n/6 and is zero exactly for an empty list |
| MainPage.PageItems | frontend/src/components/3-main/Main.jsx:286-288 | a page holds at most six projects |
| MainPage.PageIsChunk | frontend/src/components/3-main/Main.jsx:284-288 | page p, for p from 1 to the page count, is the p-th chunk of six |
| MainPage.PageCountIsChunkCount | frontend/src/components/3-main/Main.jsx:285 | the page count is the number of chunks of six |
| MainPage.PagesCoverList | frontend/src/components/3-main/Main.jsx:284-288 | pages 1 to the page count, concatenated, give back the list |
| MainPage.PageOutsideRangeIsEmpty | frontend/src/components/3-main/Main.jsx:286-288 | page 0 and every page past the last are empty |
| MainPage.NegativePageWrapsAround | frontend/src/components/3-main/Main.jsx:286-288 | page -1 of a list of twelve or more shows the six projects before the last six |
| MainPage.ProjectDescription | frontend/src/components/3-main/Main.jsx:299-307 | the public page's preview, falling back to its fixed sentence exactly when there is no description or the first has no points |
| MainPage.CardChips | frontend/src/components/3-main/Main.jsx:836-873 | the card shows the first three technologies, and the label "+k more" exactly when k technologies are left out |
| MainPage.ProjectSaved | frontend/src/components/3-main/Main.jsx:73-84 | the saved project enters the list (in place for an edit, first for a create), and the dialog closes and forgets its selection |
| MainPage.ConfirmDelete | frontend/src/components/3-main/Main.jsx:105-124 | without a pending project nothing happens; on an ok reply the project leaves the list and the dialog closes; otherwise only the error is set |
| MainPage.DeleteRemovesOnlyVictim | frontend/src/components/3-main/Main.jsx:105-124 | after an ok delete an entry remains exactly when its id differs from the deleted one; after a failed one every entry remains |
| AdminPage.DescriptionPreview | frontend/src/components/admin/AdminPage.jsx:112-117 | the first point of the first description, or "No description available" |
| AdminPage.CardChips | frontend/src/components/admin/AdminPage.jsx:249-265 | the card shows the first three technologies, and the label "+k more" exactly when k technologies are left out: the same chips as the public card |
| AdminPage.ProjectSaved | frontend/src/components/admin/AdminPage.jsx:100-110 | an edit replaces by id, a create prepends, and the dialog closes |
| AdminPage.ConfirmDelete | frontend/src/components/admin/AdminPage.jsx:79-98 | on an ok reply the project leaves the list and the dialog closes; otherwise the list is unchanged and the error is set |
| AdminPage.SameListUpdatesAsPublicPage | frontend/src/components/admin/AdminPage.jsx:79-117 | from the same list the admin page and the public page reach the same list after a save or a delete; their previews differ only in the fallback |
| Carousel.FeaturedProjects | frontend/src/components/featured/FeaturedProjectsCarousel.jsx:43-53 | an array reply is grouped as it came, whatever the status; a failure and a non-array reply both leave nothing to group |
| Carousel.EmptyMessageIffNothingToShow | frontend/src/components/featured/FeaturedProjectsCarousel.jsx:43-98 | the "No featured projects" message shows exactly when nothing is to be shown and the stored value is an array; a non-array reply shows neither the message nor any slide |
| Carousel.ItemsPerSlide | frontend/src/components/featured/FeaturedProjectsCarousel.jsx:69 | one project per slide on mobile, two otherwise |
| Carousel.GroupProjects | frontend/src/components/featured/FeaturedProjectsCarousel.jsx:61-67 | the loop produces the chunks of n, and concatenating them gives back the input |
| Carousel.Slides | frontend/src/components/featured/FeaturedProjectsCarousel.jsx:61-70 | every featured project appears once, in order; each slide holds 1 to n projects and only the last may hold fewer; there are ceil(count/n) slides, none for no projects |
| Carousel.MobileSlidesAreSingletons | frontend/src/components/featured/FeaturedProjectsCarousel.jsx:61-69 | on mobile, slide k is exactly project k |
| Carousel.CarouselChips | frontend/src/components/featured/FeaturedProjectsCarousel.jsx:296-322 | at most three chips, and a bare "+k" with k = count - 3 exactly when there are more than three |
| Carousel.CarouselChipsCount | frontend/src/components/featured/FeaturedProjectsCarousel.jsx:314-318 | the number on the "+k" chip reads back as the count of hidden technologies |
| ProjectDetail.SectionIcon | frontend/src/components/project-details/ProjectDetail.jsx:68-82 | the icon is that of the first rule in the fixed keyword table (feature/key, technical/tech, design/ui, …, timeline/process) that some keyword of the lower-cased title hits, and the fallback exactly when no rule hits |
| ProjectDetail.SectionIconIgnoresCase | frontend/src/components/project-details/ProjectDetail.jsx:68-82 | the icon depends only on the lower-cased title |
| ProjectDetail.BuildKeywordIsShadowed | frontend/src/components/project-details/ProjectDetail.jsx:72-78 | a title containing "build" never gets the build icon unless it also says "implementation"; it gets a feature, code or palette icon instead |
| ProjectDetail.IntendedBuildIcon | frontend/src/components/project-details/ProjectDetail.jsx:68-82 | with "ui" not matched inside "build", a title with "build" and no earlier keyword gets the build icon, and titles without "build" keep their icon |
| ProjectDetail.GradientColors | frontend/src/components/project-details/ProjectDetail.jsx:85-97 | the gradient is always one of the eight pairs of the palette |
| ProjectDetail.GradientCycle | frontend/src/components/project-details/ProjectDetail.jsx:85-97 | the gradients repeat with period eight, and the first eight are distinct |
| ProjectDetail.GroupKey | frontend/src/components/project-details/ProjectDetail.jsx:306 | a description's group is its category, or "Overview" when that is empty |
| ProjectDetail.GroupDescriptions | frontend/src/components/project-details/ProjectDetail.jsx:305-312 | the reduce produces groups whose keys are all non-empty |
| ProjectDetail.GroupDescriptionsIsGrouping | frontend/src/components/project-details/ProjectDetail.jsx:305-312 | the keys are distinct and are exactly the descriptions' group keys; each group holds exactly the descriptions with its key, in their order |
| ProjectDetail.GroupItemsIsFilter | frontend/src/components/project-details/ProjectDetail.jsx:304-316 | looking a category up in the grouping (an empty list when it has no group) gives exactly the descriptions with that key, in order |
| ProjectDetail.DescriptionInItsGroup | frontend/src/components/project-details/ProjectDetail.jsx:305-312 | every description lies in the group of its key |
| ProjectDetail.DescriptionOnlyInItsGroup | frontend/src/components/project-details/ProjectDetail.jsx:305-312 | a group that holds a description has that description's key |
| ProjectDetail.Categories | frontend/src/components/project-details/ProjectDetail.jsx:314-315 | the tabs are "Main" followed by the group keys, and no tab name is empty |
| ProjectDetail.TabContent | frontend/src/components/project-details/ProjectDetail.jsx:316-317 | tab 0 shows the hero |
| ProjectDetail.TabShowsItsGroup | frontend/src/components/project-details/ProjectDetail.jsx:316-317 | a group tab shows exactly the descriptions with that tab's key |
| ProjectDetail.TabOutOfRange | frontend/src/components/project-details/ProjectDetail.jsx:316 | a tab index out of range falls back to the "Overview" descriptions |
| ProjectDetail.EmbedUrl | frontend/src/components/project-details/ProjectDetail.jsx:612-633 | an empty URL or one with no marker comes back unchanged; a watch URL becomes the YouTube embed prefix followed by the text after the first "v=" up to the first "&" or "v=" after it; otherwise a youtu.be link becomes the YouTube embed prefix and a Vimeo link the player prefix, each followed by the text after the marker up to the first "?" or marker after it |
| ProjectDetail.IsVideoUrl | frontend/src/components/project-details/ProjectDetail.jsx:595-609 | a URL is a video exactly when it is non-empty and one of the nine patterns (six host fragments anywhere, three extensions at the end) matches it |
| ProjectDetail.RewrittenUrlsAreVideos | frontend/src/components/project-details/ProjectDetail.jsx:595-632 | every URL the rewrite changes is one that is detected as a video |
| ProjectDetail.WatchUrlEmbedsId | frontend/src/components/project-details/ProjectDetail.jsx:616-619 | a YouTube watch URL with a plain id becomes the embed URL with that id |
| ProjectDetail.ShortUrlEmbedsId | frontend/src/components/project-details/ProjectDetail.jsx:620-623 | a youtu.be link whose id has no "?" and no second marker becomes the YouTube embed URL with that id |
| ProjectDetail.VimeoUrlEmbedsId | frontend/src/components/project-details/ProjectDetail.jsx:626-629 | a Vimeo link whose id has no "?" and neither marker becomes the Vimeo player URL with that id |
| ProjectDetail.WatchUrlDropsQuery | frontend/src/components/project-details/ProjectDetail.jsx:616-619 | a watch URL with a query after the id (`watch?v=ID&t=30s`) becomes the embed URL of the id alone, whatever follows the "&" |
| ProjectDetail.ShortUrlDropsQuery | frontend/src/components/project-details/ProjectDetail.jsx:620-623 | a youtu.be link with a query after the id becomes the embed URL of the id alone, when the URL does not also hold the watch marker |
| ProjectDetail.VimeoUrlDropsQuery | frontend/src/components/project-details/ProjectDetail.jsx:626-629 | a Vimeo link with a query after the id becomes the player URL of the id alone, when the URL holds neither YouTube marker |
| JsText.IsSpaceIsWhiteSpace | backend/controllers/projectController.js:198 | the characters `trim` removes, written as ranges, are exactly the ECMAScript white space and line terminators |
| JsText.PieceIsUpToFirst | frontend/src/components/project-details/ProjectDetail.jsx:617 | for the text after the first marker, cutting at the next marker and then at a one-character stop (the two `split` calls) leaves exactly the text up to the first stop or marker |
| JsText.UpToFirstUnique | frontend/src/components/project-details/ProjectDetail.jsx:617 | that text is determined: two pieces that both run up to the first stop are equal |
| ProjectDetail.MediaFor | frontend/src/components/project-details/ProjectDetail.jsx:639-661 | a media item is a video exactly when its URL is detected as one, and carries its URL and embed URL |
| ProjectDetail.MainMedia | frontend/src/components/project-details/ProjectDetail.jsx:639-647 | there is main media exactly when the main image path is non-empty |
| ProjectDetail.GalleryItems | frontend/src/components/project-details/ProjectDetail.jsx:650-660 | one item per gallery image, in order |
| ProjectDetail.MediaItems | frontend/src/components/project-details/ProjectDetail.jsx:635-663 | the main media comes first when present, then one item per image in order with the image's label as alt and title; every item's kind fits its URL |
| ProjectDetail.GalleryLabel | frontend/src/components/project-details/ProjectDetail.jsx:656-657 | a non-empty alt text is the label; otherwise the label is "Gallery item " and a number that reads back as the one-based position |
| ProjectDetail.GalleryLabelNumbers | frontend/src/components/project-details/ProjectDetail.jsx:656-657 | the fallback label's number reads back as the one-based position |
| ProjectDetail.JsRem | frontend/src/components/project-details/ProjectDetail.jsx:669-673 | `%` truncates toward zero: the remainder lies strictly between -n and n, is never of the opposite sign to the dividend, and differs from it by a multiple of n |
| ProjectDetail.Next | frontend/src/components/project-details/ProjectDetail.jsx:668-670 | the next step lies strictly between -n and n, is one more than the current step modulo n, and is not negative from any step of at least -1 |
| ProjectDetail.Back | frontend/src/components/project-details/ProjectDetail.jsx:672-674 | the previous step lies strictly between -n and n, is one less than the current step modulo n, and is not negative from any step of at least 1 - n |
| ProjectDetail.NavigationWraps | frontend/src/components/project-details/ProjectDetail.jsx:668-674 | next and back stay in range, undo each other, and wrap from last to first and from first to last |
| ProjectDialog.IdChoice | frontend/src/components/admin/ProjectDialog.jsx:73-74 | a falsy id becomes the empty choice |
| ProjectDialog.TechnologyIdsOf | frontend/src/components/admin/ProjectDialog.jsx:79 | technologies become their ids, in order |
| ProjectDialog.OpenDialog | frontend/src/components/admin/ProjectDialog.jsx:69-111 | an existing project's fields are copied, with its sections, or the single default section when it has none; otherwise the empty form; errors are cleared |
| ProjectDialog.HandleInputChange | frontend/src/components/admin/ProjectDialog.jsx:135-147 | changing a field clears that field's error and no other; the sections are untouched |
| ProjectDialog.UpdateAt | frontend/src/components/admin/ProjectDialog.jsx:149-156 | only the targeted position changes |
| ProjectDialog.RemoveAtSplices | frontend/src/components/admin/ProjectDialog.jsx:185-194 | removing by index splices that position out, or changes nothing when it is out of range |
| ProjectDialog.SetSectionTitle | frontend/src/components/admin/ProjectDialog.jsx:149-156 | only the targeted section's title changes |
| ProjectDialog.PointChange | frontend/src/components/admin/ProjectDialog.jsx:158-172 | only the targeted point of the targeted section changes |
| ProjectDialog.AddPoint | frontend/src/components/admin/ProjectDialog.jsx:174-183 | only the targeted section gains an empty point at its end |
| ProjectDialog.RemovePoint | frontend/src/components/admin/ProjectDialog.jsx:185-194 | only the targeted section loses the targeted point |
| ProjectDialog.AddSection | frontend/src/components/admin/ProjectDialog.jsx:196-208 | a new section with an empty title, one empty point and order equal to the previous length is appended |
| ProjectDialog.RemoveSection | frontend/src/components/admin/ProjectDialog.jsx:210-217 | nothing changes while one section is left; otherwise the targeted section is removed |
| ProjectDialog.SectionEditsKeepASection | frontend/src/components/admin/ProjectDialog.jsx:158-217 | no section edit empties a non-empty list |
| ProjectDialog.EditSections | frontend/src/components/admin/ProjectDialog.jsx:149-217 | section edits touch only the sections and keep at least one |
| ProjectDialog.SomePointIffFilterNonEmpty | frontend/src/components/admin/ProjectDialog.jsx:244-246 | filtering out the blank points leaves something exactly when some point is not blank |
| ProjectDialog.ValidationErrors | frontend/src/components/admin/ProjectDialog.jsx:219-252 | an error entry exists exactly for each failing field or section, with its message; there are none exactly when the form is valid |
| ProjectDialog.NoErrorsIffValid | frontend/src/components/admin/ProjectDialog.jsx:219-252 | no error entries exactly when every scalar is non-blank and every section has a title and a non-blank point |
| ProjectDialog.FailingKey | frontend/src/components/admin/ProjectDialog.jsx:219-252 | an invalid form has a failing key |
| ProjectDialog.CleanSection | frontend/src/components/admin/ProjectDialog.jsx:262-266 | a cleaned section has a trimmed title, only non-blank points drawn from the section, its order, and no category |
| ProjectDialog.CleanedSectionLacksOnlyCategory | frontend/src/components/admin/ProjectDialog.jsx:262-266 | a valid cleaned section would pass the server's description check if it had a category |
| ProjectDialog.IdOrNull | frontend/src/components/admin/ProjectDialog.jsx:271-272 | an empty choice is sent as null |
| ProjectDialog.PayloadOf | frontend/src/components/admin/ProjectDialog.jsx:268-273 | the payload carries the form's fields, the cleaned sections, and null for empty ids |
| ProjectDialog.RequestOf | frontend/src/components/admin/ProjectDialog.jsx:275-284 | a PUT to the edited project's id when editing, a POST otherwise |
| ProjectDialog.BeginSave | frontend/src/components/admin/ProjectDialog.jsx:254-258 | a request is sent exactly when the form is valid; otherwise the validation errors are shown |
| ProjectDialog.FinishSave | frontend/src/components/admin/ProjectDialog.jsx:286-308 | the dialog closes exactly on a 2xx reply with a project; otherwise it stays open with its form and one submit error: the server's non-empty `error` text, or "Failed to save project" when the body carries none |
| ProjectDialog.CreateRefusesUncategorised | backend/controllers/projectController.js:197-200 | create refuses descriptions without a category with 400 and writes nothing |
| ProjectDialog.UpdateRefusesUncategorised | backend/controllers/projectController.js:319-323 | update refuses descriptions without a category with 400 before deleting anything |
| ProjectDialog.EveryDialogSaveIsRefused | frontend/src/components/admin/ProjectDialog.jsx:262-284 | every request the dialog can send is refused with 400 and writes nothing; a valid form gets the missing-category message |
| ProjectDialog.ValidSaveEndsWithCategoryError | frontend/src/components/admin/ProjectDialog.jsx:254-308 | saving a valid form sends the request and ends with the dialog open, showing the missing-category error |
| ProjectsView.ToInt32 | frontend/src/components/admin/ProjectsView.jsx:70 | the shift's 32-bit wrap-around gives a signed 32-bit value congruent to the input |
| ProjectsView.TechnologyHash | frontend/src/components/admin/ProjectsView.jsx:68-71 | the loop computes the left fold of the step over the name's characters |
| ProjectsView.ColorIndex | frontend/src/components/admin/ProjectsView.jsx:72 | the index is the hash's absolute value modulo 12 |
| ProjectsView.TechnologyColor | frontend/src/components/admin/ProjectsView.jsx:51-74 | the colour is always one of the twelve palette entries |
| ProjectsView.SingleCharacterColor | frontend/src/components/admin/ProjectsView.jsx:68-73 | a one-letter name hashes to its character code |
| ProjectsView.HashBound | frontend/src/components/admin/ProjectsView.jsx:68-71 | the magnitude of the hash grows by at most 2^31 plus a character code per character |
| ProjectsView.HashExactForRealNames | frontend/src/components/admin/ProjectsView.jsx:68-71 | for names up to four million characters the hash and each intermediate difference stay below 2^53, where JavaScript numbers are exact integers |
| ProjectsView.HandleSubmit | frontend/src/components/admin/ProjectsView.jsx:119-136 | data with a truthy id only triggers a refresh; otherwise it is an update of the edited project or a create |
| ProjectsView.CreatedProjectOnlyRefreshes | frontend/src/components/admin/ProjectsView.jsx:119-126 | a project the create handler returns carries a positive id, so handing it over only refreshes |
| ProjectsView.HandleDeleteConfirm | frontend/src/components/admin/ProjectsView.jsx:98-117 | without a pending project nothing happens; otherwise the delete is called and the dialog closes and forgets the project; the refresh happens exactly when the delete succeeded and a refresh callback is given |
| ProjectsView.FooterLabel | frontend/src/components/admin/ProjectsView.jsx:144 | the label ends in "s" exactly when the count is not 1 |
| ProjectsView.FooterCountReadsBack | frontend/src/components/admin/ProjectsView.jsx:144 | the number in the footer reads back as the count |
| ReferenceHooks.FindClash | frontend/src/components/admin/hooks/useCategories.js:28-30 | the scan returns the first clashing entry, or none when nothing clashes |
| ReferenceHooks.FindClashIffHasClash | frontend/src/components/admin/hooks/useCategories.js:28-34 | the scan finds something exactly when some entry clashes |
| ReferenceHooks.HookKeyIgnoresCaseAndSpace | frontend/src/components/admin/hooks/useCategories.js:29 | the hook's comparison ignores case and surrounding white space |
| ReferenceHooks.UpdateCheckWithUnknownIdIsCreateCheck | frontend/src/components/admin/hooks/useCategories.js:60-63 | the update scan differs from the create scan only by skipping the updated id |
| ReferenceHooks.KeepingOwnNameIsNoClash | frontend/src/components/admin/hooks/useCategories.js:60-63 | renaming an entity to its own unique name is no duplicate for update, but would be one for create |
| ReferenceHooks.WriteError | frontend/src/components/admin/hooks/useCategories.js:42-50 | a non-ok reply reports the body's error or the default message; an exception reports its message |
| ReferenceHooks.Write | frontend/src/components/admin/hooks/useCategories.js:36-53 | success is reported only on an ok reply, and only after the refetch; a failure leaves the list unchanged |
| ReferenceHooks.Create | frontend/src/components/admin/hooks/useCategories.js:24-54 | a request is sent exactly when no listed name clashes; a clash fails with the duplicate message; success only on an ok reply, after the refetch |
| ReferenceHooks.Update | frontend/src/components/admin/hooks/useCategories.js:56-87 | as create, with the updated entity left out of the scan |
| ReferenceHooks.Delete | frontend/src/components/admin/hooks/useCategories.js:89-103 | a declined confirmation sends nothing and fails without an error; otherwise success only on an ok reply, after the refetch |
| ReferenceHooks.DuplicatesNeverReachTheServer | frontend/src/components/admin/hooks/useTechnologies.js:28-34 | a name equal to a listed one after lower-casing and trimming is never sent and leaves the list unchanged |
| ReferenceDialogs.Opened | frontend/src/components/admin/CategoryDialog.jsx:18-25 | opening loads the edited entity's name or the empty form, and clears the error |
| ReferenceDialogs.HandleChange | frontend/src/components/admin/CategoryDialog.jsx:27-30 | typing replaces the name and clears the error |
| ReferenceDialogs.HandleClose | frontend/src/components/admin/CategoryDialog.jsx:79-83 | closing resets the form and the error |
| ReferenceDialogs.TypingDecidesValidity | frontend/src/components/admin/CategoryDialog.jsx:86 | after typing, the button is enabled exactly when the trimmed name is non-empty |
| ReferenceDialogs.ExcludedId | frontend/src/components/admin/CategoriesView.jsx:28-34 | the hook skips the edited entity's id exactly when the dialog edits one |
| ReferenceDialogs.DialogClashIsHookClash | frontend/src/components/admin/CategoryDialog.jsx:32-38 | an entry that clashes for the dialog clashes for the hook |
| ReferenceDialogs.DialogDuplicateIsHookDuplicate | frontend/src/components/admin/TechnologyDialog.jsx:33-39 | every duplicate the dialog reports is one the hook would refuse |
| ReferenceDialogs.HookCatchesWhatTheDialogMisses | frontend/src/components/admin/BusinessTypeDialog.jsx:32-38 | a stored " Web" is no duplicate of "web" for the dialog but is one for the hook |
| ReferenceDialogs.ChecksAgreeOnTrimmedNames | frontend/src/components/admin/CategoryDialog.jsx:32-38 | when the stored names are trimmed, the dialog's and the hook's checks agree |
| ReferenceDialogs.DuplicateOfTrimmed | frontend/src/components/admin/CategoryDialog.jsx:43-51 | checking the already trimmed name is checking the typed one |
| ReferenceDialogs.BeginSubmit | frontend/src/components/admin/CategoryDialog.jsx:40-60 | a blank name sets the required error, a duplicate sets the duplicate error, and otherwise the trimmed name is handed over with the error cleared |
| ReferenceDialogs.FinishSubmit | frontend/src/components/admin/CategoryDialog.jsx:62-76 | success resets and closes; a reported error is shown and the dialog stays open; an exception shows the fixed text |
| ReferenceDialogs.Dispatch | frontend/src/components/admin/CategoriesView.jsx:28-34 | an edit is an update of the edited id, otherwise a create |
| ReferenceDialogs.Submit | frontend/src/components/admin/CategoryDialog.jsx:40-77 | a write is sent only for a non-blank name that is no duplicate for the dialog; without a write the list is unchanged |
| ReferenceDialogs.SubmitClosesOnlyOnSuccess | frontend/src/components/admin/CategoryDialog.jsx:60-69 | the dialog closes exactly when the hook reports success, which needs an ok reply and a name unique for the hook |
| ReferenceDialogs.HookRefusalShowsInDialog | frontend/src/components/admin/CategoryDialog.jsx:60-69 | a name the dialog passes but the hook refuses comes back as the duplicate message, with nothing sent |
| Session.GetItem | frontend/src/components/admin/ProtectedAdminRoute.jsx:4-5 | a missing key reads as null |
| Session.Guard | frontend/src/components/admin/ProtectedAdminRoute.jsx:3-18 | the children render exactly for a valid session (flag set, stamp parses, under a day old), with storage untouched; otherwise both keys are removed, other keys stay, and the route redirects to "/" |
| Session.DenialIsFinal | frontend/src/components/admin/ProtectedAdminRoute.jsx:10-15 | after a denial every later visit is denied too and changes nothing |
| Session.AdminCredentials | frontend/src/components/admin/AdminLoginDialog.jsx:42-45 | the configured pair, defaulting to admin/admin123 |
| Session.HandleChange | frontend/src/components/admin/AdminLoginDialog.jsx:47-54 | typing replaces one field and clears the error |
| Session.HandleClose | frontend/src/components/admin/AdminLoginDialog.jsx:85-90 | closing resets both fields, the error and the password toggle |
| Session.HandleSubmit | frontend/src/components/admin/AdminLoginDialog.jsx:56-83 | an exact match writes the flag and the time, goes to /admin, closes and clears; otherwise storage is untouched and the error is shown |
| Session.LoginLastsOneDay | frontend/src/components/admin/ProtectedAdminRoute.jsx:8 | after a login at t, access at time now is granted exactly when now - t < 86,400,000, so it is refused at exactly one day |
| Session.FailedLoginChangesNoAccess | frontend/src/components/admin/AdminLoginDialog.jsx:78-80 | a failed login changes no access decision |
| Session.CorrectCredentialsAreNeverBlocked | frontend/src/components/admin/AdminLoginDialog.jsx:42-66 | the configured credentials are never empty, so typing them enables the button when nothing loads, and the press opens the admin page |
| Theme.Saved | frontend/src/contexts/ThemeContext.jsx:16 | a missing key reads as null |
| Theme.InitialTheme | frontend/src/contexts/ThemeContext.jsx:15-18 | the saved theme, or "dark" when nothing is saved |
| Theme.Toggle | frontend/src/contexts/ThemeContext.jsx:26-28 | dark becomes light and everything else becomes dark |
| Theme.ToggleTwice | frontend/src/contexts/ThemeContext.jsx:26-28 | toggling twice is the identity on dark and light; any other name ends at light |
| Theme.FlagsExclusive | frontend/src/contexts/ThemeContext.jsx:34-35 | isDark and isLight never hold together, and after a toggle exactly one holds |
| Theme.Persist | frontend/src/contexts/ThemeContext.jsx:20-24 | the body has "light" exactly for the light theme and "dark" exactly for the dark one, its other classes stay, and the theme is saved |
| Theme.ThemeSurvivesReload | frontend/src/contexts/ThemeContext.jsx:15-24 | the next visit starts with the theme last shown |
| Theme.FirstToggleOfAFreshVisit | frontend/src/contexts/ThemeContext.jsx:15-28 | a fresh visit starts dark, and one toggle saves light |

## Left out

- The database, `fetch`, Express routing, static serving, timers, animations and rendering are not modelled. The network's answers, the user's confirmations and the clock are parameters.
- The database schema is not part of this model. Which rows the database refuses is modelled as a predicate, `ProjectController.RowAccepted`: references must exist and a technology may be linked at most once.
- ProjectController.DeleteProject: assumes the database deletes a project's technology links, images and descriptions with it (a cascade). The handler issues a bare `delete`; without a cascade, deleting a project that has children would be refused and answer 400.
- ProjectController.DescriptionRows: a submitted `order` is an integer or absent. The handler keeps any value other than `undefined`, so an explicit `null` (or a non-number) goes to the database as it is, and what the database then does depends on the schema. On update that write comes after the deletions. The dialog always sends a number.
- The read handlers' 500 answers, from a database failure, are not modelled.
- The update handler is modelled as one sequential step. The unguarded window between its deletions and its rewrite shows up only as the state a failure leaves behind.
- The thin technology, category and business-type controllers are single database calls and are not modelled. The server does not check name uniqueness.
- `toLowerCase` is modelled for ASCII letters only.
- ProjectsView.TechnologyHash: strings are sequences of characters, so a character outside the Basic Multilingual Plane counts as one code unit where JavaScript counts two.
- ProjectsView.TechnologyHash: the hash is a JavaScript double. The model is exact while the hash stays below 2^53 in magnitude, which `ProjectsView.HashExactForRealNames` shows for every name of up to four million characters; beyond that it uses unbounded integers.
- Carousel.FeaturedProjects: a non-array reply is modelled as a JSON object. A reply of `null` would throw when the page reads its `length`, and a JSON string or number is not modelled.
- ProjectDetail.GroupDescriptions: groups appear in the order their keys first occur. JavaScript lists integer-like keys (a category named "2") first, in numeric order; that reordering is not modelled. The groups are collected in a plain object, so a category named after an inherited property ("constructor", "toString") finds a function there and the `push` throws, failing the page; the model groups such a description like any other.
- `Seqs.SortBy` is a stable insertion sort. The model does not claim the engine's sort is stable, only that the result is sorted and a permutation.
- ProjectDetail.EmbedUrl: the id is what the code extracts, the text after the first "v=" up to the next "&" or "v=". Whether that is a valid video id is not modelled.
- ProjectController.ProjectPayload: the fields carry their JSON types (strings, integers, booleans, lists of objects). A request whose values have other types is not modelled: a `null` description entry (whose `category` read throws and answers 400 with the exception's message), a `descriptions` object instead of a list, a `featured` string such as "false" (which `Boolean` turns into true), or a non-string `title` on update (whose `trim` throws). Image entries alone may be `null`.
- `handleStepChange` (a direct jump to a step) and the gallery thumbnails are not modelled.
- The loading flags and `isSubmitting` are not modelled. Every handler is one atomic step.
- ProjectDialog.FinishSave: a 2xx reply whose body is not a project is treated as an error. An `onSave` callback that throws is not modelled.
- ProjectController.ViewOfValidStore: the technologies come back in the order of the submitted ids. The `include` of the technology links has no `orderBy`, so the real order is whatever the database returns, and so is the choice of the "first three" chips on the cards.
- ReferenceHooks.Write: the refetch after a write stores whatever JSON the list endpoint answers with, without checking the status. A 500 answer's `{ error }` object would replace the list, and the next create or update would then fail on `.find`. The model's refetch either yields an array or fails with an exception that leaves the list unchanged.
- ReferenceHooks.Write: a stored name that is `null` would make the hook's scan throw. Names are always strings in this model.
- ReferenceHooks.Delete: the non-ok branch does not read the response body, and the model does not either.
- Session.HandleSubmit: the one-second delay before the check is not modelled. Navigation is a returned value.

## Findings

| source | as written | input that shows it | evidently intended | confidence | as-written member | corrected member |
|---|---|---|---|---|---|---|
| frontend/src/components/project-details/ProjectDetail.jsx:72-78 | `getSectionIcon` tests `includes('ui')` before `includes('build')`, and "build" contains "ui" | the section title "Build Process" gets the palette icon, not the build icon | a title with "build" and no earlier keyword gets the build icon | not executed | ProjectDetail.BuildKeywordIsShadowed | ProjectDetail.IntendedBuildIcon |

## Notes on the code

- Create checks its four scalars for truthiness only, so a title of spaces passes. Update trims them.
- Update's `descriptions` defaults to `[]`, so an update that omits the list is refused. An update with a `null` list passes the checks and then fails after its deletions.
- An update of an absent id gets past the checks and fails in the database call, so it answers 400 rather than 404.
- The project dialog never sends a description category, and both handlers require one. So every save from that dialog is refused (ProjectDialog.EveryDialogSaveIsRefused).
- The reference-list hooks compare `name.toLowerCase().trim()` on both sides. The dialogs trim only the typed name. The hook therefore refuses some names the dialog lets through, and its message then appears in the dialog.

=== FILE: admin_page.dfy ===
/** The admin project page: its list of projects, the card preview and
    chips, and the list updates after a save or a delete. */
module AdminPage {
  import opened Wrappers
  import opened ProjectController
  import opened ProjectLists
  import MainPage
  import Seqs
  import JsText

  const NoDescription := "No description available"
  const DeleteFailed := "Failed to delete project. Please try again."

  datatype AdminState = AdminState(
    projects: seq<ProjectView>,
    error: Option<string>,
    dialogOpen: bool,
    selected: Option<ProjectView>,
    deleteDialogOpen: bool,
    toDelete: Option<ProjectView>)

  /** `getDescriptionPreview`: the first point of the first description, or
      the fixed fallback. */
  function DescriptionPreview(descs: seq<DescriptionView>): (r: string)
    ensures |descs| == 0 ==> r == NoDescription
    ensures |descs| > 0 && |descs[0].points| == 0 ==> r == NoDescription
    ensures |descs| > 0 && |descs[0].points| > 0 ==> r == descs[0].points[0]
  {
    Preview(descs, NoDescription)
  }

  /** A card's technology chips, with a "+k more" label. */
  function CardChips(p: ProjectView): (r: ChipRow<RefEntity>)
    ensures |r.shown| == Seqs.Min(|p.technologies|, MaxChips) && r.shown <= p.technologies
    ensures r.more == if |p.technologies| > MaxChips
      then Some("+" + JsText.NatToString(|p.technologies| - MaxChips) + " more") else None
    ensures r == MainPage.CardChips(p)
  {
    Chips(p.technologies, " more")
  }

  /** `handleProjectSaved`: an edit replaces by id, a create prepends, and
      the dialog closes. */
  function ProjectSaved(s: AdminState, saved: ProjectView): (r: AdminState)
    ensures r.projects == SaveIntoList(s.projects, saved, s.selected.Some?)
    ensures !r.dialogOpen && r.selected.None?
  {
    s.(projects := SaveIntoList(s.projects, saved, s.selected.Some?), dialogOpen := false, selected := None)
  }

  /** `confirmDelete` given whether the DELETE request answered ok: on ok the
      project leaves the list and the dialog closes; otherwise only the
      error changes. */
  function ConfirmDelete(s: AdminState, ok: bool): (r: AdminState)
    ensures s.toDelete.None? ==> r == s
    ensures s.toDelete.Some? && ok ==>
      r.projects == RemoveById(s.projects, s.toDelete.value.id) && !r.deleteDialogOpen && r.toDelete.None?
    ensures s.toDelete.Some? && !ok ==> r == s.(error := Some(DeleteFailed))
  {
    match s.toDelete
    case None => s
    case Some(victim) =>
      if ok then s.(projects := RemoveById(s.projects, victim.id), deleteDialogOpen := false, toDelete := None)
      else s.(error := Some(DeleteFailed))
  }

  /** The admin page and the public page treat a save and a delete alike:
      from the same list and the same pending project they reach the same
      list. The two previews differ only in their fallback text. */
  lemma SameListUpdatesAsPublicPage(a: AdminState, m: MainPage.PageState, saved: ProjectView, ok: bool)
    requires a.projects == m.arr && a.selected.Some? == m.selected.Some? && a.toDelete == m.toDelete
    ensures ProjectSaved(a, saved).projects == MainPage.ProjectSaved(m, saved).arr
    ensures ConfirmDelete(a, ok).projects == MainPage.ConfirmDelete(m, ok).arr
    ensures forall p: ProjectView :: FirstPoint(p.descriptions).Some? ==>
      DescriptionPreview(p.descriptions) == MainPage.ProjectDescription(p)
  {
  }
}

=== FILE: carousel.dfy ===
/** The featured-projects carousel: the fetched list, its grouping into
    slides of one (mobile) or two (desktop) projects, and the chip row of
    each card. */
module Carousel {
  import opened Wrappers
  import opened JsText
  import Seqs
  import opened ProjectController
  import opened ProjectLists

  /** What the featured-projects request produced: the reply's body parsed
      as a JSON array (whatever the status, since `res.ok` is not checked),
      parsed as some other JSON object (the `{ error }` body of a failing
      request), or a failure (a network error, or a body that is not JSON). */
  datatype FeaturedFetch = Loaded(items: seq<ProjectView>) | NotArray | FetchFailed

  /** The projects `groupProjects` walks through. The reply is stored as it
      came, and a failure stores `[]`; a non-array object has no `length`,
      so the loop's `i < projects.length` is false at once and it groups as
      no projects. */
  function FeaturedProjects(f: FeaturedFetch): (r: seq<ProjectView>)
    ensures f.Loaded? ==> r == f.items
    ensures !f.Loaded? ==> r == []
  {
    match f
    case Loaded(items) => items
    case _ => []
  }

  /** `featuredProjects.length === 0`, the test for the "No featured
      projects" message: a non-array object's `length` is `undefined`,
      which is not 0. */
  predicate ShowsEmptyMessage(f: FeaturedFetch)
  {
    match f
    case Loaded(items) => |items| == 0
    case NotArray => false
    case FetchFailed => true
  }

  /** The message appears exactly when there is nothing to show and the
      stored value is an array; a non-array reply shows neither the message
      nor a single slide. */
  lemma EmptyMessageIffNothingToShow(f: FeaturedFetch)
    ensures ShowsEmptyMessage(f) <==> |FeaturedProjects(f)| == 0 && !f.NotArray?
    ensures f.NotArray? ==> !ShowsEmptyMessage(f) && FeaturedProjects(f) == []
    ensures ShowsEmptyMessage(f) ==> FeaturedProjects(f) == []
  {
  }

  /** `isMobile ? 1 : 2`. */
  function ItemsPerSlide(isMobile: bool): (r: nat)
    ensures 1 <= r <= 2
    ensures r == 1 <==> isMobile
  {
    if isMobile then 1 else 2
  }

  /** `groupProjects`: a loop that pushes `projects.slice(i, i + n)` for
      `i = 0, n, 2n, ...` while `i < projects.length`. The result is the
      chunking of the list into pieces of `n`. */
  method GroupProjects(projects: seq<ProjectView>, n: nat) returns (grouped: seq<seq<ProjectView>>)
    requires n > 0
    ensures grouped == Seqs.Chunks(projects, n)
    ensures Seqs.Flatten(grouped) == projects
  {
    grouped := [];
    var i := 0;
    while i < |projects|
      invariant 0 <= i
      invariant grouped + Seqs.Chunks(projects[Seqs.Min(i, |projects|)..], n) == Seqs.Chunks(projects, n)
      decreases |projects| - i
    {
      var rest := projects[i..];
      var piece := Seqs.Slice(projects, i, i + n);
      if |rest| <= n {
        assert piece == rest;
        assert Seqs.Chunks(rest, n) == [piece];
        assert projects[Seqs.Min(i + n, |projects|)..] == [];
      } else {
        assert piece == rest[..n];
        assert rest[n..] == projects[i + n..];
        assert Seqs.Chunks(rest, n) == [piece] + Seqs.Chunks(projects[i + n..], n);
      }
      grouped := grouped + [piece];
      i := i + n;
    }
    assert projects[Seqs.Min(i, |projects|)..] == [];
    assert grouped + [] == grouped;
    Seqs.FlattenChunks(projects, n);
  }

  /** The slides shown: every featured project appears once, in order, each
      slide holds between one and `ItemsPerSlide` projects, only the last may
      hold fewer, and there are ceil(count / per slide) of them. */
  method Slides(f: FeaturedFetch, isMobile: bool) returns (slides: seq<seq<ProjectView>>)
    ensures Seqs.Flatten(slides) == FeaturedProjects(f)
    ensures forall k :: 0 <= k < |slides| ==> 1 <= |slides[k]| <= ItemsPerSlide(isMobile)
    ensures forall k :: 0 <= k < |slides| - 1 ==> |slides[k]| == ItemsPerSlide(isMobile)
    ensures |slides| * ItemsPerSlide(isMobile) >= |FeaturedProjects(f)|
    ensures |FeaturedProjects(f)| > 0 ==> (|slides| - 1) * ItemsPerSlide(isMobile) < |FeaturedProjects(f)|
    ensures |slides| == 0 <==> |FeaturedProjects(f)| == 0
  {
    var projects := FeaturedProjects(f);
    var n := ItemsPerSlide(isMobile);
    slides := GroupProjects(projects, n);
    Seqs.ChunkSizes(projects, n);
    Seqs.ChunkCount(projects, n);
  }

  /** On mobile every slide is a single project. */
  lemma MobileSlidesAreSingletons(projects: seq<ProjectView>)
    ensures |Seqs.Chunks(projects, ItemsPerSlide(true))| == |projects|
    ensures forall k :: 0 <= k < |projects| ==> Seqs.Chunks(projects, ItemsPerSlide(true))[k] == [projects[k]]
  {
    var c := Seqs.Chunks(projects, 1);
    Seqs.ChunkCount(projects, 1);
    forall k | 0 <= k < |projects|
      ensures c[k] == [projects[k]]
    {
      Seqs.ChunkIsSlice(projects, 1, k);
    }
  }

  /** A carousel card's chips: the first three technologies and, when there
      are more, a bare "+k" label with no trailing word. */
  function CarouselChips(p: ProjectView): (r: ChipRow<RefEntity>)
    ensures r.shown <= p.technologies
    ensures r.more.None? ==> r.shown == p.technologies
    ensures r.more.Some? <==> |p.technologies| > MaxChips
    ensures r.more.Some? ==> |r.shown| == MaxChips
    ensures r.more.Some? ==> r.more.value == "+" + NatToString(|p.technologies| - MaxChips)
  {
    var r := Chips(p.technologies, "");
    assert r.more.Some? ==> r.more.value == "+" + NatToString(|p.technologies| - MaxChips) + "";
    r
  }

  /** The number on the "+k" chip is the count of technologies not shown. */
  lemma CarouselChipsCount(p: ProjectView)
    ensures var r := CarouselChips(p);
      r.more.Some? ==> ParseInt(r.more.value[1..]) == Some(|p.technologies| - MaxChips)
  {
    ChipsAccountForAll(p.technologies, "");
  }
}

=== FILE: js_text.dfy ===
/** The JavaScript string operations the portfolio code relies on:
    `trim`, `toLowerCase`, `includes`, `endsWith`, `split`, `Number#toString`
    and `parseInt`, written over Dafny strings (sequences of characters). */
module JsText {
  import opened Wrappers

  // ---------------------------------------------------------------------
  // Trimming

  /** The characters `String.prototype.trim` removes: the ECMAScript
      WhiteSpace (tab, vertical tab, form feed, space, no-break space,
      byte order mark and every space separator) and LineTerminator
      (line feed, carriage return, line and paragraph separators) sets. */
  const WhiteSpace: set<char> := {
    '\t', '\n', '\U{000B}', '\U{000C}', '\r', ' ', '\U{00A0}', '\U{1680}',
    '\U{2000}', '\U{2001}', '\U{2002}', '\U{2003}', '\U{2004}', '\U{2005}',
    '\U{2006}', '\U{2007}', '\U{2008}', '\U{2009}', '\U{200A}',
    '\U{2028}', '\U{2029}', '\U{202F}', '\U{205F}', '\U{3000}', '\U{FEFF}'
  }

  /** Membership in `WhiteSpace`, written as ranges: tab to carriage return
      are contiguous, and so are the spaces U+2000 to U+200A. */
  predicate IsSpace(c: char)
  {
    || '\t' <= c <= '\r' || c == ' ' || c == '\U{00A0}' || c == '\U{1680}'
    || '\U{2000}' <= c <= '\U{200A}'
    || c == '\U{2028}' || c == '\U{2029}' || c == '\U{202F}' || c == '\U{205F}'
    || c == '\U{3000}' || c == '\U{FEFF}'
  }

  /** The ranges are exactly the ECMAScript white space and line terminators. */
  lemma IsSpaceIsWhiteSpace(c: char)
    ensures IsSpace(c) <==> c in WhiteSpace
  {
    if '\t' <= c <= '\r' {
      assert c as int in {9, 10, 11, 12, 13};
    }
    if '\U{2000}' <= c <= '\U{200A}' {
      assert c as int in {0x2000, 0x2001, 0x2002, 0x2003, 0x2004, 0x2005,
        0x2006, 0x2007, 0x2008, 0x2009, 0x200A};
    }
  }

  /** `trimStart`: drops the leading white space. */
  function TrimStart(s: string): (r: string)
    ensures |r| <= |s| && r == s[|s| - |r|..]
    ensures |r| > 0 ==> !IsSpace(r[0])
    ensures forall i :: 0 <= i < |s| - |r| ==> IsSpace(s[i])
  {
    if |s| > 0 && IsSpace(s[0]) then
      assert forall i :: 1 <= i < |s| ==> s[i] == s[1..][i - 1];
      TrimStart(s[1..])
    else s
  }

  /** `trimEnd`: drops the trailing white space. */
  function TrimEnd(s: string): (r: string)
    ensures |r| <= |s| && r == s[..|r|]
    ensures |r| > 0 ==> !IsSpace(r[|r| - 1])
    ensures forall i :: |r| <= i < |s| ==> IsSpace(s[i])
  {
    if |s| > 0 && IsSpace(s[|s| - 1]) then
      assert forall i :: 0 <= i < |s| - 1 ==> s[i] == s[..|s| - 1][i];
      TrimEnd(s[..|s| - 1])
    else s
  }

  /** `trim`: drops white space at both ends. */
  function Trim(s: string): string
  {
    TrimEnd(TrimStart(s))
  }

  /** `!s.trim()`: the string is empty once trimmed. */
  predicate Blank(s: string)
  {
    Trim(s) == ""
  }

  /** The trimmed string is a contiguous piece of the input with no white
      space at either end, and everything cut away is white space. */
  lemma TrimIsCore(s: string) returns (a: nat, b: nat)
    ensures a <= b <= |s| && Trim(s) == s[a..b]
    ensures forall i :: 0 <= i < a ==> IsSpace(s[i])
    ensures forall i :: b <= i < |s| ==> IsSpace(s[i])
    ensures |Trim(s)| > 0 ==> !IsSpace(Trim(s)[0]) && !IsSpace(Trim(s)[|Trim(s)| - 1])
  {
    a, b := TrimCut(s);
    TrimEndsInText(s);
  }

  /** Where `trim` cuts: everything before `a` and from `b` on is white space. */
  lemma TrimCut(s: string) returns (a: nat, b: nat)
    ensures a <= b <= |s| && Trim(s) == s[a..b]
    ensures forall i :: 0 <= i < a ==> IsSpace(s[i])
    ensures forall i :: b <= i < |s| ==> IsSpace(s[i])
  {
    var t := TrimStart(s);
    var e := TrimEnd(t);
    assert Trim(s) == e;
    a := |s| - |t|;
    b := a + |e|;
    assert t == s[a..] && e == t[..|e|];
    assert s[a..b] == t[..|e|];
    SpacesAfterCut(s, a, |e|);
  }

  /** A non-empty trimmed string starts and ends with a non-space. */
  lemma TrimEndsInText(s: string)
    ensures |Trim(s)| > 0 ==> !IsSpace(Trim(s)[0]) && !IsSpace(Trim(s)[|Trim(s)| - 1])
  {
    var t := TrimStart(s);
    var e := TrimEnd(t);
    assert Trim(s) == e;
    if |e| > 0 {
      assert e[0] == t[0];
    }
  }

  /** White space trailing the suffix `s[a..]` trails `s` too. */
  lemma SpacesAfterCut(s: string, a: nat, k: nat)
    requires a <= |s| && k <= |s| - a
    requires forall i :: k <= i < |s| - a ==> IsSpace(s[a..][i])
    ensures forall i :: a + k <= i < |s| ==> IsSpace(s[i])
  {
    forall i | a + k <= i < |s| ensures IsSpace(s[i]) {
      assert s[i] == s[a..][i - a];
    }
  }

  /** A string is blank exactly when all of its characters are white space. */
  lemma {:induction false} BlankIffAllSpace(s: string)
    ensures Blank(s) <==> forall i :: 0 <= i < |s| ==> IsSpace(s[i])
  {
    if |s| > 0 && IsSpace(s[0]) {
      BlankIffAllSpace(s[1..]);
      assert Trim(s) == Trim(s[1..]);
      assert forall i :: 1 <= i < |s| ==> s[i] == s[1..][i - 1];
    } else if |s| > 0 {
      assert TrimStart(s) == s;
      assert !IsSpace(s[0]);
      assert |Trim(s)| > 0;
    }
  }

  /** Trimming twice is trimming once. */
  lemma TrimIdempotent(s: string)
    ensures Trim(Trim(s)) == Trim(s)
  {
    var t := Trim(s);
    if |t| > 0 {
      var _, _ := TrimIsCore(s);
      assert TrimStart(t) == t;
      assert TrimEnd(t) == t;
    }
  }

  // ---------------------------------------------------------------------
  // Lower case

  /** `toLowerCase` on one character, for the ASCII letters. */
  function LowerChar(c: char): (r: char)
    ensures 'A' <= c <= 'Z' ==> r != c && 'a' <= r <= 'z'
    ensures !('A' <= c <= 'Z') ==> r == c
  {
    if 'A' <= c <= 'Z' then (c as int - 'A' as int + 'a' as int) as char else c
  }

  /** `toLowerCase`, character by character. */
  function ToLower(s: string): (r: string)
    ensures |r| == |s|
    ensures forall i :: 0 <= i < |s| ==> r[i] == LowerChar(s[i])
  {
    if |s| == 0 then "" else [LowerChar(s[0])] + ToLower(s[1..])
  }

  /** Lower-casing twice is lower-casing once. */
  lemma ToLowerIdempotent(s: string)
    ensures ToLower(ToLower(s)) == ToLower(s)
  {
    var l := ToLower(s);
    assert forall i :: 0 <= i < |s| ==> ToLower(l)[i] == l[i];
  }

  /** Lower-casing and trimming commute, because lower-casing neither makes
      nor unmakes white space. */
  lemma {:induction false} TrimLowerCommute(s: string)
    ensures Trim(ToLower(s)) == ToLower(Trim(s))
  {
    TrimStartLower(s);
    TrimEndLower(TrimStart(s));
  }

  lemma LowerKeepsSpace(c: char)
    ensures IsSpace(LowerChar(c)) == IsSpace(c)
  {
  }

  lemma {:induction false} TrimStartLower(s: string)
    ensures TrimStart(ToLower(s)) == ToLower(TrimStart(s))
  {
    if |s| > 0 {
      var l := ToLower(s);
      assert l[0] == LowerChar(s[0]);
      LowerKeepsSpace(s[0]);
      assert l[1..] == ToLower(s[1..]);
      if IsSpace(s[0]) {
        TrimStartLower(s[1..]);
      }
    }
  }

  lemma {:induction false} TrimEndLower(s: string)
    ensures TrimEnd(ToLower(s)) == ToLower(TrimEnd(s))
    decreases |s|
  {
    if |s| > 0 {
      if IsSpace(s[|s| - 1]) {
        TrimEndLower(s[..|s| - 1]);
        TrimEndLowerSpace(s);
      } else {
        TrimEndLowerStop(s);
      }
    }
  }

  /** A trailing space is dropped on both sides of the equation. */
  lemma TrimEndLowerSpace(s: string)
    requires |s| > 0 && IsSpace(s[|s| - 1])
    requires TrimEnd(ToLower(s[..|s| - 1])) == ToLower(TrimEnd(s[..|s| - 1]))
    ensures TrimEnd(ToLower(s)) == ToLower(TrimEnd(s))
  {
    var n := |s| - 1;
    var l := ToLower(s);
    LowerKeepsSpace(s[n]);
    assert l[..n] == ToLower(s[..n]);
    assert TrimEnd(l) == TrimEnd(l[..n]);
  }

  /** A last character that is not a space stops both trims. */
  lemma TrimEndLowerStop(s: string)
    requires |s| > 0 && !IsSpace(s[|s| - 1])
    ensures TrimEnd(ToLower(s)) == ToLower(TrimEnd(s))
  {
    LowerKeepsSpace(s[|s| - 1]);
    assert TrimEnd(ToLower(s)) == ToLower(s);
  }

  // ---------------------------------------------------------------------
  // Searching

  /** `sub` occurs in `s` starting at position `i`. */
  predicate OccursAt(s: string, sub: string, i: nat)
  {
    i + |sub| <= |s| && s[i..i + |sub|] == sub
  }

  /** The first position at or after `k` where `sub` occurs (`indexOf`). */
  function IndexFrom(s: string, sub: string, k: nat): (r: Option<nat>)
    requires k <= |s|
    ensures r.Some? ==> k <= r.value <= |s| && OccursAt(s, sub, r.value)
    ensures r.Some? ==> forall j :: k <= j < r.value ==> !OccursAt(s, sub, j)
    ensures r.None? ==> forall j :: k <= j <= |s| ==> !OccursAt(s, sub, j)
    decreases |s| - k
  {
    if OccursAt(s, sub, k) then Some(k)
    else if k == |s| then None
    else IndexFrom(s, sub, k + 1)
  }

  function IndexOf(s: string, sub: string): Option<nat>
  {
    IndexFrom(s, sub, 0)
  }

  /** `s.includes(sub)`. */
  predicate Contains(s: string, sub: string)
  {
    IndexOf(s, sub).Some?
  }

  /** `includes` holds exactly when the pattern occurs somewhere. */
  lemma ContainsIff(s: string, sub: string)
    ensures Contains(s, sub) <==> exists i: nat :: i <= |s| && OccursAt(s, sub, i)
  {
  }

  /** A string that contains `big` contains everything `big` contains. */
  lemma ContainsWithin(s: string, big: string, sub: string)
    requires Contains(s, big) && Contains(big, sub)
    ensures Contains(s, sub)
  {
    ContainsIff(s, big);
    ContainsIff(big, sub);
    var i: nat :| i <= |s| && OccursAt(s, big, i);
    var j: nat :| j <= |big| && OccursAt(big, sub, j);
    forall k | 0 <= k < |sub|
      ensures s[i + j + k] == sub[k]
    {
      assert big[j..j + |sub|][k] == sub[k];
      assert s[i..i + |big|][j + k] == big[j + k];
    }
    assert s[i + j..i + j + |sub|] == sub;
    assert OccursAt(s, sub, i + j);
    ContainsIff(s, sub);
  }

  /** `s.endsWith(suffix)`, and the regular expressions anchored with `$`. */
  predicate EndsWith(s: string, suffix: string)
  {
    |suffix| <= |s| && s[|s| - |suffix|..] == suffix
  }

  /** Appending a suffix makes the text end with it. */
  lemma EndsWithAppended(a: string, b: string)
    ensures EndsWith(a + b, b)
  {
    assert (a + b)[|a|..] == b;
  }

  /** `s.split(sep)[0]`: the text before the first separator, or all of it. */
  function BeforeFirst(s: string, sep: string): (r: string)
    ensures r <= s
  {
    match IndexOf(s, sep)
    case Some(i) => s[..i]
    case None => s
  }

  /** The text before the first separator holds no separator. */
  lemma BeforeFirstStops(s: string, sep: string)
    requires |sep| > 0
    ensures !Contains(BeforeFirst(s, sep), sep)
  {
    var r := BeforeFirst(s, sep);
    match IndexOf(s, sep) {
      case None =>
        assert r == s;
      case Some(i) =>
        assert r == s[..i];
        forall j: nat | j <= |r|
          ensures !OccursAt(r, sep, j)
        {
          if j + |sep| <= |r| {
            assert r[j..j + |sep|] == s[j..j + |sep|];
            assert !OccursAt(s, sep, j);
          }
        }
        ContainsIff(r, sep);
    }
  }

  /** A pattern whose first character does not occur in `a` occurs in
      `a + b` exactly when it occurs in `b`. */
  lemma ContainsAfter(a: string, b: string, sub: string)
    requires |sub| > 0 && sub[0] !in a
    ensures Contains(a + b, sub) <==> Contains(b, sub)
  {
    var s := a + b;
    ContainsIff(s, sub);
    ContainsIff(b, sub);
    if Contains(s, sub) {
      var i: nat :| i <= |s| && OccursAt(s, sub, i);
      assert s[i..i + |sub|][0] == s[i];
      assert s[i..i + |sub|] == b[i - |a|..i - |a| + |sub|];
      assert OccursAt(b, sub, i - |a|);
    }
    if Contains(b, sub) {
      var j: nat :| j <= |b| && OccursAt(b, sub, j);
      assert s[|a| + j..|a| + j + |sub|] == b[j..j + |sub|];
      assert OccursAt(s, sub, |a| + j);
    }
  }

  /** The text after the first separator, when there is one. With
      `BeforeFirst` this gives `s.split(sep)[1]`. */
  function AfterFirst(s: string, sep: string): (r: Option<string>)
    ensures r.Some? <==> Contains(s, sep)
  {
    match IndexOf(s, sep)
    case Some(i) => Some(s[i + |sep|..])
    case None => None
  }

  /** `s.split(sep)[1]` for a non-empty separator: the piece between the
      first and the second separator (or the end of the string); missing
      (`undefined`) when the separator does not occur. */
  function SplitSecond(s: string, sep: string): (r: Option<string>)
    requires |sep| > 0
    ensures r.Some? <==> Contains(s, sep)
  {
    match AfterFirst(s, sep)
    case Some(rest) => Some(BeforeFirst(rest, sep))
    case None => None
  }

  /** The piece before the first separator stops at the first occurrence:
      none starts inside it, and one starts right after it unless it is
      all of `s`. */
  lemma BeforeFirstIsFirst(s: string, sep: string)
    ensures var r := BeforeFirst(s, sep);
      && (forall j: nat :: j < |r| ==> !OccursAt(s, sep, j))
      && (r == s || OccursAt(s, sep, |r|))
  {
    match IndexOf(s, sep) {
      case None =>
      case Some(i) =>
        assert BeforeFirst(s, sep) == s[..i];
    }
  }

  /** Either stop pattern starts at position `j` of `s`. */
  predicate StopsAt(s: string, marker: string, stop: string, j: nat)
  {
    OccursAt(s, stop, j) || OccursAt(s, marker, j)
  }

  /** `id` is the text at the start of `rest` up to the first place where
      `stop` or `marker` starts, or all of `rest` when neither does. */
  predicate UpToFirst(id: string, rest: string, marker: string, stop: string)
  {
    && id <= rest
    && (forall j: nat :: j < |id| ==> !StopsAt(rest, marker, stop, j))
    && (|id| == |rest| || StopsAt(rest, marker, stop, |id|))
  }

  /** `rest.split(marker)[0].split(stop)[0]` for a one-character `stop` is
      `rest` up to the first `stop` or `marker`. */
  lemma PieceIsUpToFirst(rest: string, marker: string, stop: string)
    requires |marker| > 0 && |stop| == 1
    ensures UpToFirst(BeforeFirst(BeforeFirst(rest, marker), stop), rest, marker, stop)
  {
    var x := BeforeFirst(rest, marker);
    var id := BeforeFirst(x, stop);
    BeforeFirstIsFirst(rest, marker);
    BeforeFirstIsFirst(x, stop);
    assert id <= x <= rest;
    forall j: nat | j < |id|
      ensures !StopsAt(rest, marker, stop, j)
    {
      assert !OccursAt(x, stop, j) && !OccursAt(rest, marker, j);
      assert x[j..j + 1] == rest[j..j + 1];
    }
    if |id| < |x| {
      assert x[|id|..|id| + 1] == rest[|id|..|id| + 1];
    }
  }

  /** At most one piece of `rest` is `rest` up to the first stop. */
  lemma UpToFirstUnique(a: string, b: string, rest: string, marker: string, stop: string)
    requires UpToFirst(a, rest, marker, stop) && UpToFirst(b, rest, marker, stop)
    ensures a == b
  {
    assert |a| == |b|;
    assert a == rest[..|a|];
  }

  /** A piece free of `stop` and `marker`, followed by the one-character
      `stop`, is its text up to the first stop, whatever comes after. */
  lemma PieceBeforeStop(id: string, stop: string, tail: string, marker: string)
    requires |stop| == 1 && |marker| > 0 && stop[0] !in marker
    requires !Contains(id, stop) && !Contains(id, marker)
    ensures UpToFirst(id, id + stop + tail, marker, stop)
  {
    var rest := id + stop + tail;
    ContainsIff(id, stop);
    ContainsIff(id, marker);
    forall j: nat | j < |id|
      ensures !StopsAt(rest, marker, stop, j)
    {
      assert !OccursAt(id, stop, j);
      assert rest[j..j + 1] == id[j..j + 1];
      if j + |marker| <= |id| {
        assert rest[j..j + |marker|] == id[j..j + |marker|];
        assert !OccursAt(id, marker, j);
      } else if j + |marker| <= |rest| {
        assert rest[j..j + |marker|][|id| - j] == stop[0];
      }
    }
    assert rest[|id|..|id| + 1] == stop;
  }

  // ---------------------------------------------------------------------
  // Numbers as text

  function DigitChar(d: nat): (c: char)
    requires d < 10
    ensures '0' <= c <= '9'
  {
    ('0' as int + d) as char
  }

  /** `n.toString()` for a non-negative integer (below 10^21, where
      JavaScript would switch to exponent notation). */
  function NatToString(n: nat): (r: string)
    ensures |r| > 0
    ensures forall i :: 0 <= i < |r| ==> '0' <= r[i] <= '9'
    ensures r[0] == '0' ==> n == 0 && |r| == 1
  {
    if n < 10 then [DigitChar(n)] else NatToString(n / 10) + [DigitChar(n % 10)]
  }

  /** The value of one character as a digit of the given radix (10 or 16). */
  function DigitValue(c: char, radix: nat): Option<nat>
  {
    if '0' <= c <= '9' then Some(c as int - '0' as int)
    else if radix == 16 && 'a' <= c <= 'f' then Some(c as int - 'a' as int + 10)
    else if radix == 16 && 'A' <= c <= 'F' then Some(c as int - 'A' as int + 10)
    else None
  }

  /** Length of the longest prefix of `s` made of digits of the radix. */
  function DigitRun(s: string, radix: nat): (n: nat)
    ensures n <= |s|
    ensures forall i :: 0 <= i < n ==> DigitValue(s[i], radix).Some?
    ensures n < |s| ==> DigitValue(s[n], radix).None?
  {
    if |s| > 0 && DigitValue(s[0], radix).Some? then 1 + DigitRun(s[1..], radix) else 0
  }

  /** The number a run of digits denotes, most significant digit first. */
  function DigitsValue(z: string, radix: nat): nat
    requires forall i :: 0 <= i < |z| ==> DigitValue(z[i], radix).Some?
  {
    if |z| == 0 then 0
    else DigitsValue(z[..|z| - 1], radix) * radix + DigitValue(z[|z| - 1], radix).value
  }

  /** `parseInt(s)` with no radix argument: leading white space is skipped,
      one sign is read, a "0x"/"0X" prefix selects radix 16, and the longest
      run of digits that follows is read; no digits at all gives NaN (None). */
  function ParseInt(s: string): Option<int>
  {
    var t := TrimStart(s);
    var negative := |t| > 0 && t[0] == '-';
    var u := if |t| > 0 && (t[0] == '-' || t[0] == '+') then t[1..] else t;
    ParseUnsigned(u, negative)
  }

  /** The part of `parseInt` after the sign: the radix prefix and digits. */
  function ParseUnsigned(u: string, negative: bool): Option<int>
  {
    var hex := |u| >= 2 && u[0] == '0' && (u[1] == 'x' || u[1] == 'X');
    if hex then ParseDigits(u[2..], 16, negative) else ParseDigits(u, 10, negative)
  }

  function ParseDigits(v: string, radix: nat, negative: bool): Option<int>
  {
    var n := DigitRun(v, radix);
    if n == 0 then None
    else
      var magnitude: int := DigitsValue(v[..n], radix);
      Some(if negative then -magnitude else magnitude)
  }

  lemma {:induction false} DigitsValueOfNatToString(n: nat)
    ensures forall i :: 0 <= i < |NatToString(n)| ==> DigitValue(NatToString(n)[i], 10).Some?
    ensures DigitsValue(NatToString(n), 10) == n
  {
    var r := NatToString(n);
    if n >= 10 {
      DigitsValueOfNatToString(n / 10);
      assert r[..|r| - 1] == NatToString(n / 10);
    }
  }

  /** Reading back what `toString` wrote gives the number again. */
  lemma ParseIntOfNatToString(n: nat)
    ensures ParseInt(NatToString(n)) == Some(n)
  {
    ParseIntOfNatToStringThen(n, "");
    assert NatToString(n) + "" == NatToString(n);
  }

  /** The same when other text follows, as long as it does not continue the
      number: `parseInt` stops at the first character that is not a digit. */
  lemma ParseIntOfNatToStringThen(n: nat, rest: string)
    requires |rest| == 0 || (DigitValue(rest[0], 10).None? && rest[0] != 'x' && rest[0] != 'X')
    ensures ParseInt(NatToString(n) + rest) == Some(n)
  {
    var d := NatToString(n);
    var s := d + rest;
    assert s[0] == d[0];
    ParseIntOfDigitFirst(s);
    assert !(|s| >= 2 && s[0] == '0' && (s[1] == 'x' || s[1] == 'X')) by {
      if |s| >= 2 && s[0] == '0' {
        assert |d| == 1;
        assert s[1] == rest[0];
      }
    }
    assert ParseUnsigned(s, false) == ParseDigits(s, 10, false);
    DigitsValueOfNatToString(n);
    DigitRunPrefix(d, rest, 10);
    assert s[..|d|] == d;
  }

  /** Text that starts with a digit has no white space or sign to skip. */
  lemma ParseIntOfDigitFirst(s: string)
    requires |s| > 0 && '0' <= s[0] <= '9'
    ensures ParseInt(s) == ParseUnsigned(s, false)
  {
    assert !IsSpace(s[0]);
    assert TrimStart(s) == s;
  }

  lemma {:induction false} DigitRunPrefix(d: string, rest: string, radix: nat)
    requires forall i :: 0 <= i < |d| ==> DigitValue(d[i], radix).Some?
    requires |rest| == 0 || DigitValue(rest[0], radix).None?
    ensures DigitRun(d + rest, radix) == |d|
  {
    if |d| > 0 {
      DigitRunPrefix(d[1..], rest, radix);
      assert (d + rest)[1..] == d[1..] + rest;
    }
  }

  lemma {:induction false} TrimStartAllSpace(s: string)
    requires forall i :: 0 <= i < |s| ==> IsSpace(s[i])
    ensures TrimStart(s) == ""
  {
    if |s| > 0 {
      TrimStartAllSpace(s[1..]);
    }
  }

  /** `parseInt` of the empty string, or of white space only, is NaN. */
  lemma ParseIntOfBlank(s: string)
    requires forall i :: 0 <= i < |s| ==> IsSpace(s[i])
    ensures ParseInt(s) == None
  {
    TrimStartAllSpace(s);
  }
}

=== FILE: list_ops.dfy ===
/** In-memory project-list updates and card helpers that the public page,
    the admin page and the carousel share: replacing or prepending a saved
    project, dropping a deleted one, the technology-chip row and the
    first-point preview. */
module ProjectLists {
  import opened Wrappers
  import opened JsText
  import Seqs
  import opened ProjectController

  // ---------------------------------------------------------------------
  // Saving and deleting

  /** `prev.map(p => p.id === saved.id ? saved : p)`. */
  function ReplaceById(list: seq<ProjectView>, saved: ProjectView): (r: seq<ProjectView>)
    ensures |r| == |list|
    ensures forall i :: 0 <= i < |list| ==> r[i].id == list[i].id
    ensures forall i :: 0 <= i < |list| && list[i].id != saved.id ==> r[i] == list[i]
    ensures forall i :: 0 <= i < |list| && list[i].id == saved.id ==> r[i] == saved
  {
    seq(|list|, i requires 0 <= i < |list| => if list[i].id == saved.id then saved else list[i])
  }

  /** The list after the project dialog reports a saved project: an edit
      replaces the entries with the same id in place, a create puts the new
      project first. */
  function SaveIntoList(list: seq<ProjectView>, saved: ProjectView, editing: bool): (r: seq<ProjectView>)
    ensures editing ==> |r| == |list| && (saved.id in Ids(list) ==> saved in r)
    ensures editing && saved.id !in Ids(list) ==> r == list
    ensures !editing ==> |r| == |list| + 1 && r[0] == saved && r[1..] == list
  {
    if editing then ReplaceById(list, saved) else [saved] + list
  }

  function Ids(list: seq<ProjectView>): set<int>
  {
    set i | 0 <= i < |list| :: list[i].id
  }

  /** Saving the same edit twice is saving it once. */
  lemma ReplaceByIdIdempotent(list: seq<ProjectView>, saved: ProjectView)
    ensures ReplaceById(ReplaceById(list, saved), saved) == ReplaceById(list, saved)
  {
  }

  /** After an edit the list holds the saved project wherever it held one
      with that id, and nothing else changed position. */
  lemma ReplaceByIdKeepsIds(list: seq<ProjectView>, saved: ProjectView)
    ensures Ids(ReplaceById(list, saved)) == Ids(list)
  {
    var r := ReplaceById(list, saved);
    assert forall x :: x in Ids(r) ==> x in Ids(list) by {
      forall x | x in Ids(r) ensures x in Ids(list) {
        var i :| 0 <= i < |r| && r[i].id == x;
      }
    }
    assert forall x :: x in Ids(list) ==> x in Ids(r) by {
      forall x | x in Ids(list) ensures x in Ids(r) {
        var i :| 0 <= i < |list| && list[i].id == x;
        assert r[i].id == x;
      }
    }
  }

  function HasOtherId(id: int): ProjectView -> bool
  {
    (p: ProjectView) => p.id != id
  }

  /** `prev.filter(p => p.id !== deleted.id)`: exactly the entries with
      another id survive, in their order. */
  function RemoveById(list: seq<ProjectView>, id: int): (r: seq<ProjectView>)
    ensures |r| <= |list|
    ensures forall p :: p in r <==> p in list && p.id != id
    ensures id !in Ids(r)
  {
    var r := Seqs.Filter(list, HasOtherId(id));
    assert forall i :: 0 <= i < |r| ==> r[i].id != id;
    r
  }

  /** A list of one entry keeps it exactly when its id differs. */
  lemma RemoveByIdSingle(p: ProjectView, id: int)
    ensures RemoveById([p], id) == (if p.id != id then [p] else [])
  {
    assert [p][1..] == [];
  }

  /** Deleting from two lists joined is deleting from each and joining the
      results. With the one-entry case this fixes the result completely:
      the surviving entries keep their order and their repetitions. */
  lemma RemoveByIdConcat(a: seq<ProjectView>, b: seq<ProjectView>, id: int)
    ensures RemoveById(a + b, id) == RemoveById(a, id) + RemoveById(b, id)
  {
    Seqs.FilterConcat(a, b, HasOtherId(id));
  }

  /** Deleting an id the list does not hold changes nothing. */
  lemma RemoveAbsentId(list: seq<ProjectView>, id: int)
    requires id !in Ids(list)
    ensures RemoveById(list, id) == list
  {
    assert forall i :: 0 <= i < |list| ==> HasOtherId(id)(list[i]) by {
      forall i | 0 <= i < |list| ensures HasOtherId(id)(list[i]) {
        assert list[i].id in Ids(list);
      }
    }
    Seqs.FilterKeepsAll(list, HasOtherId(id));
  }

  /** Deleting twice is deleting once. */
  lemma RemoveByIdIdempotent(list: seq<ProjectView>, id: int)
    ensures RemoveById(RemoveById(list, id), id) == RemoveById(list, id)
  {
    RemoveAbsentId(RemoveById(list, id), id);
  }

  // ---------------------------------------------------------------------
  // Technology chips

  const MaxChips := 3

  /** A card's chip row: at most three technologies, and when there are
      more, a label with the number left out, followed by `suffix`
      (" more" on the public and admin cards, nothing in the carousel). */
  datatype ChipRow<T> = ChipRow(shown: seq<T>, more: Option<string>)

  function Chips<T>(techs: seq<T>, suffix: string): (r: ChipRow<T>)
    ensures |r.shown| == Seqs.Min(|techs|, MaxChips) && r.shown <= techs
    ensures r.more.Some? <==> |techs| > MaxChips
    ensures r.more.Some? ==> |r.more.value| > 1 && r.more.value[0] == '+' && EndsWith(r.more.value, suffix)
  {
    var shown := Seqs.Slice(techs, 0, MaxChips);
    if |techs| > MaxChips then
      var count := "+" + NatToString(|techs| - MaxChips);
      EndsWithAppended(count, suffix);
      ChipRow(shown, Some(count + suffix))
    else ChipRow(shown, None)
  }

  /** The chips account for every technology: the ones shown plus the
      number `parseInt` reads from the label add up to the total. */
  lemma ChipsAccountForAll<T>(techs: seq<T>, suffix: string)
    requires |suffix| == 0 || suffix[0] == ' '
    ensures var r := Chips(techs, suffix);
      r.more.Some? ==> ParseInt(r.more.value[1..]) == Some(|techs| - MaxChips)
    ensures var r := Chips(techs, suffix);
      |r.shown| + (if r.more.Some? then ParseInt(r.more.value[1..]).value else 0) == |techs|
  {
    var r := Chips(techs, suffix);
    if |techs| > MaxChips {
      var k := |techs| - MaxChips;
      assert r.more.value[1..] == NatToString(k) + suffix;
      ParseIntOfNatToStringThen(k, suffix);
    }
  }

  // ---------------------------------------------------------------------
  // Description preview

  /** The first point of the first description, when both exist. */
  function FirstPoint(descs: seq<DescriptionView>): (r: Option<string>)
    ensures r.Some? <==> |descs| > 0 && |descs[0].points| > 0
    ensures r.Some? ==> r.value == descs[0].points[0]
  {
    if |descs| > 0 && |descs[0].points| > 0 then Some(descs[0].points[0]) else None
  }

  /** The preview text of a card: the first point, or `fallback`. */
  function Preview(descs: seq<DescriptionView>, fallback: string): (r: string)
    ensures FirstPoint(descs).None? ==> r == fallback
    ensures FirstPoint(descs).Some? ==> r == descs[0].points[0]
  {
    match FirstPoint(descs)
    case Some(pt) => pt
    case None => fallback
  }

  /** Since the server sorts descriptions by `order`, the preview of a
      project it returned comes from a section whose order is the lowest. */
  lemma PreviewComesFromLowestOrder(st: Store, id: int, fallback: string)
    requires id in st.projects
    requires FirstPoint(View(st, id).descriptions).Some?
    ensures var ds := View(st, id).descriptions;
      Preview(ds, fallback) in ds[0].points
      && forall k :: 0 <= k < |ds| ==> ds[0].order <= ds[k].order
  {
    var ds := View(st, id).descriptions;
    assert Seqs.SortedBy(ds, ViewOrder);
    assert forall k :: 0 < k < |ds| ==> ViewOrder(ds[0]) <= ViewOrder(ds[k]);
  }
}

=== FILE: main_page.dfy ===
/** The public project page: the project list it holds, the three filters
    applied on the client, pagination six to a page, the card preview, and
    the list updates after a save or a delete. Network answers are passed in
    as values. */
module MainPage {
  import opened Wrappers
  import Seqs
  import JsText
  import opened ProjectController
  import opened ProjectLists

  const ItemsPerPage := 6
  const All := "all"
  const DefaultDescription := "A modern web application built with cutting-edge technologies."
  const LoadFailed := "Failed to load projects. Please try again."
  const DeleteFailed := "Failed to delete project. Please try again."

  /** What a request to the projects endpoint produced: a JSON array, some
      other JSON value, or a failure (network error or a non-ok status). */
  datatype Fetch = Array(items: seq<ProjectView>) | NotArray | Failed

  /** The selected business type, category and technology names; "all"
      switches a filter off. */
  datatype Filters = Filters(businessType: string, category: string, technology: string)

  datatype PageState = PageState(
    arr: seq<ProjectView>,
    filters: Filters,
    currentPage: int,
    error: Option<string>,
    dialogOpen: bool,
    selected: Option<ProjectView>,
    deleteDialogOpen: bool,
    toDelete: Option<ProjectView>)

  const NoFilters := Filters(All, All, All)

  const Initial := PageState([], NoFilters, 1, None, false, None, false, None)

  /** `Array.isArray(data) ? data : []`. */
  function ItemsOf(f: Fetch): (r: seq<ProjectView>)
    ensures f.Array? ==> r == f.items
    ensures !f.Array? ==> r == []
  {
    if f.Array? then f.items else []
  }

  /** `fetchProjects`: the list is replaced by the answer (an empty list when
      it is not an array), and a failed request empties the list and sets
      the load error. */
  function FetchProjects(s: PageState, f: Fetch): (r: PageState)
    ensures r.arr == ItemsOf(f)
    ensures r.error == (if f.Failed? then Some(LoadFailed) else None)
    ensures r.filters == s.filters && r.currentPage == s.currentPage
  {
    if f.Failed? then s.(arr := [], error := Some(LoadFailed))
    else s.(arr := ItemsOf(f), error := None)
  }

  // ---------------------------------------------------------------------
  // Filtering

  predicate BusinessTypeIs(p: ProjectView, name: string)
  {
    p.businessType.Some? && p.businessType.value.name == name
  }

  predicate CategoryIs(p: ProjectView, name: string)
  {
    p.category.Some? && p.category.value.name == name
  }

  predicate UsesTechnology(p: ProjectView, name: string)
  {
    exists i :: 0 <= i < |p.technologies| && p.technologies[i].name == name
  }

  function ByBusinessType(name: string): ProjectView -> bool { (p: ProjectView) => BusinessTypeIs(p, name) }
  function ByCategory(name: string): ProjectView -> bool { (p: ProjectView) => CategoryIs(p, name) }
  function ByTechnology(name: string): ProjectView -> bool { (p: ProjectView) => UsesTechnology(p, name) }

  /** `applyFilters`: with every filter at "all" the answer is taken as is;
      otherwise the active filters are applied one after the other. A failed
      request gives an empty list. */
  function ApplyFilters(f: Fetch, flt: Filters): (r: seq<ProjectView>)
    ensures f.Failed? ==> r == []
    ensures flt == NoFilters ==> r == ItemsOf(f)
    ensures |r| <= |ItemsOf(f)|
  {
    if f.Failed? then []
    else if flt == NoFilters then ItemsOf(f)
    else
      var a := ItemsOf(f);
      var b := if flt.businessType != All then Seqs.Filter(a, ByBusinessType(flt.businessType)) else a;
      var c := if flt.category != All then Seqs.Filter(b, ByCategory(flt.category)) else b;
      if flt.technology != All then Seqs.Filter(c, ByTechnology(flt.technology)) else c
  }

  /** A project passes the filters when it satisfies every active one. */
  predicate Selected(flt: Filters, p: ProjectView)
  {
    && (flt.businessType != All ==> BusinessTypeIs(p, flt.businessType))
    && (flt.category != All ==> CategoryIs(p, flt.category))
    && (flt.technology != All ==> UsesTechnology(p, flt.technology))
  }

  function SelectedBy(flt: Filters): ProjectView -> bool { (p: ProjectView) => Selected(flt, p) }

  function BusinessTypeGate(flt: Filters): ProjectView -> bool
  {
    (p: ProjectView) => flt.businessType != All ==> BusinessTypeIs(p, flt.businessType)
  }

  function CategoryGate(flt: Filters): ProjectView -> bool
  {
    (p: ProjectView) => flt.category != All ==> CategoryIs(p, flt.category)
  }

  function TechnologyGate(flt: Filters): ProjectView -> bool
  {
    (p: ProjectView) => flt.technology != All ==> UsesTechnology(p, flt.technology)
  }

  function FirstTwoGates(flt: Filters): ProjectView -> bool
  {
    (p: ProjectView) => BusinessTypeGate(flt)(p) && CategoryGate(flt)(p)
  }

  /** The filters, one after another, keep exactly the projects that satisfy
      all of them, in their original order; with no filter active this is
      the whole list. */
  lemma ApplyFiltersIsOneFilter(items: seq<ProjectView>, flt: Filters)
    ensures ApplyFilters(Array(items), flt) == Seqs.Filter(items, SelectedBy(flt))
  {
    if flt == NoFilters {
      Seqs.FilterKeepsAll(items, SelectedBy(flt));
    } else {
      var b := if flt.businessType != All then Seqs.Filter(items, ByBusinessType(flt.businessType)) else items;
      Seqs.FilterWhen(items, flt.businessType != All, ByBusinessType(flt.businessType), BusinessTypeGate(flt));
      var c := if flt.category != All then Seqs.Filter(b, ByCategory(flt.category)) else b;
      Seqs.FilterWhen(b, flt.category != All, ByCategory(flt.category), CategoryGate(flt));
      Seqs.FilterFilter(items, BusinessTypeGate(flt), CategoryGate(flt), FirstTwoGates(flt));
      Seqs.FilterWhen(c, flt.technology != All, ByTechnology(flt.technology), TechnologyGate(flt));
      Seqs.FilterFilter(items, FirstTwoGates(flt), TechnologyGate(flt), SelectedBy(flt));
    }
  }

  /** Choosing a business type, category or technology: the filter is set,
      the page goes back to 1, and the list is refiltered. */
  function SetBusinessType(s: PageState, v: string, f: Fetch): (r: PageState)
    ensures r.filters == s.filters.(businessType := v) && r.currentPage == 1
    ensures r.arr == ApplyFilters(f, r.filters)
  {
    var flt := s.filters.(businessType := v);
    s.(filters := flt, currentPage := 1, arr := ApplyFilters(f, flt))
  }

  function SetCategory(s: PageState, v: string, f: Fetch): (r: PageState)
    ensures r.filters == s.filters.(category := v) && r.currentPage == 1
    ensures r.arr == ApplyFilters(f, r.filters)
  {
    var flt := s.filters.(category := v);
    s.(filters := flt, currentPage := 1, arr := ApplyFilters(f, flt))
  }

  function SetTechnology(s: PageState, v: string, f: Fetch): (r: PageState)
    ensures r.filters == s.filters.(technology := v) && r.currentPage == 1
    ensures r.arr == ApplyFilters(f, r.filters)
  {
    var flt := s.filters.(technology := v);
    s.(filters := flt, currentPage := 1, arr := ApplyFilters(f, flt))
  }

  /** `clearAllFilters`: every filter back to "all", page 1, and a fresh
      fetch of the whole list. */
  function ClearAllFilters(s: PageState, f: Fetch): (r: PageState)
    ensures r.filters == NoFilters && r.currentPage == 1
    ensures r.arr == ItemsOf(f)
  {
    FetchProjects(s.(filters := NoFilters, currentPage := 1), f)
  }

  /** Clearing the filters shows the same list as filtering with every
      filter at "all", whatever the request answered. */
  lemma ClearingIsNoFilter(s: PageState, f: Fetch)
    ensures ClearAllFilters(s, f).arr == ApplyFilters(f, NoFilters)
  {
  }

  // ---------------------------------------------------------------------
  // Pagination

  /** `Math.ceil(n / itemsPerPage)`. */
  function TotalPages(n: nat): (r: nat)
    ensures r * ItemsPerPage >= n
    ensures n > 0 ==> (r - 1) * ItemsPerPage < n
    ensures n == 0 <==> r == 0
  {
    (n + ItemsPerPage - 1) / ItemsPerPage
  }

  /** `arr.slice((page - 1) * itemsPerPage, page * itemsPerPage)`. */
  function PageItems(arr: seq<ProjectView>, page: int): (r: seq<ProjectView>)
    ensures |r| <= ItemsPerPage
  {
    var start := (page - 1) * ItemsPerPage;
    Seqs.Slice(arr, start, start + ItemsPerPage)
  }

  /** Page `p`, for `p` from 1 to the page count, is the `p`-th chunk of six,
      and the page count is the number of chunks. */
  lemma PageIsChunk(arr: seq<ProjectView>, p: int)
    requires 1 <= p <= TotalPages(|arr|)
    ensures TotalPages(|arr|) == |Seqs.Chunks(arr, ItemsPerPage)|
    ensures PageItems(arr, p) == Seqs.Chunks(arr, ItemsPerPage)[p - 1]
  {
    PageCountIsChunkCount(arr);
    Seqs.ChunkIsSlice(arr, ItemsPerPage, p - 1);
    var k := p - 1;
    assert k * ItemsPerPage + ItemsPerPage == p * ItemsPerPage;
  }

  lemma PageCountIsChunkCount(arr: seq<ProjectView>)
    ensures TotalPages(|arr|) == |Seqs.Chunks(arr, ItemsPerPage)|
  {
    Seqs.ChunkCount(arr, ItemsPerPage);
    var c := |Seqs.Chunks(arr, ItemsPerPage)|;
    var t := TotalPages(|arr|);
    if |arr| > 0 {
      assert c * 6 >= |arr| && (c - 1) * 6 < |arr|;
      assert t * 6 >= |arr| && (t - 1) * 6 < |arr|;
    }
  }

  /** Pages 1 to the page count, one after the other, give back the list. */
  lemma PagesCoverList(arr: seq<ProjectView>)
    ensures Seqs.Flatten(AllPages(arr)) == arr
  {
    var chunks := Seqs.Chunks(arr, ItemsPerPage);
    PageCountIsChunkCount(arr);
    forall k | 0 <= k < |chunks|
      ensures AllPages(arr)[k] == chunks[k]
    {
      PageIsChunk(arr, k + 1);
    }
    assert AllPages(arr) == chunks;
    Seqs.FlattenChunks(arr, ItemsPerPage);
  }

  /** The pages the pagination control offers, in order. */
  function AllPages(arr: seq<ProjectView>): seq<seq<ProjectView>>
  {
    seq(TotalPages(|arr|), k requires 0 <= k < TotalPages(|arr|) => PageItems(arr, k + 1))
  }

  /** A page past the last one is empty, and so is page 0. (Pages below 0
      are not: `slice` counts negative indices from the end.) */
  lemma PageOutsideRangeIsEmpty(arr: seq<ProjectView>, p: int)
    requires p == 0 || p > TotalPages(|arr|)
    ensures PageItems(arr, p) == []
  {
    if p > 0 {
      var t := TotalPages(|arr|);
      assert (p - 1) * ItemsPerPage >= t * ItemsPerPage;
    }
  }

  /** Page -1 of a list of twelve or more shows the six elements before
      the last six, not nothing. */
  lemma NegativePageWrapsAround(arr: seq<ProjectView>)
    requires |arr| >= 12
    ensures PageItems(arr, -1) == arr[|arr| - 12..|arr| - 6]
  {
  }

  // ---------------------------------------------------------------------
  // Cards, saving and deleting

  /** `getProjectDescription`: the first point of the first description,
      or the fixed sentence when there is none. */
  function ProjectDescription(p: ProjectView): (r: string)
    ensures |p.descriptions| > 0 && |p.descriptions[0].points| > 0 ==> r == p.descriptions[0].points[0]
    ensures |p.descriptions| == 0 || |p.descriptions[0].points| == 0 ==> r == DefaultDescription
    ensures FirstPoint(p.descriptions).None? <==> (|p.descriptions| == 0 || |p.descriptions[0].points| == 0)
  {
    Preview(p.descriptions, DefaultDescription)
  }

  /** A card's technology chips: the first three, and a "+k more" label
      exactly when k more are left out. */
  function CardChips(p: ProjectView): (r: ChipRow<RefEntity>)
    ensures |r.shown| == Seqs.Min(|p.technologies|, MaxChips) && r.shown <= p.technologies
    ensures r.more == if |p.technologies| > MaxChips
      then Some("+" + JsText.NatToString(|p.technologies| - MaxChips) + " more") else None
  {
    Chips(p.technologies, " more")
  }

  /** `handleProjectSaved`: the saved project goes into the list (in place
      when the dialog was editing, first otherwise), then the dialog closes
      and forgets the selection. */
  function ProjectSaved(s: PageState, saved: ProjectView): (r: PageState)
    ensures r.arr == SaveIntoList(s.arr, saved, s.selected.Some?)
    ensures !r.dialogOpen && r.selected.None?
    ensures r.filters == s.filters && r.currentPage == s.currentPage
  {
    s.(arr := SaveIntoList(s.arr, saved, s.selected.Some?), dialogOpen := false, selected := None)
  }

  /** `confirmDelete` given whether the DELETE request answered ok. Without
      a pending project nothing happens. On ok the project leaves the list
      and the dialog closes; otherwise the list stays as it was, the dialog
      stays open and the delete error is set. */
  function ConfirmDelete(s: PageState, ok: bool): (r: PageState)
    ensures s.toDelete.None? ==> r == s
    ensures s.toDelete.Some? && ok ==>
      r.arr == RemoveById(s.arr, s.toDelete.value.id) && !r.deleteDialogOpen && r.toDelete.None?
    ensures s.toDelete.Some? && !ok ==> r == s.(error := Some(DeleteFailed))
  {
    match s.toDelete
    case None => s
    case Some(victim) =>
      if ok then s.(arr := RemoveById(s.arr, victim.id), deleteDialogOpen := false, toDelete := None)
      else s.(error := Some(DeleteFailed))
  }

  /** A successful delete removes exactly the deleted project's entries and
      keeps every other one. */
  lemma DeleteRemovesOnlyVictim(s: PageState, p: ProjectView)
    requires s.toDelete.Some? && p in s.arr
    ensures p in ConfirmDelete(s, true).arr <==> p.id != s.toDelete.value.id
    ensures p in ConfirmDelete(s, false).arr
  {
  }
}

=== FILE: project_controller.dfy ===
/** The project request handlers of the backend: validation of create and
    update payloads, image and description clean-up, the full-replace
    update, delete, and the read path that assembles and formats a project.
    The database is a value (`Store`); each handler maps a store and a
    request to the next store and the HTTP response. */
module ProjectController {
  import opened Wrappers
  import opened JsText
  import Seqs

  // =====================================================================
  // The catalog store

  datatype ImageRow = ImageRow(imageUrl: string, altText: string, order: int)

  /** A stored description; `points` is the JSON text column, with `None`
      for a NULL column and `Some(list)` for the list it encodes. */
  datatype DescriptionRow = DescriptionRow(category: string, title: string, points: Option<seq<string>>, order: int)

  /** A project row together with the rows it owns: its technology links
      (by technology id), its images and its descriptions. */
  datatype ProjectRow = ProjectRow(
    title: string,
    businessTypeId: Option<int>,
    categoryId: Option<int>,
    imgPath: string,
    githubUrl: string,
    previewUrl: string,
    featured: bool,
    technologyIds: seq<int>,
    images: seq<ImageRow>,
    descriptions: seq<DescriptionRow>,
    createdAt: int,
    updatedAt: int)

  /** Projects by id, the three reference tables (id to name), and the next
      value of the auto-increment project id. */
  datatype Store = Store(
    projects: map<int, ProjectRow>,
    businessTypes: map<int, string>,
    categories: map<int, string>,
    technologies: map<int, string>,
    nextId: int)

  predicate Distinct(s: seq<int>)
  {
    forall i, j :: 0 <= i < j < |s| ==> s[i] != s[j]
  }

  /** What the database's keys let through for one project row: every
      foreign key names an existing row, and no technology is linked twice
      (the link table is keyed by project and technology). */
  predicate RowAccepted(st: Store, row: ProjectRow)
  {
    && ReferencesExist(st, row)
    && Distinct(row.technologyIds)
  }

  predicate ReferencesExist(st: Store, row: ProjectRow)
  {
    && (row.businessTypeId.Some? ==> row.businessTypeId.value in st.businessTypes)
    && (row.categoryId.Some? ==> row.categoryId.value in st.categories)
    && (forall i :: 0 <= i < |row.technologyIds| ==> row.technologyIds[i] in st.technologies)
  }

  /** Database integrity: ids come from the counter, and every stored row
      satisfies the keys. */
  ghost predicate Valid(st: Store)
  {
    && st.nextId >= 1
    && (forall id :: id in st.projects ==> 1 <= id < st.nextId)
    && (forall id :: id in st.projects ==> RowAccepted(st, st.projects[id]))
  }

  // =====================================================================
  // Requests and responses

  datatype ImageInput = ImageInput(imageUrl: Option<string>, altText: Option<string>, order: Option<int>)

  /** One submitted description; a point is `None` when it is not a string. */
  datatype DescriptionInput = DescriptionInput(
    category: Option<string>,
    title: Option<string>,
    points: Option<seq<Option<string>>>,
    order: Option<int>)

  /** The JSON body of a create or update request. An image entry is `None`
      when it is `null`. */
  datatype ProjectPayload = ProjectPayload(
    title: Option<string>,
    businessTypeId: Js<int>,
    categoryId: Js<int>,
    imgPath: Option<string>,
    images: Js<seq<Option<ImageInput>>>,
    githubUrl: Option<string>,
    previewUrl: Option<string>,
    technologyIds: Option<seq<int>>,
    featured: Js<bool>,
    descriptions: Js<seq<DescriptionInput>>)

  /** Exceptions that end in a handler's `catch`: a property read on `null`,
      and the database refusing a write. */
  datatype Cause = NullDereference | RecordNotFound | ForeignKeyViolation | DuplicateLink

  datatype Body =
    | One(project: ProjectView)
    | Many(projects: seq<ProjectView>)
    | NoContent
    | Message(text: string)
    | Exception(cause: Cause)

  datatype Response = Response(status: int, body: Body)

  datatype Outcome = Outcome(store: Store, response: Response)

  const TitleRequired := "Title is required"
  const MainImageRequired := "Main image is required"
  const GithubUrlRequired := "GitHub URL is required"
  const PreviewUrlRequired := "Preview URL is required"
  const DescriptionsRequired := "At least one description section is required"
  const CategoryRequired := "Description category is required"
  const SectionTitleRequired := "Description section title is required"
  const PointsRequired := "Description section must have at least one point"
  const PointsMustBeStrings := "All description points must be non-empty strings"
  const TitleEmpty := "Title cannot be empty"
  const MainImageEmpty := "Main image cannot be empty"
  const GithubUrlEmpty := "GitHub URL cannot be empty"
  const PreviewUrlEmpty := "Preview URL cannot be empty"
  const DuplicateProject := "A project with the same title and category already exists."
  const ProjectNotFound := "Project not found"

  // =====================================================================
  // Description validation (shared by create and update)

  /** A point passes when it is a string that is not blank. */
  predicate PointOk(pt: Option<string>)
  {
    pt.Some? && !Blank(pt.value)
  }

  /** A description the handlers accept. */
  predicate DescriptionOk(d: DescriptionInput)
  {
    && d.category.Some? && !Blank(d.category.value)
    && d.title.Some? && !Blank(d.title.value)
    && d.points.Some? && |d.points.value| > 0
    && forall i :: 0 <= i < |d.points.value| ==> PointOk(d.points.value[i])
  }

  /** The message for the first check one description fails. */
  function DescriptionFault(d: DescriptionInput): (r: Option<string>)
    ensures r.None? <==> DescriptionOk(d)
    ensures r.Some? ==> r.value in {CategoryRequired, SectionTitleRequired, PointsRequired, PointsMustBeStrings}
  {
    if d.category.None? || Blank(d.category.value) then Some(CategoryRequired)
    else if d.title.None? || Blank(d.title.value) then Some(SectionTitleRequired)
    else if d.points.None? || |d.points.value| == 0 then Some(PointsRequired)
    else if exists i :: 0 <= i < |d.points.value| && !PointOk(d.points.value[i]) then Some(PointsMustBeStrings)
    else None
  }

  /** The first failing description decides the message: the result is
      empty exactly when every description passes. */
  function FirstFault(ds: seq<DescriptionInput>): (r: Option<string>)
    ensures r.None? <==> forall i :: 0 <= i < |ds| ==> DescriptionOk(ds[i])
    ensures r.Some? ==> r.value in {CategoryRequired, SectionTitleRequired, PointsRequired, PointsMustBeStrings}
  {
    if |ds| == 0 then None
    else if DescriptionFault(ds[0]).Some? then DescriptionFault(ds[0])
    else
      var r := FirstFault(ds[1..]);
      assert forall i :: 1 <= i < |ds| ==> ds[i] == ds[1..][i - 1];
      r
  }

  /** A fault is that of the first failing description: every description
      before it passes. */
  lemma {:induction false} FirstFaultIsFirst(ds: seq<DescriptionInput>) returns (i: nat)
    requires FirstFault(ds).Some?
    ensures i < |ds| && DescriptionFault(ds[i]) == FirstFault(ds)
    ensures forall j :: 0 <= j < i ==> DescriptionOk(ds[j])
    decreases |ds|
  {
    if DescriptionFault(ds[0]).Some? {
      i := 0;
    } else {
      var k := FirstFaultIsFirst(ds[1..]);
      i := k + 1;
      forall j | 0 <= j < i
        ensures DescriptionOk(ds[j])
      {
        if j > 0 {
          assert ds[j] == ds[1..][j - 1];
        }
      }
    }
  }

  // =====================================================================
  // Image clean-up and description rows

  /** `img && img.imageUrl && typeof img.imageUrl === 'string' && img.imageUrl.trim()`. */
  predicate KeepImage(img: Option<ImageInput>)
  {
    img.Some? && img.value.imageUrl.Some? && !Blank(img.value.imageUrl.value)
  }

  function CleanImage(img: Option<ImageInput>, index: nat): ImageRow
    requires KeepImage(img)
  {
    var i := img.value;
    ImageRow(Trim(i.imageUrl.value), OrElse(i.altText, ""), if i.order.Some? then i.order.value else index)
  }

  /** The images a write stores: only entries with a usable URL survive, in
      their submitted order; each URL is trimmed (and so never empty), a
      missing alt text becomes "", and a missing order becomes the entry's
      position among the survivors. */
  function SanitizeImages(imgs: seq<Option<ImageInput>>): (r: seq<ImageRow>)
    ensures |r| == |Seqs.Filter(imgs, KeepImage)|
    ensures forall k :: 0 <= k < |r| ==>
      var src := Seqs.Filter(imgs, KeepImage)[k].value;
      && r[k].imageUrl == Trim(src.imageUrl.value)
      && r[k].imageUrl != ""
      && r[k].altText == OrElse(src.altText, "")
      && r[k].order == (if src.order.Some? then src.order.value else k)
  {
    var kept := Seqs.Filter(imgs, KeepImage);
    seq(|kept|, k requires 0 <= k < |kept| => CleanImage(kept[k], k))
  }

  /** An entry without a usable URL leaves no trace, wherever it stands. */
  lemma SanitizeSkipsUnusable(a: seq<Option<ImageInput>>, bad: Option<ImageInput>, b: seq<Option<ImageInput>>)
    requires !KeepImage(bad)
    ensures SanitizeImages(a + [bad] + b) == SanitizeImages(a + b)
  {
    Seqs.FilterSkipsDropped(a, bad, b, KeepImage);
  }

  function PointValues(pts: seq<Option<string>>): (r: seq<string>)
    requires forall i :: 0 <= i < |pts| ==> pts[i].Some?
    ensures |r| == |pts| && forall i :: 0 <= i < |pts| ==> Some(r[i]) == pts[i]
  {
    seq(|pts|, i requires 0 <= i < |pts| => pts[i].value)
  }

  /** The description rows a write stores: one per submitted description,
      keeping category, title and points, with the submitted order when it
      is given and the position in the list otherwise. */
  function DescriptionRows(ds: seq<DescriptionInput>): (r: seq<DescriptionRow>)
    requires forall i :: 0 <= i < |ds| ==> DescriptionOk(ds[i])
    ensures |r| == |ds|
    ensures forall i :: 0 <= i < |ds| ==> RowOf(r[i], ds[i], i)
  {
    seq(|ds|, i requires 0 <= i < |ds| && DescriptionOk(ds[i]) => DescriptionRowOf(ds[i], i))
  }

  function DescriptionRowOf(d: DescriptionInput, index: int): (row: DescriptionRow)
    requires DescriptionOk(d)
    ensures RowOf(row, d, index)
  {
    DescriptionRow(d.category.value, d.title.value, Some(PointValues(d.points.value)),
                   if d.order.Some? then d.order.value else index)
  }

  /** `row` is what description `d`, at position `index`, is stored as. */
  predicate RowOf(row: DescriptionRow, d: DescriptionInput, index: int)
  {
    && Some(row.category) == d.category
    && Some(row.title) == d.title
    && row.points.Some? && d.points.Some? && PointsMatch(row.points.value, d.points.value)
    && row.order == (if d.order.Some? then d.order.value else index)
  }

  /** `id ? Number(id) : null`. */
  function IdFromPayload(v: Js<int>): (r: Option<int>)
    ensures r.Some? <==> v.Val? && v.v != 0
    ensures r.Some? ==> r.value == v.v
  {
    if v.Val? && v.v != 0 then Some(v.v) else None
  }

  /** `technologyIds?.map(Number) || []`. */
  function TechnologyIds(v: Option<seq<int>>): seq<int>
  {
    if v.Some? then v.value else []
  }

  // =====================================================================
  // Read path

  datatype RefEntity = RefEntity(id: int, name: string)

  /** A row of the technology link table with its technology joined in. */
  datatype TechLink = TechLink(technologyId: int, technology: RefEntity)

  /** What the database returns for a project with everything included:
      images and descriptions already ordered by `order`. */
  datatype JoinedProject = JoinedProject(
    id: int,
    row: ProjectRow,
    businessType: Option<RefEntity>,
    category: Option<RefEntity>,
    links: seq<TechLink>,
    images: seq<ImageRow>,
    descriptions: seq<DescriptionRow>)

  datatype DescriptionView = DescriptionView(category: string, title: string, points: seq<string>, order: int)

  /** The project object every read or write response carries. */
  datatype ProjectView = ProjectView(
    id: int,
    title: string,
    businessTypeId: Option<int>,
    categoryId: Option<int>,
    imgPath: string,
    images: seq<ImageRow>,
    githubUrl: string,
    previewUrl: string,
    featured: bool,
    businessType: Option<RefEntity>,
    category: Option<RefEntity>,
    technologies: seq<RefEntity>,
    descriptions: seq<DescriptionView>,
    createdAt: int,
    updatedAt: int)

  function ImageOrder(i: ImageRow): int { i.order }
  function RowOrder(d: DescriptionRow): int { d.order }
  function ViewOrder(d: DescriptionView): int { d.order }

  function Lookup(table: map<int, string>, id: Option<int>): Option<RefEntity>
  {
    if id.Some? && id.value in table then Some(RefEntity(id.value, table[id.value])) else None
  }

  /** The technology link rows of a project, each joined with its
      technology; a link to an unknown technology has nothing to join. */
  function Links(st: Store, ids: seq<int>): (r: seq<TechLink>)
    ensures |r| <= |ids|
    ensures forall k :: 0 <= k < |r| ==>
      && r[k].technologyId in ids && r[k].technologyId in st.technologies
      && r[k].technology == RefEntity(r[k].technologyId, st.technologies[r[k].technologyId])
    ensures (forall i :: 0 <= i < |ids| ==> ids[i] in st.technologies) ==>
      |r| == |ids| && forall i :: 0 <= i < |ids| ==> r[i] == TechLink(ids[i], RefEntity(ids[i], st.technologies[ids[i]]))
  {
    if |ids| == 0 then []
    else
      var rest := Links(st, ids[1..]);
      if ids[0] in st.technologies then [TechLink(ids[0], RefEntity(ids[0], st.technologies[ids[0]]))] + rest
      else rest
  }

  /** The `include` of every read: business type, category, technology links
      with their technologies, images and descriptions by ascending order. */
  function Include(st: Store, id: int): (j: JoinedProject)
    requires id in st.projects
    ensures j.id == id && j.row == st.projects[id]
    ensures Seqs.SortedBy(j.images, ImageOrder) && multiset(j.images) == multiset(st.projects[id].images)
    ensures Seqs.SortedBy(j.descriptions, RowOrder) && multiset(j.descriptions) == multiset(st.projects[id].descriptions)
    ensures j.businessType.Some? <==> st.projects[id].businessTypeId.Some? && st.projects[id].businessTypeId.value in st.businessTypes
    ensures j.category.Some? <==> st.projects[id].categoryId.Some? && st.projects[id].categoryId.value in st.categories
  {
    var row := st.projects[id];
    JoinedProject(id, row, Lookup(st.businessTypes, row.businessTypeId), Lookup(st.categories, row.categoryId),
      Links(st, row.technologyIds), Seqs.SortBy(row.images, ImageOrder), Seqs.SortBy(row.descriptions, RowOrder))
  }

  /** `JSON.parse(desc.points || '[]')`. */
  function Decode(d: DescriptionRow): DescriptionView
  {
    DescriptionView(d.category, d.title, if d.points.Some? then d.points.value else [], d.order)
  }

  function DecodeAll(ds: seq<DescriptionRow>): (r: seq<DescriptionView>)
    ensures |r| == |ds| && forall i :: 0 <= i < |ds| ==> r[i] == Decode(ds[i])
  {
    Seqs.Map(ds, Decode)
  }

  /** `formatProject`: the scalars are copied, the link rows are flattened
      to their technologies in the same order, and the descriptions are the
      decoded rows (a missing points column reads as no points) re-sorted by
      ascending order. */
  function FormatProject(j: JoinedProject): (v: ProjectView)
    ensures v.id == j.id && v.title == j.row.title && v.imgPath == j.row.imgPath
    ensures v.githubUrl == j.row.githubUrl && v.previewUrl == j.row.previewUrl
    ensures v.businessTypeId == j.row.businessTypeId && v.categoryId == j.row.categoryId
    ensures v.featured == j.row.featured && v.createdAt == j.row.createdAt && v.updatedAt == j.row.updatedAt
    ensures v.businessType == j.businessType && v.category == j.category
    ensures v.images == j.images
    ensures |v.technologies| == |j.links| && forall i :: 0 <= i < |j.links| ==> v.technologies[i] == j.links[i].technology
    ensures Seqs.SortedBy(v.descriptions, ViewOrder)
    ensures multiset(v.descriptions) == multiset(DecodeAll(j.descriptions))
  {
    ProjectView(j.id, j.row.title, j.row.businessTypeId, j.row.categoryId, j.row.imgPath, j.images,
      j.row.githubUrl, j.row.previewUrl, j.row.featured, j.businessType, j.category,
      seq(|j.links|, i requires 0 <= i < |j.links| => j.links[i].technology),
      Seqs.SortBy(DecodeAll(j.descriptions), ViewOrder),
      j.row.createdAt, j.row.updatedAt)
  }

  /** The response body for one stored project. */
  function View(st: Store, id: int): (v: ProjectView)
    requires id in st.projects
    ensures v.id == id && v.title == st.projects[id].title
    ensures |v.technologies| <= |st.projects[id].technologyIds|
    ensures Seqs.SortedBy(v.images, ImageOrder) && multiset(v.images) == multiset(st.projects[id].images)
    ensures Seqs.SortedBy(v.descriptions, ViewOrder)
  {
    FormatProject(Include(st, id))
  }

  /** On a consistent store the response lists the project's technologies
      exactly, its images sorted, and one decoded description per row. */
  lemma ViewOfValidStore(st: Store, id: int)
    requires Valid(st) && id in st.projects
    ensures var v := View(st, id); var row := st.projects[id];
      && |v.technologies| == |row.technologyIds|
      && (forall i :: 0 <= i < |row.technologyIds| ==>
            v.technologies[i] == RefEntity(row.technologyIds[i], st.technologies[row.technologyIds[i]]))
      && Seqs.SortedBy(v.images, ImageOrder) && multiset(v.images) == multiset(row.images)
      && multiset(v.descriptions) == multiset(DecodeAll(row.descriptions))
      && (row.businessTypeId.Some? ==> v.businessType == Some(RefEntity(row.businessTypeId.value, st.businessTypes[row.businessTypeId.value])))
  {
    ViewDescriptionsPermute(st, id);
  }

  /** Decoding commutes with reordering. */
  lemma DecodeAllPermutes(a: seq<DescriptionRow>, b: seq<DescriptionRow>)
    requires multiset(a) == multiset(b)
    ensures multiset(DecodeAll(a)) == multiset(DecodeAll(b))
  {
    Seqs.MapPermutes(a, b, Decode);
  }

  /** The `where` clauses of the list handlers. */
  datatype Query = AllProjects | ByBusinessType(businessTypeId: int) | ByCategory(categoryId: int)
                 | ByTechnology(technologyId: int) | FeaturedOnly

  predicate Matches(q: Query, row: ProjectRow)
  {
    match q
    case AllProjects => true
    case ByBusinessType(b) => row.businessTypeId == Some(b)
    case ByCategory(c) => row.categoryId == Some(c)
    case ByTechnology(t) => t in row.technologyIds
    case FeaturedOnly => row.featured
  }

  /** The ids of the store from 1 up to `k`, ascending. */
  function IdsUpTo(m: map<int, ProjectRow>, k: int): (r: seq<int>)
    ensures forall id :: id in r <==> id in m && 1 <= id <= k
    ensures Distinct(r)
    decreases k
  {
    if k < 1 then []
    else IdsUpTo(m, k - 1) + (if k in m then [k] else [])
  }

  function NewestFirst(v: ProjectView): int { -v.createdAt }

  function MatchingViews(st: Store, q: Query, ids: seq<int>): (r: seq<ProjectView>)
    requires forall i :: 0 <= i < |ids| ==> ids[i] in st.projects
    ensures forall v :: v in r ==> v.id in ids && Matches(q, st.projects[v.id]) && v == View(st, v.id)
    ensures forall id :: id in ids && Matches(q, st.projects[id]) ==> View(st, id) in r
    ensures Distinct(ids) ==> forall i, j :: 0 <= i < j < |r| ==> r[i].id != r[j].id
  {
    if |ids| == 0 then []
    else
      var rest := MatchingViews(st, q, ids[1..]);
      ConsKeepsIdsDistinct(View(st, ids[0]), rest, ids);
      if Matches(q, st.projects[ids[0]]) then [View(st, ids[0])] + rest else rest
  }

  /** Putting the view of the first id before views of the later ids keeps
      the ids distinct, as does dropping it. */
  lemma ConsKeepsIdsDistinct(h: ProjectView, rest: seq<ProjectView>, ids: seq<int>)
    requires |ids| > 0 && h.id == ids[0]
    requires forall v :: v in rest ==> v.id in ids[1..]
    requires Distinct(ids[1..]) ==> forall i, j :: 0 <= i < j < |rest| ==> rest[i].id != rest[j].id
    ensures Distinct(ids) ==> forall i, j :: 0 <= i < j < |rest| ==> rest[i].id != rest[j].id
    ensures Distinct(ids) ==> forall i, j :: 0 <= i < j < |[h] + rest| ==> ([h] + rest)[i].id != ([h] + rest)[j].id
  {
    if Distinct(ids) {
      var tail := ids[1..];
      forall i, j | 0 <= i < j < |tail| ensures tail[i] != tail[j] {
        assert tail[i] == ids[i + 1] && tail[j] == ids[j + 1];
      }
      var r := [h] + rest;
      forall i, j | 0 <= i < j < |r| ensures r[i].id != r[j].id {
        assert r[j] == rest[j - 1] && r[j] in rest;
        if i == 0 {
          var k :| 0 <= k < |tail| && tail[k] == r[j].id;
          assert ids[k + 1] == r[j].id;
        } else {
          assert r[i] == rest[i - 1];
        }
      }
    }
  }

  /** `getAllProjects`, `getProjectsByBusinessType`, `getProjectsByCategory`,
      `getProjectsByTechnology` and `getFeaturedProjects`: 200 with the
      formatted projects that satisfy the query, newest first. */
  function GetProjects(st: Store, q: Query): (r: Response)
    ensures r.status == 200 && r.body.Many?
    ensures Seqs.SortedBy(r.body.projects, NewestFirst)
    ensures forall v :: v in r.body.projects ==> v.id in st.projects && Matches(q, st.projects[v.id]) && v == View(st, v.id)
    ensures (forall id :: id in st.projects ==> 1 <= id < st.nextId) ==>
      forall id :: id in st.projects && Matches(q, st.projects[id]) ==> View(st, id) in r.body.projects
    ensures forall i, j :: 0 <= i < j < |r.body.projects| ==> r.body.projects[i].id != r.body.projects[j].id
  {
    var ids := IdsUpTo(st.projects, st.nextId - 1);
    var views := MatchingViews(st, q, ids);
    var sorted := Seqs.SortBy(views, NewestFirst);
    ReorderedViewsKeepIdsDistinct(st, views, sorted);
    assert forall v :: v in sorted <==> v in views by {
      forall v ensures v in sorted <==> v in views {
        assert v in sorted <==> v in multiset(sorted);
        assert v in views <==> v in multiset(views);
      }
    }
    Response(200, Many(sorted))
  }

  /** A reordering of views with distinct ids, all taken from the store,
      still has distinct ids. */
  lemma ReorderedViewsKeepIdsDistinct(st: Store, views: seq<ProjectView>, sorted: seq<ProjectView>)
    requires multiset(views) == multiset(sorted)
    requires forall i, j :: 0 <= i < j < |views| ==> views[i].id != views[j].id
    requires forall v :: v in views ==> v.id in st.projects && v == View(st, v.id)
    ensures forall i, j :: 0 <= i < j < |sorted| ==> sorted[i].id != sorted[j].id
  {
    assert Seqs.NoDup(views);
    Seqs.NoDupPermutes(views, sorted);
    forall i, j | 0 <= i < j < |sorted|
      ensures sorted[i].id != sorted[j].id
    {
      assert sorted[i] in multiset(views) && sorted[j] in multiset(views);
      assert sorted[i] == View(st, sorted[i].id) && sorted[j] == View(st, sorted[j].id);
    }
  }

  /** `getProjectById`: the formatted project, or 404 when the id is absent. */
  function GetProjectById(st: Store, id: int): (r: Response)
    ensures id in st.projects <==> r.status == 200
    ensures id in st.projects ==> r.body == One(View(st, id)) && r.body.project.id == id
    ensures id !in st.projects ==> r == Response(404, Message(ProjectNotFound))
  {
    if id in st.projects then Response(200, One(View(st, id))) else Response(404, Message(ProjectNotFound))
  }

  // =====================================================================
  // Create

  /** `featured = false` followed by `Boolean(featured)`. */
  function FeaturedOnCreate(v: Js<bool>): bool
  {
    v.Val? && v.v
  }

  /** Everything create needs in order to write: the four scalars truthy,
      a non-empty list of valid descriptions, an image list that is not
      `null`. */
  predicate CreateValid(p: ProjectPayload)
  {
    && Truthy(p.title) && Truthy(p.imgPath) && Truthy(p.githubUrl) && Truthy(p.previewUrl)
    && p.descriptions.Val? && |p.descriptions.v| > 0
    && (forall i :: 0 <= i < |p.descriptions.v| ==> DescriptionOk(p.descriptions.v[i]))
    && !p.images.Null?
  }

  function ImagesOf(v: Js<seq<Option<ImageInput>>>): seq<Option<ImageInput>>
  {
    if v.Val? then v.v else []
  }

  /** The row a successful create writes. */
  function NewRow(p: ProjectPayload, now: int): ProjectRow
    requires CreateValid(p)
  {
    ProjectRow(p.title.value, IdFromPayload(p.businessTypeId), IdFromPayload(p.categoryId),
      p.imgPath.value, p.githubUrl.value, p.previewUrl.value, FeaturedOnCreate(p.featured),
      TechnologyIds(p.technologyIds), SanitizeImages(ImagesOf(p.images)),
      DescriptionRows(p.descriptions.v), now, now)
  }

  function StoreFault(st: Store, row: ProjectRow): Cause
  {
    if ReferencesExist(st, row) then DuplicateLink else ForeignKeyViolation
  }

  function Fail(st: Store, status: int, msg: string): Outcome
  {
    Outcome(st, Response(status, Message(msg)))
  }

  /** The checks `createProject` makes before it writes, in order. */
  function CreateRejection(p: ProjectPayload): (r: Option<Response>)
    ensures r.None? <==> CreateValid(p)
    ensures r.Some? ==> r.value.status == 400
  {
    if !Truthy(p.title) then Some(Response(400, Message(TitleRequired)))
    else if !Truthy(p.imgPath) then Some(Response(400, Message(MainImageRequired)))
    else if !Truthy(p.githubUrl) then Some(Response(400, Message(GithubUrlRequired)))
    else if !Truthy(p.previewUrl) then Some(Response(400, Message(PreviewUrlRequired)))
    else if !p.descriptions.Val? || |p.descriptions.v| == 0 then Some(Response(400, Message(DescriptionsRequired)))
    else if FirstFault(p.descriptions.v).Some? then Some(Response(400, Message(FirstFault(p.descriptions.v).value)))
    else if p.images.Null? then Some(Response(400, Exception(NullDereference)))
    else None
  }

  /** The nested create: one statement, so a refused key writes nothing. */
  function InsertProject(st: Store, p: ProjectPayload, now: int): (o: Outcome)
    requires CreateValid(p)
    ensures o.response.status in {201, 400}
    ensures o.response.status == 201 <==> RowAccepted(st, NewRow(p, now))
    ensures o.response.status != 201 ==> o.store == st
    ensures o.response.status == 201 ==>
      && o.store == st.(projects := st.projects[st.nextId := NewRow(p, now)], nextId := st.nextId + 1)
      && o.response.body == One(View(o.store, st.nextId))
  {
    var row := NewRow(p, now);
    if !RowAccepted(st, row) then Outcome(st, Response(400, Exception(StoreFault(st, row))))
    else
      var st' := st.(projects := st.projects[st.nextId := row], nextId := st.nextId + 1);
      Outcome(st', Response(201, One(View(st', st.nextId))))
  }

  /** `createProject`. The checks run in a fixed order and the first that
      fails answers 400 before anything is written: title, main image,
      GitHub URL and preview URL must be truthy (not trimmed: "  " passes),
      then there must be at least one description, then each description
      must be valid. A database refusal is a 400 that writes nothing. On
      success the new row gets the next id and the response is 201 with
      that project formatted. */
  function CreateProject(st: Store, p: ProjectPayload, now: int): (o: Outcome)
    ensures o.response.status in {201, 400}
    ensures o.response.status != 201 ==> o.store == st
    ensures !Truthy(p.title) ==> o == Fail(st, 400, TitleRequired)
    ensures Truthy(p.title) && !Truthy(p.imgPath) ==> o == Fail(st, 400, MainImageRequired)
    ensures Truthy(p.title) && Truthy(p.imgPath) && !Truthy(p.githubUrl) ==> o == Fail(st, 400, GithubUrlRequired)
    ensures Truthy(p.title) && Truthy(p.imgPath) && Truthy(p.githubUrl) && !Truthy(p.previewUrl) ==>
      o == Fail(st, 400, PreviewUrlRequired)
    ensures (Truthy(p.title) && Truthy(p.imgPath) && Truthy(p.githubUrl) && Truthy(p.previewUrl)
      && !(p.descriptions.Val? && |p.descriptions.v| > 0)) ==> o == Fail(st, 400, DescriptionsRequired)
    ensures (Truthy(p.title) && Truthy(p.imgPath) && Truthy(p.githubUrl) && Truthy(p.previewUrl)
      && p.descriptions.Val? && FirstFault(p.descriptions.v).Some?) ==>
      o == Fail(st, 400, FirstFault(p.descriptions.v).value)
    ensures o.response.status == 201 <==> CreateValid(p) && RowAccepted(st, NewRow(p, now))
    ensures o.response.status == 201 ==>
      && o.store == st.(projects := st.projects[st.nextId := NewRow(p, now)], nextId := st.nextId + 1)
      && o.response.body == One(View(o.store, st.nextId))
  {
    match CreateRejection(p)
    case Some(r) => Outcome(st, r)
    case None => InsertProject(st, p, now)
  }

  /** Create keeps the store consistent. */
  lemma CreatePreservesValid(st: Store, p: ProjectPayload, now: int)
    requires Valid(st)
    ensures Valid(CreateProject(st, p, now).store)
  {
    var o := CreateProject(st, p, now);
    if o.response.status == 201 {
      StoreWithRow(st, st.nextId, NewRow(p, now));
      assert o.store == st.(projects := st.projects[st.nextId := NewRow(p, now)]).(nextId := st.nextId + 1);
    }
  }

  /** Writing an accepted row keeps the store consistent. */
  lemma StoreWithRow(st: Store, id: int, row: ProjectRow)
    requires Valid(st) && 1 <= id <= st.nextId && RowAccepted(st, row)
    ensures var st' := st.(projects := st.projects[id := row]);
      RowAccepted(st', row) && Valid(st'.(nextId := if id == st.nextId then id + 1 else st.nextId))
  {
    var st' := st.(projects := st.projects[id := row]);
    assert RowAccepted(st', row) == RowAccepted(st, row);
    forall other | other in st'.projects
      ensures RowAccepted(st', st'.projects[other])
    {
      assert RowAccepted(st', st'.projects[other]) == RowAccepted(st, st'.projects[other]);
      if other != id {
        assert st'.projects[other] == st.projects[other];
      }
    }
  }

  /** The points of every submitted description come back unchanged in the
      response (they round-trip through the JSON column), and a create that
      omits technologies and images answers with empty lists. */
  lemma CreatedProjectEchoesInput(st: Store, p: ProjectPayload, now: int)
    requires CreateProject(st, p, now).response.status == 201
    ensures var v := CreateProject(st, p, now).response.body.project;
      && v.id == st.nextId && v.title == p.title.value
      && (forall i :: 0 <= i < |p.descriptions.v| ==> Echoed(p.descriptions.v[i], v.descriptions))
      && (p.technologyIds.None? ==> v.technologies == [])
      && (p.images.Undefined? ==> v.images == [])
  {
    var o := CreateProject(st, p, now);
    assert CreateValid(p);
    NewRowEchoed(o.store, st.nextId, p, now);
  }

  /** Description `d` shows up in `views` with its category, title and points. */
  predicate Echoed(d: DescriptionInput, views: seq<DescriptionView>)
  {
    exists k :: 0 <= k < |views| && Some(views[k].title) == d.title && Some(views[k].category) == d.category
      && d.points.Some? && PointsMatch(views[k].points, d.points.value)
  }

  lemma NewRowEchoed(st: Store, id: int, p: ProjectPayload, now: int)
    requires CreateValid(p) && id in st.projects && st.projects[id] == NewRow(p, now)
    ensures var v := View(st, id);
      && v.id == id && v.title == p.title.value
      && (forall i :: 0 <= i < |p.descriptions.v| ==> Echoed(p.descriptions.v[i], v.descriptions))
      && (p.technologyIds.None? ==> v.technologies == [])
      && (p.images.Undefined? ==> v.images == [])
  {
    var v := View(st, id);
    ViewDescriptionsPermute(st, id);
    var ds := p.descriptions.v;
    var rows := DescriptionRows(ds);
    assert st.projects[id].descriptions == rows;
    forall i | 0 <= i < |ds|
      ensures Echoed(ds[i], v.descriptions)
    {
      assert RowOf(rows[i], ds[i], i);
      var dv := Decode(rows[i]);
      assert DecodeAll(rows)[i] == dv;
      assert dv in multiset(v.descriptions);
      var k :| 0 <= k < |v.descriptions| && v.descriptions[k] == dv;
    }
  }

  /** The response's descriptions are the stored ones, decoded and reordered. */
  lemma ViewDescriptionsPermute(st: Store, id: int)
    requires id in st.projects
    ensures multiset(View(st, id).descriptions) == multiset(DecodeAll(st.projects[id].descriptions))
  {
    var rows := st.projects[id].descriptions;
    DecodeAllPermutes(Seqs.SortBy(rows, RowOrder), rows);
  }

  /** The stored points are the submitted ones, one for one. */
  predicate PointsMatch(stored: seq<string>, submitted: seq<Option<string>>)
  {
    |stored| == |submitted| && forall j :: 0 <= j < |stored| ==> Some(stored[j]) == submitted[j]
  }

  // =====================================================================
  // Update

  /** `title` (or another scalar) is present, non-empty, and blank once trimmed. */
  predicate PresentButBlank(s: Option<string>)
  {
    Truthy(s) && Blank(s.value)
  }

  /** Some other project already has this title and category. The category
      compared is the payload's, `null` when it is missing or falsy. */
  predicate TitleTaken(st: Store, id: int, title: string, categoryId: Option<int>)
  {
    exists other :: other in st.projects && other != id
      && st.projects[other].title == title && st.projects[other].categoryId == categoryId
  }

  /** Everything update needs before it starts deleting: no blank scalar,
      no missing or empty description list, valid descriptions, no clash,
      an image list that is not `null`. */
  predicate UpdateChecksPass(st: Store, id: int, p: ProjectPayload)
  {
    && !PresentButBlank(p.title) && !PresentButBlank(p.imgPath)
    && !PresentButBlank(p.githubUrl) && !PresentButBlank(p.previewUrl)
    && !p.descriptions.Undefined?
    && (p.descriptions.Val? ==> |p.descriptions.v| > 0 && forall i :: 0 <= i < |p.descriptions.v| ==> DescriptionOk(p.descriptions.v[i]))
    && !(Truthy(p.title) && TitleTaken(st, id, p.title.value, IdFromPayload(p.categoryId)))
    && !p.images.Null?
  }

  /** The three `deleteMany` calls: the project keeps its row but loses
      every technology link, image and description. */
  function ClearChildren(st: Store, id: int): (r: Store)
    ensures r.projects.Keys == st.projects.Keys
    ensures r.businessTypes == st.businessTypes && r.categories == st.categories
    ensures r.technologies == st.technologies && r.nextId == st.nextId
    ensures forall other :: other in st.projects && other != id ==> r.projects[other] == st.projects[other]
    ensures id in st.projects ==>
      && r.projects[id].technologyIds == [] && r.projects[id].images == [] && r.projects[id].descriptions == []
      && r.projects[id].title == st.projects[id].title
    ensures id !in st.projects ==> r == st
  {
    if id in st.projects then
      st.(projects := st.projects[id := st.projects[id].(technologyIds := [], images := [], descriptions := [])])
    else st
  }

  /** The `updateData` merge: strings change only when truthy, the two
      foreign keys and `featured` only when not `undefined`, and the owned
      collections are rebuilt from the payload alone. */
  function UpdatedRow(prev: ProjectRow, p: ProjectPayload, now: int): ProjectRow
    requires p.descriptions.Val? && forall i :: 0 <= i < |p.descriptions.v| ==> DescriptionOk(p.descriptions.v[i])
  {
    ProjectRow(
      if Truthy(p.title) then p.title.value else prev.title,
      if p.businessTypeId.Undefined? then prev.businessTypeId else IdFromPayload(p.businessTypeId),
      if p.categoryId.Undefined? then prev.categoryId else IdFromPayload(p.categoryId),
      if Truthy(p.imgPath) then p.imgPath.value else prev.imgPath,
      if Truthy(p.githubUrl) then p.githubUrl.value else prev.githubUrl,
      if Truthy(p.previewUrl) then p.previewUrl.value else prev.previewUrl,
      if p.featured.Undefined? then prev.featured else p.featured.Val? && p.featured.v,
      TechnologyIds(p.technologyIds), SanitizeImages(ImagesOf(p.images)),
      DescriptionRows(p.descriptions.v), prev.createdAt, now)
  }

  /** The checks `updateProject` makes before it writes, in order. Each
      failure is a message; only the title clash is a 409. */
  function UpdateRejection(st: Store, id: int, p: ProjectPayload): (r: Option<Response>)
    ensures r.None? <==> UpdateChecksPass(st, id, p)
    ensures r.Some? ==> r.value.status in {400, 409}
    ensures PresentButBlank(p.title) ==> r == Some(Response(400, Message(TitleEmpty)))
    ensures r.Some? && r.value.status == 409 <==>
      && !PresentButBlank(p.title) && !PresentButBlank(p.imgPath)
      && !PresentButBlank(p.githubUrl) && !PresentButBlank(p.previewUrl)
      && !p.descriptions.Undefined?
      && (p.descriptions.Val? ==> |p.descriptions.v| > 0 && FirstFault(p.descriptions.v).None?)
      && Truthy(p.title) && TitleTaken(st, id, p.title.value, IdFromPayload(p.categoryId))
  {
    if PresentButBlank(p.title) then Some(Response(400, Message(TitleEmpty)))
    else if PresentButBlank(p.imgPath) then Some(Response(400, Message(MainImageEmpty)))
    else if PresentButBlank(p.githubUrl) then Some(Response(400, Message(GithubUrlEmpty)))
    else if PresentButBlank(p.previewUrl) then Some(Response(400, Message(PreviewUrlEmpty)))
    else if p.descriptions.Undefined? || (p.descriptions.Val? && |p.descriptions.v| == 0) then
      Some(Response(400, Message(DescriptionsRequired)))
    else if p.descriptions.Val? && FirstFault(p.descriptions.v).Some? then
      Some(Response(400, Message(FirstFault(p.descriptions.v).value)))
    else if Truthy(p.title) && TitleTaken(st, id, p.title.value, IdFromPayload(p.categoryId)) then
      Some(Response(409, Message(DuplicateProject)))
    else if p.images.Null? then Some(Response(400, Exception(NullDereference)))
    else None
  }

  /** The writing half of `updateProject`, entered once every check has
      passed: the owned rows are deleted first, each in its own statement,
      and only then is the project rewritten. A failure from here on (a
      `null` description list, an absent id, a refused key) answers 400
      with the deletions already done; success answers 200 with the
      rewritten project. */
  function UpdateWrite(st: Store, id: int, p: ProjectPayload, now: int): (o: Outcome)
    requires UpdateChecksPass(st, id, p)
    ensures o.response.status in {200, 400}
    ensures o.response.status == 400 ==> o.store == ClearChildren(st, id)
    ensures o.response.status == 200 <==> (p.descriptions.Val? && id in st.projects
      && RowAccepted(st, UpdatedRow(st.projects[id], p, now)))
    ensures o.response.status == 200 ==>
      && o.store == st.(projects := st.projects[id := UpdatedRow(st.projects[id], p, now)])
      && o.response.body == One(View(o.store, id))
  {
    var cleared := ClearChildren(st, id);
    if p.descriptions.Null? then Outcome(cleared, Response(400, Exception(NullDereference)))
    else if id !in cleared.projects then Outcome(cleared, Response(400, Exception(RecordNotFound)))
    else
      var row := UpdatedRow(cleared.projects[id], p, now);
      assert row == UpdatedRow(st.projects[id], p, now);
      assert RowAccepted(cleared, row) == RowAccepted(st, row);
      if !RowAccepted(cleared, row) then Outcome(cleared, Response(400, Exception(StoreFault(cleared, row))))
      else
        var st' := cleared.(projects := cleared.projects[id := row]);
        assert st'.projects == st.projects[id := row];
        Outcome(st', Response(200, One(View(st', id))))
  }

  /** `updateProject`: the checks, then the write. Nothing is written unless
      every check passes, and a refused update that got past the checks has
      still lost the project's links, images and descriptions. */
  function UpdateProject(st: Store, id: int, p: ProjectPayload, now: int): (o: Outcome)
    ensures o.response.status in {200, 400, 409}
    ensures !UpdateChecksPass(st, id, p) ==> o.store == st && o.response.status != 200
    ensures UpdateChecksPass(st, id, p) && o.response.status != 200 ==> o.store == ClearChildren(st, id)
    ensures o.response.status == 200 ==>
      && UpdateChecksPass(st, id, p) && p.descriptions.Val? && id in st.projects
      && RowAccepted(st, UpdatedRow(st.projects[id], p, now))
      && o.store == st.(projects := st.projects[id := UpdatedRow(st.projects[id], p, now)])
      && o.response.body == One(View(o.store, id))
  {
    match UpdateRejection(st, id, p)
    case Some(r) => Outcome(st, r)
    case None => UpdateWrite(st, id, p, now)
  }

  /** An update whose body has no `descriptions` is always refused with 400
      and changes nothing, whatever else it carries. */
  lemma UpdateWithoutDescriptionsRejected(st: Store, id: int, p: ProjectPayload, now: int)
    requires p.descriptions.Undefined?
    ensures UpdateProject(st, id, p, now).response.status == 400
    ensures UpdateProject(st, id, p, now).store == st
  {
  }

  /** Updating an id that is not in the store never answers 404 and leaves
      the store as it was; once the checks pass it ends in the generic 400. */
  lemma UpdateOfAbsentIdIsNot404(st: Store, id: int, p: ProjectPayload, now: int)
    requires id !in st.projects
    ensures UpdateProject(st, id, p, now).response.status != 404
    ensures UpdateProject(st, id, p, now).store == st
    ensures UpdateChecksPass(st, id, p) ==> UpdateProject(st, id, p, now).response.status == 400
  {
  }

  /** Full replace: after a successful update the project's technology
      links, images and descriptions are exactly those built from the
      payload, so omitting `technologyIds` or `images` leaves none, whatever
      the project had before. */
  lemma UpdateReplacesChildren(st: Store, id: int, p: ProjectPayload, now: int)
    requires UpdateProject(st, id, p, now).response.status == 200
    ensures var row := UpdateProject(st, id, p, now).store.projects[id];
      && row.technologyIds == TechnologyIds(p.technologyIds)
      && row.images == SanitizeImages(ImagesOf(p.images))
      && row.descriptions == DescriptionRows(p.descriptions.v)
      && (p.technologyIds.None? ==> row.technologyIds == [])
      && (p.images.Undefined? ==> row.images == [])
      && (!Truthy(p.title) ==> row.title == st.projects[id].title)
      && (p.categoryId.Undefined? ==> row.categoryId == st.projects[id].categoryId)
      && (p.featured.Undefined? ==> row.featured == st.projects[id].featured)
      && row.createdAt == st.projects[id].createdAt && row.updatedAt == now
  {
    UpdateMergesFields(st, id, p, now);
  }

  /** A successful update merges the scalar fields as `updateData` does:
      a truthy text replaces the stored one and anything else keeps it, and
      a foreign key or `featured` that is present (even `null`) replaces the
      stored value, `null` and other falsy ids becoming no reference. */
  lemma UpdateMergesFields(st: Store, id: int, p: ProjectPayload, now: int)
    requires UpdateProject(st, id, p, now).response.status == 200
    ensures var row := UpdateProject(st, id, p, now).store.projects[id]; var prev := st.projects[id];
      && row.title == (if Truthy(p.title) then p.title.value else prev.title)
      && row.imgPath == (if Truthy(p.imgPath) then p.imgPath.value else prev.imgPath)
      && row.githubUrl == (if Truthy(p.githubUrl) then p.githubUrl.value else prev.githubUrl)
      && row.previewUrl == (if Truthy(p.previewUrl) then p.previewUrl.value else prev.previewUrl)
      && (p.businessTypeId.Undefined? ==> row.businessTypeId == prev.businessTypeId)
      && (!p.businessTypeId.Undefined? ==> row.businessTypeId == IdFromPayload(p.businessTypeId))
      && (p.categoryId.Undefined? ==> row.categoryId == prev.categoryId)
      && (!p.categoryId.Undefined? ==> row.categoryId == IdFromPayload(p.categoryId))
      && (p.featured.Undefined? ==> row.featured == prev.featured)
      && (p.featured.Null? ==> !row.featured)
      && (p.featured.Val? ==> row.featured == p.featured.v)
  {
  }

  /** The partial-failure window: an update with `"descriptions": null`
      passes every check, deletes the project's links, images and
      descriptions, and only then fails with 400. */
  lemma UpdateWithNullDescriptionsLosesChildren(st: Store, id: int, p: ProjectPayload, now: int)
    requires id in st.projects && p.descriptions.Null? && UpdateChecksPass(st, id, p)
    ensures UpdateProject(st, id, p, now).response == Response(400, Exception(NullDereference))
    ensures var row := UpdateProject(st, id, p, now).store.projects[id];
      row.technologyIds == [] && row.images == [] && row.descriptions == []
  {
  }

  /** Emptying one project's children keeps the store consistent. */
  lemma ClearChildrenValid(st: Store, id: int)
    requires Valid(st)
    ensures Valid(ClearChildren(st, id))
  {
    var cleared := ClearChildren(st, id);
    forall other | other in cleared.projects
      ensures RowAccepted(cleared, cleared.projects[other])
    {
      if other != id {
        assert cleared.projects[other] == st.projects[other];
      }
    }
  }

  /** Update keeps the store consistent, even on its partial-failure paths. */
  lemma UpdatePreservesValid(st: Store, id: int, p: ProjectPayload, now: int)
    requires Valid(st)
    ensures Valid(UpdateProject(st, id, p, now).store)
  {
    var o := UpdateProject(st, id, p, now);
    if !UpdateChecksPass(st, id, p) {
    } else if o.response.status != 200 {
      ClearChildrenValid(st, id);
    } else {
      StoreWithRow(st, id, UpdatedRow(st.projects[id], p, now));
    }
  }

  /** Create only checks truthiness while update trims: a title of spaces
      gets past create's title check but update refuses it. */
  lemma BlankTitleCreateVersusUpdate(st: Store, id: int, p: ProjectPayload, now: int)
    requires p.title == Some("  ")
    ensures CreateProject(st, p, now).response != Response(400, Message(TitleRequired))
    ensures UpdateProject(st, id, p, now) == Fail(st, 400, TitleEmpty)
  {
    assert Trim("  ") == "";
  }

  // =====================================================================
  // Delete

  /** `deleteProject`: 204 and the project (with its owned rows) gone, or 400
      with nothing changed when the id is absent. The reference tables and
      the id counter are never touched. */
  function DeleteProject(st: Store, id: int): (o: Outcome)
    ensures id in st.projects ==> o.response == Response(204, NoContent)
    ensures id in st.projects ==> o.store.projects.Keys == st.projects.Keys - {id}
    ensures forall other :: other in st.projects && other != id ==> other in o.store.projects && o.store.projects[other] == st.projects[other]
    ensures o.store.businessTypes == st.businessTypes && o.store.categories == st.categories
    ensures o.store.technologies == st.technologies && o.store.nextId == st.nextId
    ensures id !in st.projects ==> o == Outcome(st, Response(400, Exception(RecordNotFound)))
  {
    if id in st.projects then Outcome(st.(projects := st.projects - {id}), Response(204, NoContent))
    else Outcome(st, Response(400, Exception(RecordNotFound)))
  }

  /** Delete keeps the store consistent: the remaining rows still refer to
      reference rows that exist, and every id stays below the counter. */
  lemma DeletePreservesValid(st: Store, id: int)
    requires Valid(st)
    ensures Valid(DeleteProject(st, id).store)
  {
    var st' := DeleteProject(st, id).store;
    forall other | other in st'.projects
      ensures 1 <= other < st'.nextId && RowAccepted(st', st'.projects[other])
    {
      assert st'.projects[other] == st.projects[other];
      assert RowAccepted(st, st.projects[other]);
    }
  }
}

=== FILE: project_detail.dfy ===
/** The project detail page: section icons and gradients, the grouping of
    descriptions into tabs, video detection and embed rewriting, the media
    gallery and its wrap-around navigation. */
module ProjectDetail {
  import opened Wrappers
  import opened JsText
  import Seqs
  import opened ProjectController

  // ---------------------------------------------------------------------
  // Section icons

  datatype Icon = CheckCircle | Code | Palette | Security | Speed | Mobile | Web
                | DescriptionIcon | Lightbulb | Build | Timeline | Assignment

  /** The keyword tests of `getSectionIcon` on a lower-cased title, in
      their fixed order; the first hit decides. Whether the "ui" keyword
      counts is passed in, so that the code as written and its correction
      share the one chain. */
  function IconRules(t: string, uiRule: bool): Icon
  {
    if Contains(t, "feature") || Contains(t, "key") then CheckCircle
    else if Contains(t, "technical") || Contains(t, "tech") then Code
    else if Contains(t, "design") || uiRule then Palette
    else if Contains(t, "security") then Security
    else if Contains(t, "performance") || Contains(t, "speed") then Speed
    else if Contains(t, "mobile") then Mobile
    else if Contains(t, "web") then Web
    else if Contains(t, "overview") || Contains(t, "about") then DescriptionIcon
    else if Contains(t, "highlight") then Lightbulb
    else if Contains(t, "implementation") || Contains(t, "build") then Build
    else if Contains(t, "timeline") || Contains(t, "process") then Timeline
    else Assignment
  }

  /** One test of `getSectionIcon`: the keywords it looks for and the
      icon it returns when any of them occurs. */
  datatype IconRule = IconRule(keywords: seq<string>, icon: Icon)

  /** The tests of `getSectionIcon` as data, in their order. */
  const IconTable: seq<IconRule> := [
    IconRule(["feature", "key"], CheckCircle),
    IconRule(["technical", "tech"], Code),
    IconRule(["design", "ui"], Palette),
    IconRule(["security"], Security),
    IconRule(["performance", "speed"], Speed),
    IconRule(["mobile"], Mobile),
    IconRule(["web"], Web),
    IconRule(["overview", "about"], DescriptionIcon),
    IconRule(["highlight"], Lightbulb),
    IconRule(["implementation", "build"], Build),
    IconRule(["timeline", "process"], Timeline)]

  predicate Hits(t: string, keywords: seq<string>)
  {
    exists k :: 0 <= k < |keywords| && Contains(t, keywords[k])
  }

  /** The icon of the first rule from index `i` on that hits `t`, and
      Assignment when none does. */
  function FirstRule(t: string, i: nat): Icon
    decreases |IconTable| - i
  {
    if i >= |IconTable| then Assignment
    else if Hits(t, IconTable[i].keywords) then IconTable[i].icon
    else FirstRule(t, i + 1)
  }

  lemma HitsTwo(t: string, a: string, b: string)
    ensures Hits(t, [a, b]) <==> Contains(t, a) || Contains(t, b)
  {
    if Contains(t, a) { assert [a, b][0] == a; }
    if Contains(t, b) { assert [a, b][1] == b; }
  }

  lemma HitsOne(t: string, a: string)
    ensures Hits(t, [a]) <==> Contains(t, a)
  {
    if Contains(t, a) { assert [a][0] == a; }
  }

  /** `getSectionIcon`: the title is lower-cased and then tested; any
      occurrence of "ui" selects the Palette rule. */
  function SectionIcon(title: string): (r: Icon)
    ensures r == FirstRule(ToLower(title), 0)
    ensures r == Assignment <==> forall i :: 0 <= i < |IconTable| ==> !Hits(ToLower(title), IconTable[i].keywords)
  {
    var t := ToLower(title);
    SectionIconIsFirstRule(t);
    FirstRuleMisses(t, 0);
    IconRules(t, Contains(t, "ui"))
  }

  /** The if-chain and the table agree on every lower-cased title. */
  lemma SectionIconIsFirstRule(t: string)
    ensures IconRules(t, Contains(t, "ui")) == FirstRule(t, 0)
  {
    FirstFourRules(t);
    MiddleFourRules(t);
    LastThreeRules(t);
  }

  lemma FirstFourRules(t: string)
    ensures FirstRule(t, 0) ==
      if Contains(t, "feature") || Contains(t, "key") then CheckCircle
      else if Contains(t, "technical") || Contains(t, "tech") then Code
      else if Contains(t, "design") || Contains(t, "ui") then Palette
      else if Contains(t, "security") then Security
      else FirstRule(t, 4)
  {
    RuleOfTwo(t, 0, "feature", "key", CheckCircle);
    RuleOfTwo(t, 1, "technical", "tech", Code);
    RuleOfTwo(t, 2, "design", "ui", Palette);
    RuleOfOne(t, 3, "security", Security);
  }

  lemma MiddleFourRules(t: string)
    ensures FirstRule(t, 4) ==
      if Contains(t, "performance") || Contains(t, "speed") then Speed
      else if Contains(t, "mobile") then Mobile
      else if Contains(t, "web") then Web
      else if Contains(t, "overview") || Contains(t, "about") then DescriptionIcon
      else FirstRule(t, 8)
  {
    RuleOfTwo(t, 4, "performance", "speed", Speed);
    RuleOfOne(t, 5, "mobile", Mobile);
    RuleOfOne(t, 6, "web", Web);
    RuleOfTwo(t, 7, "overview", "about", DescriptionIcon);
  }

  lemma LastThreeRules(t: string)
    ensures FirstRule(t, 8) ==
      if Contains(t, "highlight") then Lightbulb
      else if Contains(t, "implementation") || Contains(t, "build") then Build
      else if Contains(t, "timeline") || Contains(t, "process") then Timeline
      else Assignment
  {
    RuleOfOne(t, 8, "highlight", Lightbulb);
    RuleOfTwo(t, 9, "implementation", "build", Build);
    RuleOfTwo(t, 10, "timeline", "process", Timeline);
    assert FirstRule(t, 11) == Assignment;
  }

  /** One step of the table for a rule with two keywords. */
  lemma RuleOfTwo(t: string, i: nat, a: string, b: string, icon: Icon)
    requires i < |IconTable| && IconTable[i] == IconRule([a, b], icon)
    ensures FirstRule(t, i) == if Contains(t, a) || Contains(t, b) then icon else FirstRule(t, i + 1)
  {
    HitsTwo(t, a, b);
  }

  /** One step of the table for a rule with one keyword. */
  lemma RuleOfOne(t: string, i: nat, a: string, icon: Icon)
    requires i < |IconTable| && IconTable[i] == IconRule([a], icon)
    ensures FirstRule(t, i) == if Contains(t, a) then icon else FirstRule(t, i + 1)
  {
    HitsOne(t, a);
  }

  /** The fallback is reached exactly when no rule from `i` on hits. */
  lemma {:induction false} FirstRuleMisses(t: string, i: nat)
    ensures FirstRule(t, i) == Assignment <==> forall j :: i <= j < |IconTable| ==> !Hits(t, IconTable[j].keywords)
    decreases |IconTable| - i
  {
    if i < |IconTable| {
      FirstRuleMisses(t, i + 1);
      assert IconTable[i].icon != Assignment;
    }
  }

  /** The icon depends on the title only up to letter case. */
  lemma SectionIconIgnoresCase(title: string)
    ensures SectionIcon(ToLower(title)) == SectionIcon(title)
  {
    ToLowerIdempotent(title);
  }

  /** Every title containing "build" also contains "ui", which is tested
      earlier: the "build" keyword never selects the Build icon. */
  lemma BuildKeywordIsShadowed(title: string)
    requires Contains(ToLower(title), "build")
    ensures SectionIcon(title) != Build || Contains(ToLower(title), "implementation")
    ensures SectionIcon(title) in {CheckCircle, Code, Palette}
  {
    assert OccursAt("build", "ui", 1);
    ContainsIff("build", "ui");
    ContainsWithin(ToLower(title), "build", "ui");
  }

  /** The section icon with "ui" only counting when it is not part of
      "build", so that a "build" title reaches the Build rule. */
  function SectionIconIntended(title: string): Icon
  {
    var t := ToLower(title);
    IconRules(t, Contains(t, "ui") && !Contains(t, "build"))
  }

  /** With the correction a "build" title whose only other keyword is "ui"
      gets the Build icon, and every title without "build" keeps its icon. */
  lemma IntendedBuildIcon(title: string)
    ensures var t := ToLower(title);
      Contains(t, "build") && !ShadowingKeyword(t) ==> SectionIconIntended(title) == Build
    ensures !Contains(ToLower(title), "build") ==> SectionIconIntended(title) == SectionIcon(title)
  {
  }

  /** A keyword other than "ui" that is tested before "build". */
  predicate ShadowingKeyword(t: string)
  {
    || Contains(t, "feature") || Contains(t, "key") || Contains(t, "technical") || Contains(t, "tech")
    || Contains(t, "design") || Contains(t, "security") || Contains(t, "performance") || Contains(t, "speed")
    || Contains(t, "mobile") || Contains(t, "web") || Contains(t, "overview") || Contains(t, "about")
    || Contains(t, "highlight")
  }

  // ---------------------------------------------------------------------
  // Section gradients

  datatype Gradient = Gradient(from: string, to: string)

  const Gradients: seq<Gradient> := [
    Gradient("#667eea", "#764ba2"), Gradient("#f093fb", "#f5576c"),
    Gradient("#4facfe", "#00f2fe"), Gradient("#43e97b", "#38f9d7"),
    Gradient("#fa709a", "#fee140"), Gradient("#a8edea", "#fed6e3"),
    Gradient("#ff9a9e", "#fecfef"), Gradient("#a18cd1", "#fbc2eb")
  ]

  /** `getGradientColors(index)` for a section's position on its tab. */
  function GradientColors(index: nat): (r: Gradient)
    ensures r in Gradients
  {
    Gradients[index % |Gradients|]
  }

  /** The gradients repeat every eight sections, and the first eight are
      all different. */
  lemma GradientCycle(index: nat)
    ensures GradientColors(index + 8) == GradientColors(index)
    ensures index < 8 ==> forall j :: 0 <= j < 8 && j != index ==> GradientColors(j) != GradientColors(index)
  {
    var q, m := index / 8, index % 8;
    assert index + 8 == (q + 1) * 8 + m && 0 <= m < 8;
    assert (index + 8) % 8 == m;
  }

  // ---------------------------------------------------------------------
  // Grouping descriptions into tabs

  const MainTab := "Main"
  const OverviewKey := "Overview"

  /** `desc.category || 'Overview'`. */
  function GroupKey(d: DescriptionView): (r: string)
    ensures r != ""
    ensures d.category != "" ==> r == d.category
  {
    if d.category != "" then d.category else OverviewKey
  }

  datatype Group = Group(key: string, items: seq<DescriptionView>)

  /** Where the group with `key` sits, if there is one. */
  function FindGroup(groups: seq<Group>, key: string): (r: Option<nat>)
    ensures r.Some? ==> r.value < |groups| && groups[r.value].key == key
    ensures r.None? ==> forall i :: 0 <= i < |groups| ==> groups[i].key != key
  {
    if |groups| == 0 then None
    else if groups[|groups| - 1].key == key then Some(|groups| - 1)
    else FindGroup(groups[..|groups| - 1], key)
  }

  /** One step of the `reduce`: push onto the description's group, creating
      the group at the end when its key is new. */
  function AddToGroup(groups: seq<Group>, d: DescriptionView): (r: seq<Group>)
    requires forall i :: 0 <= i < |groups| ==> groups[i].key != ""
    ensures forall i :: 0 <= i < |r| ==> r[i].key != ""
  {
    var key := GroupKey(d);
    match FindGroup(groups, key)
    case Some(i) => groups[i := groups[i].(items := groups[i].items + [d])]
    case None => groups + [Group(key, [d])]
  }

  /** The grouped descriptions, groups in the order their keys first
      appear; every key is non-empty. */
  function GroupDescriptions(ds: seq<DescriptionView>): (r: seq<Group>)
    ensures forall i :: 0 <= i < |r| ==> r[i].key != ""
  {
    if |ds| == 0 then [] else AddToGroup(GroupDescriptions(ds[..|ds| - 1]), ds[|ds| - 1])
  }

  function HasKey(key: string): DescriptionView -> bool
  {
    (d: DescriptionView) => GroupKey(d) == key
  }

  function GroupKeySet(groups: seq<Group>): set<string>
  {
    set i | 0 <= i < |groups| :: groups[i].key
  }

  function KeysOf(ds: seq<DescriptionView>): set<string>
  {
    set k | 0 <= k < |ds| :: GroupKey(ds[k])
  }

  predicate DistinctKeys(groups: seq<Group>)
  {
    forall i, j :: 0 <= i < j < |groups| ==> groups[i].key != groups[j].key
  }

  /** `groups` is a grouping of `ds`: the keys are distinct, they are the
      keys that occur in `ds`, and each group holds exactly the descriptions
      with its key, in their original order. */
  ghost predicate GroupingOf(groups: seq<Group>, ds: seq<DescriptionView>)
  {
    && DistinctKeys(groups)
    && GroupKeySet(groups) == KeysOf(ds)
    && forall i :: 0 <= i < |groups| ==> groups[i].items == Seqs.Filter(ds, HasKey(groups[i].key))
  }

  lemma FilterNoneKept(s: seq<DescriptionView>, keep: DescriptionView -> bool)
    requires forall k :: 0 <= k < |s| ==> !keep(s[k])
    ensures Seqs.Filter(s, keep) == []
  {
  }

  lemma KeysOfSnoc(pre: seq<DescriptionView>, d: DescriptionView)
    ensures KeysOf(pre + [d]) == KeysOf(pre) + {GroupKey(d)}
  {
    var ds := pre + [d];
    assert forall k :: 0 <= k < |pre| ==> ds[k] == pre[k];
    assert ds[|pre|] == d;
  }

  /** Adding a description to a group that already exists. */
  lemma AddToExistingGroup(g: seq<Group>, pre: seq<DescriptionView>, d: DescriptionView, i: nat)
    requires GroupingOf(g, pre) && i < |g| && g[i].key == GroupKey(d)
    requires forall j :: 0 <= j < |g| ==> g[j].key != ""
    ensures GroupingOf(g[i := g[i].(items := g[i].items + [d])], pre + [d])
  {
    var r := g[i := g[i].(items := g[i].items + [d])];
    assert forall j :: 0 <= j < |g| ==> r[j].key == g[j].key;
    assert GroupKeySet(r) == GroupKeySet(g);
    KeysOfSnoc(pre, d);
    assert GroupKey(d) in GroupKeySet(g);
    forall j | 0 <= j < |r|
      ensures r[j].items == Seqs.Filter(pre + [d], HasKey(r[j].key))
    {
      Seqs.FilterSnoc(pre, d, HasKey(g[j].key));
    }
  }

  /** Adding a description whose key is new opens a group at the end. */
  lemma AddToNewGroup(g: seq<Group>, pre: seq<DescriptionView>, d: DescriptionView)
    requires GroupingOf(g, pre)
    requires forall j :: 0 <= j < |g| ==> g[j].key != GroupKey(d)
    ensures GroupingOf(g + [Group(GroupKey(d), [d])], pre + [d])
  {
    var key := GroupKey(d);
    var r := g + [Group(key, [d])];
    assert key !in GroupKeySet(g);
    assert GroupKeySet(r) == GroupKeySet(g) + {key} by {
      assert forall j :: 0 <= j < |g| ==> r[j] == g[j];
      assert r[|g|].key == key;
    }
    KeysOfSnoc(pre, d);
    forall j | 0 <= j < |r|
      ensures r[j].items == Seqs.Filter(pre + [d], HasKey(r[j].key))
    {
      Seqs.FilterSnoc(pre, d, HasKey(r[j].key));
      if j == |g| {
        forall k | 0 <= k < |pre| ensures !HasKey(key)(pre[k]) {
          assert GroupKey(pre[k]) in KeysOf(pre);
        }
        FilterNoneKept(pre, HasKey(key));
      }
    }
  }

  /** The `reduce` builds a grouping. */
  lemma {:induction false} GroupDescriptionsIsGrouping(ds: seq<DescriptionView>)
    ensures GroupingOf(GroupDescriptions(ds), ds)
  {
    if |ds| == 0 {
      assert KeysOf(ds) == {};
    } else {
      var pre, d := ds[..|ds| - 1], ds[|ds| - 1];
      assert ds == pre + [d];
      var g := GroupDescriptions(pre);
      GroupDescriptionsIsGrouping(pre);
      match FindGroup(g, GroupKey(d))
      case Some(i) => AddToExistingGroup(g, pre, d, i);
      case None => AddToNewGroup(g, pre, d);
    }
  }

  /** Each description is in the group of its key ... */
  lemma DescriptionInItsGroup(ds: seq<DescriptionView>, k: nat) returns (i: nat)
    requires k < |ds|
    ensures i < |GroupDescriptions(ds)| && GroupDescriptions(ds)[i].key == GroupKey(ds[k])
    ensures ds[k] in GroupDescriptions(ds)[i].items
  {
    var groups := GroupDescriptions(ds);
    GroupDescriptionsIsGrouping(ds);
    var key := GroupKey(ds[k]);
    assert key in KeysOf(ds);
    assert key in GroupKeySet(groups);
    i :| 0 <= i < |groups| && groups[i].key == key;
    InFilter(ds, HasKey(key), k);
  }

  /** ... and in no other group. */
  lemma DescriptionOnlyInItsGroup(ds: seq<DescriptionView>, k: nat, j: nat)
    requires k < |ds| && j < |GroupDescriptions(ds)|
    requires ds[k] in GroupDescriptions(ds)[j].items
    ensures GroupDescriptions(ds)[j].key == GroupKey(ds[k])
  {
    var groups := GroupDescriptions(ds);
    GroupDescriptionsIsGrouping(ds);
    assert groups[j].items == Seqs.Filter(ds, HasKey(groups[j].key));
    assert HasKey(groups[j].key)(ds[k]);
  }

  lemma InFilter(s: seq<DescriptionView>, keep: DescriptionView -> bool, k: nat)
    requires k < |s| && keep(s[k])
    ensures s[k] in Seqs.Filter(s, keep)
  {
    assert s[k] in s;
  }

  function GroupKeys(groups: seq<Group>): (r: seq<string>)
    ensures |r| == |groups| && forall i :: 0 <= i < |groups| ==> r[i] == groups[i].key
  {
    seq(|groups|, i requires 0 <= i < |groups| => groups[i].key)
  }

  /** `['Main', ...Object.keys(groupedDescriptions)]`: never empty and
      never holding an empty name, so the component's branch for an empty
      tab list cannot be taken. */
  function Categories(ds: seq<DescriptionView>): (r: seq<string>)
    ensures |r| >= 1 && r[0] == MainTab
    ensures |r| == 1 + |GroupDescriptions(ds)|
    ensures forall i :: 1 <= i < |r| ==> r[i] == GroupDescriptions(ds)[i - 1].key
    ensures forall i :: 0 <= i < |r| ==> r[i] != ""
  {
    [MainTab] + GroupKeys(GroupDescriptions(ds))
  }

  /** What a tab shows: the project header for a tab named "main" in any
      case, otherwise a list of description sections. */
  datatype TabBody = Hero | Sections(items: seq<DescriptionView>)

  /** `categories[activeTab] || 'Overview'`. */
  function CurrentCategory(ds: seq<DescriptionView>, activeTab: int): (r: string)
    ensures 0 <= activeTab < |Categories(ds)| ==> r == Categories(ds)[activeTab]
    ensures !(0 <= activeTab < |Categories(ds)|) ==> r == OverviewKey
  {
    var cats := Categories(ds);
    if 0 <= activeTab < |cats| && cats[activeTab] != "" then cats[activeTab] else OverviewKey
  }

  /** `groupedDescriptions[key] || []`. */
  function GroupItems(groups: seq<Group>, key: string): seq<DescriptionView>
  {
    match FindGroup(groups, key)
    case Some(i) => groups[i].items
    case None => []
  }

  /** Looking a key up in the grouping gives exactly the descriptions with
      that key, in order, whether or not the key has a group. */
  lemma GroupItemsIsFilter(ds: seq<DescriptionView>, key: string)
    ensures GroupItems(GroupDescriptions(ds), key) == Seqs.Filter(ds, HasKey(key))
  {
    var groups := GroupDescriptions(ds);
    GroupDescriptionsIsGrouping(ds);
    if FindGroup(groups, key).None? {
      assert key !in GroupKeySet(groups);
      forall k | 0 <= k < |ds| ensures !HasKey(key)(ds[k]) {
        assert GroupKey(ds[k]) in KeysOf(ds);
      }
      FilterNoneKept(ds, HasKey(key));
    }
  }

  /** The tab's descriptions, shown unless the tab is the main one. */
  function TabContent(ds: seq<DescriptionView>, activeTab: int): (r: TabBody)
    ensures activeTab == 0 ==> r == Hero
  {
    var cur := CurrentCategory(ds, activeTab);
    if ToLower(cur) == "main" then Hero
    else Sections(GroupItems(GroupDescriptions(ds), cur))
  }

  /** A tab after the first one shows exactly the descriptions of its
      category (those without a category under "Overview"), in order, unless
      its name reads "main". */
  lemma TabShowsItsGroup(ds: seq<DescriptionView>, activeTab: int)
    requires 1 <= activeTab < |Categories(ds)|
    requires ToLower(Categories(ds)[activeTab]) != "main"
    ensures TabContent(ds, activeTab) == Sections(Seqs.Filter(ds, HasKey(Categories(ds)[activeTab])))
  {
    GroupItemsIsFilter(ds, Categories(ds)[activeTab]);
  }

  /** An index past the tabs shows the "Overview" group, which is empty
      unless some description has no category or is in "Overview". */
  lemma TabOutOfRange(ds: seq<DescriptionView>, activeTab: int)
    requires !(0 <= activeTab < |Categories(ds)|)
    ensures TabContent(ds, activeTab) == Sections(Seqs.Filter(ds, HasKey(OverviewKey)))
  {
    assert |ToLower(OverviewKey)| != |"main"|;
    GroupItemsIsFilter(ds, OverviewKey);
  }

  // ---------------------------------------------------------------------
  // Video URLs

  /** One of the regular expressions of `isVideoUrl`: a fragment found
      anywhere, or a file extension anchored at the end by `$`. */
  datatype VideoPattern = Anywhere(fragment: string) | AtEnd(extension: string)

  const VideoPatterns: seq<VideoPattern> := [
    Anywhere("youtube.com/watch?v="), Anywhere("youtube.com/embed/"), Anywhere("youtu.be/"),
    Anywhere("vimeo.com/"), Anywhere("dailymotion.com/"), Anywhere("twitch.tv/"),
    AtEnd(".mp4"), AtEnd(".webm"), AtEnd(".ogg")]

  /** `pattern.test(url)`. */
  predicate Tests(p: VideoPattern, url: string)
  {
    match p
    case Anywhere(fragment) => Contains(url, fragment)
    case AtEnd(extension) => EndsWith(url, extension)
  }

  /** `isVideoUrl`: never for the empty URL; otherwise one of the host
      patterns occurs or the URL ends in a video file extension. */
  function IsVideoUrl(url: string): (b: bool)
    ensures url == "" ==> !b
    ensures b <==> url != "" && exists i :: 0 <= i < |VideoPatterns| && Tests(VideoPatterns[i], url)
  {
    VideoPatternsListed(url);
    && url != ""
    && (|| Contains(url, "youtube.com/watch?v=") || Contains(url, "youtube.com/embed/")
        || Contains(url, "youtu.be/") || Contains(url, "vimeo.com/")
        || Contains(url, "dailymotion.com/") || Contains(url, "twitch.tv/")
        || EndsWith(url, ".mp4") || EndsWith(url, ".webm") || EndsWith(url, ".ogg"))
  }

  /** `videoPatterns.some(pattern => pattern.test(url))` is the disjunction
      of the nine tests. */
  lemma VideoPatternsListed(url: string)
    ensures (exists i :: 0 <= i < |VideoPatterns| && Tests(VideoPatterns[i], url)) <==>
      (|| Contains(url, "youtube.com/watch?v=") || Contains(url, "youtube.com/embed/")
       || Contains(url, "youtu.be/") || Contains(url, "vimeo.com/")
       || Contains(url, "dailymotion.com/") || Contains(url, "twitch.tv/")
       || EndsWith(url, ".mp4") || EndsWith(url, ".webm") || EndsWith(url, ".ogg"))
  {
    if exists i :: 0 <= i < |VideoPatterns| && Tests(VideoPatterns[i], url) {
      var i :| 0 <= i < |VideoPatterns| && Tests(VideoPatterns[i], url);
      PatternTested(url, i);
    }
    HostPatternsTested(url);
    ExtensionPatternsTested(url);
  }

  /** The pattern at index `i` is one of the nine tests. */
  lemma PatternTested(url: string, i: nat)
    requires i < |VideoPatterns| && Tests(VideoPatterns[i], url)
    ensures || Contains(url, "youtube.com/watch?v=") || Contains(url, "youtube.com/embed/")
            || Contains(url, "youtu.be/") || Contains(url, "vimeo.com/")
            || Contains(url, "dailymotion.com/") || Contains(url, "twitch.tv/")
            || EndsWith(url, ".mp4") || EndsWith(url, ".webm") || EndsWith(url, ".ogg")
  {
    if i < 3 {
      assert i == 0 || i == 1 || i == 2;
    } else if i < 6 {
      assert i == 3 || i == 4 || i == 5;
    } else {
      assert i == 6 || i == 7 || i == 8;
    }
  }

  lemma HostPatternsTested(url: string)
    ensures Contains(url, "youtube.com/watch?v=") ==> Tests(VideoPatterns[0], url)
    ensures Contains(url, "youtube.com/embed/") ==> Tests(VideoPatterns[1], url)
    ensures Contains(url, "youtu.be/") ==> Tests(VideoPatterns[2], url)
    ensures Contains(url, "vimeo.com/") ==> Tests(VideoPatterns[3], url)
    ensures Contains(url, "dailymotion.com/") ==> Tests(VideoPatterns[4], url)
    ensures Contains(url, "twitch.tv/") ==> Tests(VideoPatterns[5], url)
  {
  }

  lemma ExtensionPatternsTested(url: string)
    ensures EndsWith(url, ".mp4") ==> Tests(VideoPatterns[6], url)
    ensures EndsWith(url, ".webm") ==> Tests(VideoPatterns[7], url)
    ensures EndsWith(url, ".ogg") ==> Tests(VideoPatterns[8], url)
  {
  }

  const YouTubeEmbed := "https://www.youtube.com/embed/"
  const VimeoPlayer := "https://player.vimeo.com/video/"

  /** `getEmbedUrl`. For a watch URL the id is the text after the first
      "v=" of the whole URL, up to the first "&" or "v=" after it; for
      youtu.be and Vimeo links it is the text after the host marker up to
      the first "?" or marker after it. Anything else comes back as is. */
  function EmbedUrl(url: string): (r: string)
    ensures url == "" ==> r == url
    ensures !Contains(url, "youtube.com/watch?v=") && !Contains(url, "youtu.be/") && !Contains(url, "vimeo.com/") ==> r == url
    ensures url != "" && Contains(url, "youtube.com/watch?v=") ==>
      && YouTubeEmbed <= r && AfterFirst(url, "v=").Some?
      && UpToFirst(r[|YouTubeEmbed|..], AfterFirst(url, "v=").value, "v=", "&")
      && !Contains(r[|YouTubeEmbed|..], "&")
    ensures url != "" && !Contains(url, "youtube.com/watch?v=") && Contains(url, "youtu.be/") ==>
      && YouTubeEmbed <= r && AfterFirst(url, "youtu.be/").Some?
      && UpToFirst(r[|YouTubeEmbed|..], AfterFirst(url, "youtu.be/").value, "youtu.be/", "?")
      && !Contains(r[|YouTubeEmbed|..], "?")
    ensures url != "" && !Contains(url, "youtube.com/watch?v=") && !Contains(url, "youtu.be/") && Contains(url, "vimeo.com/") ==>
      && VimeoPlayer <= r && AfterFirst(url, "vimeo.com/").Some?
      && UpToFirst(r[|VimeoPlayer|..], AfterFirst(url, "vimeo.com/").value, "vimeo.com/", "?")
      && !Contains(r[|VimeoPlayer|..], "?")
  {
    if url == "" then url
    else if Contains(url, "youtube.com/watch?v=") then
      assert OccursAt("youtube.com/watch?v=", "v=", 18);
      ContainsIff("youtube.com/watch?v=", "v=");
      ContainsWithin(url, "youtube.com/watch?v=", "v=");
      var id := BeforeFirst(SplitSecond(url, "v=").value, "&");
      BeforeFirstStops(SplitSecond(url, "v=").value, "&");
      PieceIsUpToFirst(AfterFirst(url, "v=").value, "v=", "&");
      assert (YouTubeEmbed + id)[|YouTubeEmbed|..] == id;
      YouTubeEmbed + id
    else if Contains(url, "youtu.be/") then
      var id := BeforeFirst(SplitSecond(url, "youtu.be/").value, "?");
      BeforeFirstStops(SplitSecond(url, "youtu.be/").value, "?");
      PieceIsUpToFirst(AfterFirst(url, "youtu.be/").value, "youtu.be/", "?");
      assert (YouTubeEmbed + id)[|YouTubeEmbed|..] == id;
      YouTubeEmbed + id
    else if Contains(url, "vimeo.com/") then
      var id := BeforeFirst(SplitSecond(url, "vimeo.com/").value, "?");
      BeforeFirstStops(SplitSecond(url, "vimeo.com/").value, "?");
      PieceIsUpToFirst(AfterFirst(url, "vimeo.com/").value, "vimeo.com/", "?");
      assert (VimeoPlayer + id)[|VimeoPlayer|..] == id;
      VimeoPlayer + id
    else url
  }

  /** Only video URLs are rewritten: every URL whose embed form differs is
      one `isVideoUrl` accepts. */
  lemma RewrittenUrlsAreVideos(url: string)
    requires EmbedUrl(url) != url
    ensures IsVideoUrl(url)
  {
  }

  /** A watch URL whose id carries no "&" and no "v=" is rewritten to the
      embed URL with the same id. */
  lemma WatchUrlEmbedsId(id: string)
    requires !Contains(id, "&") && !Contains(id, "v=")
    ensures EmbedUrl("https://www.youtube.com/watch?v=" + id) == YouTubeEmbed + id
  {
    var url := "https://www.youtube.com/watch?v=" + id;
    WatchUrlMatches(id);
    WatchUrlIdFollows(id);
    assert SplitSecond(url, "v=") == Some(id);
    assert BeforeFirst(id, "&") == id;
  }

  lemma WatchUrlMatches(id: string)
    ensures Contains("https://www.youtube.com/watch?v=" + id, "youtube.com/watch?v=")
  {
    assert "https://www.youtube.com/watch?v=" + id == "https://www." + "youtube.com/watch?v=" + id;
    ContainsMiddle("https://www.", "youtube.com/watch?v=", id);
  }

  lemma WatchUrlIdFollows(id: string)
    ensures AfterFirst("https://www.youtube.com/watch?v=" + id, "v=") == Some(id)
  {
    var a := "https://www.youtube.com/watch?";
    var url := a + "v=" + id;
    assert "https://www.youtube.com/watch?v=" + id == url;
    assert 'v' !in a;
    FirstOccurrenceAfter(a, "v=", id);
    assert url[|a| + 2..] == id;
  }

  /** A short youtu.be link whose id carries no "?" and no second
      "youtu.be/" is rewritten to the embed URL with the same id. */
  lemma ShortUrlEmbedsId(id: string)
    requires !Contains(id, "?") && !Contains(id, "youtu.be/")
    ensures EmbedUrl("https://youtu.be/" + id) == YouTubeEmbed + id
  {
    var url := "https://youtu.be/" + id;
    ContainsAfter("https://youtu.be/", id, "?");
    NoWatchMarkerWithoutQuery(url);
    MarkerIdFollows("https://", "youtu.be/", id);
    assert url == "https://" + "youtu.be/" + id;
    assert SplitSecond(url, "youtu.be/") == Some(id);
    assert BeforeFirst(id, "?") == id;
  }

  /** A Vimeo link whose id carries no "?" and neither marker is rewritten
      to the player URL with the same id. */
  lemma VimeoUrlEmbedsId(id: string)
    requires !Contains(id, "?") && !Contains(id, "youtu.be/") && !Contains(id, "vimeo.com/")
    ensures EmbedUrl("https://vimeo.com/" + id) == VimeoPlayer + id
  {
    var url := "https://vimeo.com/" + id;
    ContainsAfter("https://vimeo.com/", id, "?");
    NoWatchMarkerWithoutQuery(url);
    ContainsAfter("https://vimeo.com/", id, "youtu.be/");
    MarkerIdFollows("https://", "vimeo.com/", id);
    assert url == "https://" + "vimeo.com/" + id;
    assert SplitSecond(url, "vimeo.com/") == Some(id);
    assert BeforeFirst(id, "?") == id;
  }

  /** A watch URL with a query after the id (`watch?v=ID&t=30s`) is
      rewritten to the embed URL of the id alone, whatever the query says. */
  lemma WatchUrlDropsQuery(id: string, tail: string)
    requires !Contains(id, "&") && !Contains(id, "v=")
    ensures EmbedUrl("https://www.youtube.com/watch?v=" + id + "&" + tail) == YouTubeEmbed + id
  {
    var rest := id + "&" + tail;
    var url := "https://www.youtube.com/watch?v=" + rest;
    assert url == "https://www.youtube.com/watch?v=" + id + "&" + tail;
    WatchUrlMatches(rest);
    WatchUrlIdFollows(rest);
    PieceBeforeStop(id, "&", tail, "v=");
    var r := EmbedUrl(url);
    UpToFirstUnique(r[|YouTubeEmbed|..], id, rest, "v=", "&");
    assert r == YouTubeEmbed + r[|YouTubeEmbed|..];
  }

  /** A youtu.be link with a query after the id (`youtu.be/ID?t=30`) is
      rewritten to the embed URL of the id alone, when the URL is not also
      a watch URL (which the first branch would take). */
  lemma ShortUrlDropsQuery(id: string, tail: string)
    requires !Contains(id, "?") && !Contains(id, "youtu.be/")
    requires !Contains("https://youtu.be/" + id + "?" + tail, "youtube.com/watch?v=")
    ensures EmbedUrl("https://youtu.be/" + id + "?" + tail) == YouTubeEmbed + id
  {
    var rest := id + "?" + tail;
    var url := "https://" + "youtu.be/" + rest;
    assert url == "https://youtu.be/" + id + "?" + tail;
    MarkerIdFollows("https://", "youtu.be/", rest);
    PieceBeforeStop(id, "?", tail, "youtu.be/");
    var r := EmbedUrl(url);
    UpToFirstUnique(r[|YouTubeEmbed|..], id, rest, "youtu.be/", "?");
    assert r == YouTubeEmbed + r[|YouTubeEmbed|..];
  }

  /** A Vimeo link with a query after the id (`vimeo.com/ID?h=abc`) is
      rewritten to the player URL of the id alone, when the URL is not also
      a YouTube URL (which the earlier branches would take). */
  lemma VimeoUrlDropsQuery(id: string, tail: string)
    requires !Contains(id, "?") && !Contains(id, "vimeo.com/")
    requires var url := "https://vimeo.com/" + id + "?" + tail;
      !Contains(url, "youtube.com/watch?v=") && !Contains(url, "youtu.be/")
    ensures EmbedUrl("https://vimeo.com/" + id + "?" + tail) == VimeoPlayer + id
  {
    var rest := id + "?" + tail;
    var url := "https://" + "vimeo.com/" + rest;
    assert url == "https://vimeo.com/" + id + "?" + tail;
    MarkerIdFollows("https://", "vimeo.com/", rest);
    PieceBeforeStop(id, "?", tail, "vimeo.com/");
    var r := EmbedUrl(url);
    UpToFirstUnique(r[|VimeoPlayer|..], id, rest, "vimeo.com/", "?");
    assert r == VimeoPlayer + r[|VimeoPlayer|..];
  }

  /** The watch marker holds a "?", so a URL without one has no marker. */
  lemma NoWatchMarkerWithoutQuery(url: string)
    requires !Contains(url, "?")
    ensures !Contains(url, "youtube.com/watch?v=")
  {
    if Contains(url, "youtube.com/watch?v=") {
      assert OccursAt("youtube.com/watch?v=", "?", 17);
      ContainsIff("youtube.com/watch?v=", "?");
      ContainsWithin(url, "youtube.com/watch?v=", "?");
    }
  }

  /** After a marker whose first character is not in `a`, the rest is what
      follows the first marker. */
  lemma MarkerIdFollows(a: string, marker: string, id: string)
    requires |marker| > 0 && marker[0] !in a
    ensures AfterFirst(a + marker + id, marker) == Some(id)
  {
    FirstOccurrenceAfter(a, marker, id);
    assert (a + marker + id)[|a| + |marker|..] == id;
  }

  /** A text contains whatever is written in the middle of it. */
  lemma ContainsMiddle(a: string, sub: string, rest: string)
    ensures Contains(a + sub + rest, sub)
  {
    var s := a + sub + rest;
    assert s[|a|..|a| + |sub|] == sub;
    assert OccursAt(s, sub, |a|);
    ContainsIff(s, sub);
  }

  /** A pattern whose first character does not occur in `a` is found first
      right after `a`. */
  lemma FirstOccurrenceAfter(a: string, sub: string, rest: string)
    requires |sub| > 0 && sub[0] !in a
    ensures IndexOf(a + sub + rest, sub) == Some(|a|)
  {
    var s := a + sub + rest;
    assert s[|a|..|a| + |sub|] == sub;
    forall j | 0 <= j < |a|
      ensures !OccursAt(s, sub, j)
    {
      assert s[j..j + |sub|][0] == s[j] == a[j];
    }
    IndexFromFirst(s, sub, 0, |a|);
  }

  lemma IndexFromFirst(s: string, sub: string, k: nat, i: nat)
    requires k <= i <= |s| && OccursAt(s, sub, i)
    requires forall j :: k <= j < i ==> !OccursAt(s, sub, j)
    ensures IndexFrom(s, sub, k) == Some(i)
    decreases i - k
  {
    if k < i {
      IndexFromFirst(s, sub, k + 1, i);
    }
  }

  // ---------------------------------------------------------------------
  // The media gallery

  datatype MediaKind = Video | Image

  datatype MediaItem = MediaItem(kind: MediaKind, url: string, embedUrl: string, alt: string, title: string)

  /** One gallery entry: a video when `isVideoUrl` says so, with its embed
      address. */
  function MediaFor(url: string, alt: string, title: string): (r: MediaItem)
    ensures r.url == url && r.embedUrl == EmbedUrl(url) && r.alt == alt && r.title == title
    ensures r.kind == Video <==> IsVideoUrl(url)
  {
    MediaItem(if IsVideoUrl(url) then Video else Image, url, EmbedUrl(url), alt, title)
  }

  /** An item is shown as a video exactly when its address is one. */
  predicate KindFits(m: MediaItem)
  {
    m.kind == Video <==> IsVideoUrl(m.url)
  }

  /** `image.altText || "Gallery item " + (index + 1)`. */
  function GalleryLabel(img: ImageRow, index: nat): (r: string)
    ensures img.altText != "" ==> r == img.altText
    ensures img.altText == "" ==> "Gallery item " <= r && ParseInt(r[|"Gallery item "|..]) == Some(index + 1)
  {
    ParseIntOfNatToString(index + 1);
    assert ("Gallery item " + NatToString(index + 1))[|"Gallery item "|..] == NatToString(index + 1);
    if img.altText != "" then img.altText else "Gallery item " + NatToString(index + 1)
  }

  function GalleryItems(images: seq<ImageRow>): (r: seq<MediaItem>)
    ensures |r| == |images|
    ensures forall i :: 0 <= i < |images| ==>
      r[i] == MediaFor(images[i].imageUrl, GalleryLabel(images[i], i), GalleryLabel(images[i], i))
    ensures forall i :: 0 <= i < |r| ==> KindFits(r[i])
  {
    seq(|images|, i requires 0 <= i < |images| =>
      MediaFor(images[i].imageUrl, GalleryLabel(images[i], i), GalleryLabel(images[i], i)))
  }

  /** The main item: the project's main image or video, titled "Main
      Media", present exactly when the project has a main image path. */
  function MainMedia(p: ProjectView): (r: seq<MediaItem>)
    ensures |r| == (if p.imgPath != "" then 1 else 0)
    ensures p.imgPath != "" ==> r[0] == MediaFor(p.imgPath, p.title, "Main Media")
    ensures forall i :: 0 <= i < |r| ==> KindFits(r[i])
  {
    if p.imgPath != "" then [MediaFor(p.imgPath, p.title, "Main Media")] else []
  }

  /** `getMediaItems`: the main media first when the project has one, then
      one item per gallery image in order, each a video exactly when its
      address is one. */
  function MediaItems(p: ProjectView): (r: seq<MediaItem>)
    ensures |r| == |MainMedia(p)| + |p.images|
    ensures p.imgPath != "" ==> r[0] == MediaFor(p.imgPath, p.title, "Main Media")
    ensures forall i :: 0 <= i < |p.images| ==> r[|MainMedia(p)| + i] == GalleryItems(p.images)[i]
    ensures forall i :: 0 <= i < |r| ==> KindFits(r[i])
  {
    var main := MainMedia(p);
    var gallery := GalleryItems(p.images);
    ConcatKindsFit(main, gallery);
    main + gallery
  }

  lemma ConcatKindsFit(a: seq<MediaItem>, b: seq<MediaItem>)
    requires forall i :: 0 <= i < |a| ==> KindFits(a[i])
    requires forall i :: 0 <= i < |b| ==> KindFits(b[i])
    ensures forall i :: 0 <= i < |a + b| ==> KindFits((a + b)[i])
    ensures forall i :: 0 <= i < |b| ==> (a + b)[|a| + i] == b[i]
  {
    forall i | 0 <= i < |a + b| ensures KindFits((a + b)[i]) {
      if i < |a| {
        assert (a + b)[i] == a[i];
      } else {
        assert (a + b)[i] == b[i - |a|];
      }
    }
  }

  /** The fallback label is read back as its gallery position. */
  lemma GalleryLabelNumbers(img: ImageRow, index: nat)
    requires img.altText == ""
    ensures GalleryLabel(img, index) == "Gallery item " + NatToString(index + 1)
    ensures ParseInt(GalleryLabel(img, index)[|"Gallery item "|..]) == Some(index + 1)
  {
    ParseIntOfNatToString(index + 1);
    assert GalleryLabel(img, index)[|"Gallery item "|..] == NatToString(index + 1);
  }

  // ---------------------------------------------------------------------
  // Gallery navigation

  /** JavaScript's `%`: the remainder takes the sign of the dividend and
      differs from it by a multiple of the divisor. */
  function JsRem(a: int, n: int): (r: int)
    requires n > 0
    ensures a >= 0 ==> 0 <= r < n && r == a % n
    ensures a < 0 ==> -n < r <= 0
    ensures (a - r) % n == 0
  {
    if a >= 0 then
      RemainderOff(a, n);
      a % n
    else
      NegativeRemainder(a, n);
      -((-a) % n)
  }

  /** Taking the remainder away leaves a multiple of `n`. */
  lemma RemainderOff(x: int, n: int)
    requires n > 0
    ensures (x - x % n) % n == 0
  {
    var q := x / n;
    assert x - x % n == n * q;
    ModUnique(x - x % n, n, q, 0);
  }

  /** Negating the remainder of `-a` leaves `a` short of a multiple of `n`. */
  lemma NegativeRemainder(a: int, n: int)
    requires n > 0 && a < 0
    ensures (a + (-a) % n) % n == 0
  {
    var q, m := (-a) / n, (-a) % n;
    assert -a == n * q + m;
    assert a + m == n * -q;
    ModUnique(a + m, n, -q, 0);
  }

  /** Euclidean division is unique: a quotient and a remainder in range
      that rebuild `x` are the ones `/` and `%` give. */
  lemma ModUnique(x: int, n: int, q: int, m: int)
    requires n > 0 && 0 <= m < n && x == n * q + m
    ensures x % n == m
  {
    var q', m' := x / n, x % n;
    assert n * (q - q') == m' - m;
    if q - q' >= 1 {
      MulAtLeast(n, q - q');
    } else if q - q' <= -1 {
      MulAtLeast(n, q' - q);
    }
  }

  lemma MulAtLeast(n: int, k: int)
    requires n > 0 && k >= 1
    ensures n * k >= n
  {
  }

  /** Adding the divisor does not change the remainder. */
  lemma ShiftMod(x: int, n: int)
    requires n > 0
    ensures (x + n) % n == x % n
  {
    ModUnique(x + n, n, x / n + 1, x % n);
  }

  /** `handleNext` and `handleBack` with `maxSteps` media items. */
  function Next(step: int, maxSteps: int): (r: int)
    requires maxSteps > 0
    ensures -maxSteps < r < maxSteps && (step + 1 - r) % maxSteps == 0
    ensures step >= -1 ==> 0 <= r
  {
    JsRem(step + 1, maxSteps)
  }

  function Back(step: int, maxSteps: int): (r: int)
    requires maxSteps > 0
    ensures -maxSteps < r < maxSteps && (step - 1 - r) % maxSteps == 0
    ensures step >= 1 - maxSteps ==> 0 <= r
  {
    ShiftMod(step - 1 - JsRem(step - 1 + maxSteps, maxSteps), maxSteps);
    JsRem(step - 1 + maxSteps, maxSteps)
  }

  /** The arrows and the stepper are only rendered for more than one item. */
  predicate ShowsNavigation(maxSteps: int)
  {
    maxSteps > 1
  }

  /** The remainder of a number below twice the divisor. */
  lemma ModBelowTwice(a: int, n: int)
    requires n > 0 && 0 <= a < 2 * n
    ensures a % n == if a < n then a else a - n
  {
    if a >= n {
      assert a == n + (a - n);
    }
  }

  /** From a valid position both arrows stay in range, going back undoes
      going forward and vice versa, and the last item wraps to the first. */
  lemma NavigationWraps(step: int, maxSteps: int)
    requires maxSteps > 0 && 0 <= step < maxSteps
    ensures 0 <= Next(step, maxSteps) < maxSteps && 0 <= Back(step, maxSteps) < maxSteps
    ensures Back(Next(step, maxSteps), maxSteps) == step
    ensures Next(Back(step, maxSteps), maxSteps) == step
    ensures step == maxSteps - 1 ==> Next(step, maxSteps) == 0
    ensures step == 0 ==> Back(step, maxSteps) == maxSteps - 1
  {
    var n := maxSteps;
    ModBelowTwice(step + 1, n);
    ModBelowTwice(step - 1 + n, n);
    var fwd := Next(step, n);
    var bwd := Back(step, n);
    ModBelowTwice(fwd - 1 + n, n);
    ModBelowTwice(bwd + 1, n);
  }
}

=== FILE: project_dialog.dfy ===
/** The admin project dialog: its form state, the field and section
    editing operations, validation, the cleaned request it sends, and what
    the server's answer does to it. */
module ProjectDialog {
  import opened Wrappers
  import opened JsText
  import Seqs
  import opened ProjectController

  // ---------------------------------------------------------------------
  // Form state

  /** One description section as the form holds it: no category field. */
  datatype Section = Section(title: string, points: seq<string>, order: int)

  /** The form. An id select that shows the empty option is `None`. */
  datatype Form = Form(
    title: string,
    businessTypeId: Option<int>,
    categoryId: Option<int>,
    imgPath: string,
    images: seq<ImageRow>,
    githubUrl: string,
    previewUrl: string,
    featured: bool,
    technologyIds: seq<int>,
    descriptions: seq<Section>)

  /** The keys of the `errors` object. */
  datatype ErrorKey =
    | TitleKey | BusinessTypeKey | CategoryKey | ImgPathKey | GithubUrlKey | PreviewUrlKey
    | TechnologiesKey | FeaturedKey
    | SectionTitleKey(index: int) | SectionPointsKey(index: int)
    | SubmitKey

  /** The dialog: the form, the errors shown, and the id of the project
      being edited (`None` when adding one). */
  datatype Dialog = Dialog(form: Form, errors: map<ErrorKey, string>, editing: Option<int>)

  const DefaultSection := Section("Project Overview", [""], 0)

  const EmptyForm := Form("", None, None, "", [], "", "", false, [], [DefaultSection])

  /** Every form the dialog can reach holds at least one section. */
  predicate HasSections(f: Form)
  {
    |f.descriptions| >= 1
  }

  // ---------------------------------------------------------------------
  // Opening

  /** `value || ''` on an id: `null` and 0 show the empty option. */
  function IdChoice(id: Option<int>): (r: Option<int>)
    ensures r.Some? <==> TruthyId(id)
    ensures r.Some? ==> r == id
  {
    if TruthyId(id) then id else None
  }

  function SectionOf(d: DescriptionView): Section
  {
    Section(d.title, d.points, d.order)
  }

  function TechnologyIdsOf(techs: seq<RefEntity>): (r: seq<int>)
    ensures |r| == |techs| && forall i :: 0 <= i < |techs| ==> r[i] == techs[i].id
  {
    seq(|techs|, i requires 0 <= i < |techs| => techs[i].id)
  }

  /** The effect run when the dialog opens: an existing project's fields are
      copied (technologies reduced to their ids, no descriptions replaced by
      the default section), otherwise the empty form; errors are cleared. */
  function OpenDialog(project: Option<ProjectView>): (r: Dialog)
    ensures r.errors == map[] && HasSections(r.form)
    ensures project.None? ==> r.form == EmptyForm && r.editing.None?
    ensures project.Some? ==> r.editing == Some(project.value.id)
    ensures project.Some? ==> var p := project.value;
      && r.form.title == p.title && r.form.imgPath == p.imgPath
      && r.form.githubUrl == p.githubUrl && r.form.previewUrl == p.previewUrl
      && r.form.featured == p.featured && r.form.images == p.images
      && r.form.technologyIds == TechnologyIdsOf(p.technologies)
      && r.form.businessTypeId == IdChoice(p.businessTypeId) && r.form.categoryId == IdChoice(p.categoryId)
    ensures project.Some? && |project.value.descriptions| > 0 ==>
      |r.form.descriptions| == |project.value.descriptions|
      && forall i :: 0 <= i < |r.form.descriptions| ==>
        r.form.descriptions[i] == SectionOf(project.value.descriptions[i])
    ensures project.Some? && |project.value.descriptions| == 0 ==> r.form.descriptions == [DefaultSection]
  {
    match project
    case None => Dialog(EmptyForm, map[], None)
    case Some(p) =>
      var sections := if |p.descriptions| > 0
        then seq(|p.descriptions|, i requires 0 <= i < |p.descriptions| => SectionOf(p.descriptions[i]))
        else [DefaultSection];
      Dialog(Form(p.title, IdChoice(p.businessTypeId), IdChoice(p.categoryId), p.imgPath, p.images,
        p.githubUrl, p.previewUrl, p.featured, TechnologyIdsOf(p.technologies), sections), map[], Some(p.id))
  }

  // ---------------------------------------------------------------------
  // Editing the scalar fields

  datatype FieldEdit =
    | EditTitle(text: string)
    | EditBusinessType(choice: Option<int>)
    | EditCategory(choice: Option<int>)
    | EditImgPath(text: string)
    | EditGithubUrl(text: string)
    | EditPreviewUrl(text: string)
    | EditTechnologies(ids: seq<int>)
    | EditFeatured(on: bool)

  function KeyOf(e: FieldEdit): ErrorKey
  {
    match e
    case EditTitle(_) => TitleKey
    case EditBusinessType(_) => BusinessTypeKey
    case EditCategory(_) => CategoryKey
    case EditImgPath(_) => ImgPathKey
    case EditGithubUrl(_) => GithubUrlKey
    case EditPreviewUrl(_) => PreviewUrlKey
    case EditTechnologies(_) => TechnologiesKey
    case EditFeatured(_) => FeaturedKey
  }

  function ApplyEdit(f: Form, e: FieldEdit): Form
  {
    match e
    case EditTitle(s) => f.(title := s)
    case EditBusinessType(c) => f.(businessTypeId := c)
    case EditCategory(c) => f.(categoryId := c)
    case EditImgPath(s) => f.(imgPath := s)
    case EditGithubUrl(s) => f.(githubUrl := s)
    case EditPreviewUrl(s) => f.(previewUrl := s)
    case EditTechnologies(ids) => f.(technologyIds := ids)
    case EditFeatured(b) => f.(featured := b)
  }

  /** `handleInputChange`: the field takes the new value and its error, if
      any, is cleared (a cleared entry is `null`, modelled as absent); no
      other error and no section changes. */
  function HandleInputChange(d: Dialog, e: FieldEdit): (r: Dialog)
    ensures KeyOf(e) !in r.errors
    ensures forall k :: k != KeyOf(e) ==> (k in r.errors <==> k in d.errors)
    ensures forall k :: k in r.errors ==> r.errors[k] == d.errors[k]
    ensures r.form.descriptions == d.form.descriptions && r.editing == d.editing
  {
    Dialog(ApplyEdit(d.form, e), d.errors - {KeyOf(e)}, d.editing)
  }

  // ---------------------------------------------------------------------
  // Editing the sections

  /** `s.map((x, j) => j === i ? v : x)`. */
  function UpdateAt<T>(s: seq<T>, i: int, v: T): (r: seq<T>)
    ensures |r| == |s|
    ensures forall j :: 0 <= j < |s| && j != i ==> r[j] == s[j]
    ensures 0 <= i < |s| ==> r[i] == v
  {
    seq(|s|, j requires 0 <= j < |s| => if j == i then v else s[j])
  }

  /** `s.filter((_, j) => j !== i)`, walking the list. */
  function RemoveAt<T>(s: seq<T>, i: int): (r: seq<T>)
    ensures |r| <= |s|
  {
    if |s| == 0 then [] else (if i == 0 then [] else [s[0]]) + RemoveAt(s[1..], i - 1)
  }

  /** Filtering out position `i` splices it out when it exists and changes
      nothing otherwise. */
  lemma {:induction false} RemoveAtSplices<T>(s: seq<T>, i: int)
    ensures RemoveAt(s, i) == if 0 <= i < |s| then s[..i] + s[i + 1..] else s
  {
    if |s| > 0 {
      RemoveAtSplices(s[1..], i - 1);
      if 0 < i < |s| {
        assert [s[0]] + (s[1..][..i - 1] + s[1..][i..]) == s[..i] + s[i + 1..];
      } else if i != 0 {
        assert [s[0]] + s[1..] == s;
      }
    }
  }

  /** `handleDescriptionChange(index, 'title', value)`. */
  function SetSectionTitle(ds: seq<Section>, index: int, title: string): (r: seq<Section>)
    ensures |r| == |ds|
    ensures forall j :: 0 <= j < |ds| && j != index ==> r[j] == ds[j]
    ensures 0 <= index < |ds| ==> r[index] == ds[index].(title := title)
  {
    if 0 <= index < |ds| then UpdateAt(ds, index, ds[index].(title := title)) else ds
  }

  /** `handlePointChange`: one point of one section takes a new value. */
  function PointChange(ds: seq<Section>, di: int, pi: int, value: string): (r: seq<Section>)
    ensures |r| == |ds|
    ensures forall j :: 0 <= j < |ds| && j != di ==> r[j] == ds[j]
    ensures 0 <= di < |ds| ==>
      && r[di].title == ds[di].title && r[di].order == ds[di].order
      && |r[di].points| == |ds[di].points|
      && (forall j :: 0 <= j < |ds[di].points| && j != pi ==> r[di].points[j] == ds[di].points[j])
      && (0 <= pi < |ds[di].points| ==> r[di].points[pi] == value)
  {
    if 0 <= di < |ds| then UpdateAt(ds, di, ds[di].(points := UpdateAt(ds[di].points, pi, value))) else ds
  }

  /** `addPoint`: an empty point at the end of one section. */
  function AddPoint(ds: seq<Section>, di: int): (r: seq<Section>)
    ensures |r| == |ds|
    ensures forall j :: 0 <= j < |ds| && j != di ==> r[j] == ds[j]
    ensures 0 <= di < |ds| ==> r[di] == ds[di].(points := ds[di].points + [""])
  {
    if 0 <= di < |ds| then UpdateAt(ds, di, ds[di].(points := ds[di].points + [""])) else ds
  }

  /** `removePoint`: one point leaves one section. */
  function RemovePoint(ds: seq<Section>, di: int, pi: int): (r: seq<Section>)
    ensures |r| == |ds|
    ensures forall j :: 0 <= j < |ds| && j != di ==> r[j] == ds[j]
    ensures 0 <= di < |ds| ==> r[di] == ds[di].(points := RemoveAt(ds[di].points, pi))
  {
    if 0 <= di < |ds| then UpdateAt(ds, di, ds[di].(points := RemoveAt(ds[di].points, pi))) else ds
  }

  /** `addDescriptionSection`: an untitled section with one empty point,
      ordered after the existing ones. */
  function AddSection(ds: seq<Section>): (r: seq<Section>)
    ensures |r| == |ds| + 1 && r[..|ds|] == ds
    ensures r[|ds|] == Section("", [""], |ds|)
  {
    ds + [Section("", [""], |ds|)]
  }

  /** `removeDescriptionSection`: ignored while only one section is left. */
  function RemoveSection(ds: seq<Section>, index: int): (r: seq<Section>)
    ensures |ds| <= 1 ==> r == ds
    ensures |ds| > 1 ==> r == RemoveAt(ds, index)
  {
    if |ds| > 1 then RemoveAt(ds, index) else ds
  }

  /** The section operations, as the dialog's buttons and inputs issue
      them. */
  datatype SectionEdit =
    | TitleOf(index: int, title: string)
    | Point(di: int, pi: int, value: string)
    | NewPoint(di: int)
    | DropPoint(di: int, pi: int)
    | NewSection
    | DropSection(index: int)

  function ApplySectionEdit(ds: seq<Section>, e: SectionEdit): seq<Section>
  {
    match e
    case TitleOf(i, t) => SetSectionTitle(ds, i, t)
    case Point(di, pi, v) => PointChange(ds, di, pi, v)
    case NewPoint(di) => AddPoint(ds, di)
    case DropPoint(di, pi) => RemovePoint(ds, di, pi)
    case NewSection => AddSection(ds)
    case DropSection(i) => RemoveSection(ds, i)
  }

  /** No section edit empties the list: removing a section is refused
      while one is left, and with two or more at most one goes. */
  lemma SectionEditsKeepASection(ds: seq<Section>, e: SectionEdit)
    ensures |ds| >= 1 ==> |ApplySectionEdit(ds, e)| >= 1
  {
    if e.DropSection? && |ds| > 1 {
      RemoveAtSplices(ds, e.index);
    }
  }

  /** Editing a section leaves the scalar fields alone, so the invariant
      holds for the dialog as a whole. */
  function EditSections(d: Dialog, e: SectionEdit): (r: Dialog)
    ensures r.errors == d.errors && r.editing == d.editing
    ensures r.form == d.form.(descriptions := ApplySectionEdit(d.form.descriptions, e))
    ensures HasSections(d.form) ==> HasSections(r.form)
  {
    SectionEditsKeepASection(d.form.descriptions, e);
    d.(form := d.form.(descriptions := ApplySectionEdit(d.form.descriptions, e)))
  }

  // ---------------------------------------------------------------------
  // Validation

  const TitleMissing := "Title is required"
  const ImageMissing := "Main image URL is required"
  const GithubMissing := "GitHub URL is required"
  const PreviewMissing := "Preview URL is required"
  const SectionTitleMissing := "Section title is required"
  const PointMissing := "At least one bullet point is required"
  const SaveFailed := "Failed to save project"

  function NotBlank(): string -> bool
  {
    (s: string) => !Blank(s)
  }

  /** What `validateForm` accepts: the four text fields non-blank and every
      section with a non-blank title and some non-blank point. */
  predicate FormValid(f: Form)
  {
    && !Blank(f.title) && !Blank(f.imgPath) && !Blank(f.githubUrl) && !Blank(f.previewUrl)
    && forall i :: 0 <= i < |f.descriptions| ==> SectionValid(f.descriptions[i])
  }

  predicate SectionValid(s: Section)
  {
    !Blank(s.title) && exists j :: 0 <= j < |s.points| && !Blank(s.points[j])
  }

  /** The keys `validateForm` can set for a form with `n` sections. */
  function CandidateKeys(n: nat): set<ErrorKey>
  {
    {TitleKey, ImgPathKey, GithubUrlKey, PreviewUrlKey}
      + (set i | 0 <= i < n :: SectionTitleKey(i))
      + (set i | 0 <= i < n :: SectionPointsKey(i))
  }

  /** Whether the check behind `key` fails. */
  predicate Fails(f: Form, key: ErrorKey)
  {
    match key
    case TitleKey => Blank(f.title)
    case ImgPathKey => Blank(f.imgPath)
    case GithubUrlKey => Blank(f.githubUrl)
    case PreviewUrlKey => Blank(f.previewUrl)
    case SectionTitleKey(i) => 0 <= i < |f.descriptions| && Blank(f.descriptions[i].title)
    case SectionPointsKey(i) =>
      0 <= i < |f.descriptions| && |Seqs.Filter(f.descriptions[i].points, NotBlank())| == 0
    case _ => false
  }

  function MessageFor(key: ErrorKey): string
  {
    match key
    case TitleKey => TitleMissing
    case ImgPathKey => ImageMissing
    case GithubUrlKey => GithubMissing
    case PreviewUrlKey => PreviewMissing
    case SectionTitleKey(_) => SectionTitleMissing
    case SectionPointsKey(_) => PointMissing
    case _ => ""
  }

  /** A section's points contain a non-blank one exactly when filtering
      out the blank ones leaves something. */
  lemma SomePointIffFilterNonEmpty(s: Section)
    ensures |Seqs.Filter(s.points, NotBlank())| == 0 <==> !exists j :: 0 <= j < |s.points| && !Blank(s.points[j])
  {
    var r := Seqs.Filter(s.points, NotBlank());
    if j :| 0 <= j < |s.points| && !Blank(s.points[j]) {
      assert s.points[j] in s.points && NotBlank()(s.points[j]);
      assert s.points[j] in r;
    }
    if |r| > 0 {
      assert r[0] in s.points && NotBlank()(r[0]);
      var j :| 0 <= j < |s.points| && s.points[j] == r[0];
    }
  }

  /** `validateForm`'s error object: one entry per failing check, and none
      at all exactly when the form is valid. */
  function ValidationErrors(f: Form): (r: map<ErrorKey, string>)
    ensures forall k :: k in r <==> k in CandidateKeys(|f.descriptions|) && Fails(f, k)
    ensures forall k :: k in r ==> r[k] == MessageFor(k)
    ensures |r| == 0 <==> FormValid(f)
  {
    var r := map k | k in CandidateKeys(|f.descriptions|) && Fails(f, k) :: MessageFor(k);
    NoErrorsIffValid(f, r);
    r
  }

  lemma NoErrorsIffValid(f: Form, r: map<ErrorKey, string>)
    requires forall k :: k in r <==> k in CandidateKeys(|f.descriptions|) && Fails(f, k)
    ensures |r| == 0 <==> FormValid(f)
  {
    if FormValid(f) {
      forall k | k in CandidateKeys(|f.descriptions|)
        ensures !Fails(f, k)
      {
        if k.SectionPointsKey? && 0 <= k.index < |f.descriptions| {
          SomePointIffFilterNonEmpty(f.descriptions[k.index]);
        }
      }
      assert r.Keys == {};
    } else {
      var k := FailingKey(f);
      assert k in r;
    }
  }

  /** A check that fails on an invalid form. */
  lemma FailingKey(f: Form) returns (k: ErrorKey)
    requires !FormValid(f)
    ensures k in CandidateKeys(|f.descriptions|) && Fails(f, k)
  {
    if Blank(f.title) {
      k := TitleKey;
    } else if Blank(f.imgPath) {
      k := ImgPathKey;
    } else if Blank(f.githubUrl) {
      k := GithubUrlKey;
    } else if Blank(f.previewUrl) {
      k := PreviewUrlKey;
    } else {
      var i :| 0 <= i < |f.descriptions| && !SectionValid(f.descriptions[i]);
      if Blank(f.descriptions[i].title) {
        k := SectionTitleKey(i);
        assert k in (set j | 0 <= j < |f.descriptions| :: SectionTitleKey(j));
      } else {
        SomePointIffFilterNonEmpty(f.descriptions[i]);
        k := SectionPointsKey(i);
        assert k in (set j | 0 <= j < |f.descriptions| :: SectionPointsKey(j));
      }
    }
  }

  // ---------------------------------------------------------------------
  // The request

  /** A cleaned section: trimmed title, blank points dropped (the others
      sent as typed), the order kept, and no category. */
  function CleanSection(s: Section): (r: DescriptionInput)
    ensures r.category.None?
    ensures r.title == Some(Trim(s.title)) && r.order == Some(s.order)
    ensures r.points.Some?
    ensures forall j :: 0 <= j < |r.points.value| ==> r.points.value[j].Some? && !Blank(r.points.value[j].value)
    ensures forall j :: 0 <= j < |r.points.value| ==> r.points.value[j].value in s.points
  {
    var kept := Seqs.Filter(s.points, NotBlank());
    DescriptionInput(None, Some(Trim(s.title)), Some(seq(|kept|, j requires 0 <= j < |kept| => Some(kept[j]))),
      Some(s.order))
  }

  /** A section that passes `validateForm` cleans to one the handlers
      would accept but for the category: given any non-blank category it
      passes every description check. */
  lemma CleanedSectionLacksOnlyCategory(s: Section, category: string)
    requires SectionValid(s) && !Blank(category)
    ensures CleanSection(s).category.None?
    ensures DescriptionOk(CleanSection(s).(category := Some(category)))
  {
    CleanedTitleNotBlank(s);
    CleanedPointsNonEmpty(s);
  }

  lemma CleanedTitleNotBlank(s: Section)
    requires !Blank(s.title)
    ensures !Blank(CleanSection(s).title.value)
  {
    TrimIdempotent(s.title);
  }

  lemma CleanedPointsNonEmpty(s: Section)
    requires exists j :: 0 <= j < |s.points| && !Blank(s.points[j])
    ensures |CleanSection(s).points.value| > 0
  {
    SomePointIffFilterNonEmpty(s);
  }

  function ImageInputOf(img: ImageRow): Option<ImageInput>
  {
    Some(ImageInput(Some(img.imageUrl), Some(img.altText), Some(img.order)))
  }

  /** `formData.businessTypeId || null`. */
  function IdOrNull(id: Option<int>): (r: Js<int>)
    ensures r.Val? <==> TruthyId(id)
    ensures r.Val? ==> r.v == id.value
  {
    if TruthyId(id) then Val(id.value) else Null
  }

  /** The body `handleSave` sends: the form as it is, except the cleaned
      sections and the two ids with an empty choice sent as `null`. */
  function PayloadOf(f: Form): (p: ProjectPayload)
    ensures p.title == Some(f.title) && p.imgPath == Some(f.imgPath)
    ensures p.githubUrl == Some(f.githubUrl) && p.previewUrl == Some(f.previewUrl)
    ensures p.descriptions.Val? && |p.descriptions.v| == |f.descriptions|
    ensures forall i :: 0 <= i < |f.descriptions| ==> p.descriptions.v[i] == CleanSection(f.descriptions[i])
    ensures p.businessTypeId == IdOrNull(f.businessTypeId) && p.categoryId == IdOrNull(f.categoryId)
    ensures p.images.Val? && p.featured == Val(f.featured) && p.technologyIds == Some(f.technologyIds)
  {
    ProjectPayload(
      Some(f.title), IdOrNull(f.businessTypeId), IdOrNull(f.categoryId), Some(f.imgPath),
      Val(seq(|f.images|, i requires 0 <= i < |f.images| => ImageInputOf(f.images[i]))),
      Some(f.githubUrl), Some(f.previewUrl), Some(f.technologyIds), Val(f.featured),
      Val(seq(|f.descriptions|, i requires 0 <= i < |f.descriptions| => CleanSection(f.descriptions[i]))))
  }

  /** A `POST` to the collection or a `PUT` to one project. */
  datatype Request = Post(payload: ProjectPayload) | Put(id: int, payload: ProjectPayload)

  function RequestOf(d: Dialog): (r: Request)
    ensures d.editing.Some? <==> r.Put?
    ensures r.Put? ==> r.id == d.editing.value
    ensures r.payload == PayloadOf(d.form)
  {
    match d.editing
    case Some(id) => Put(id, PayloadOf(d.form))
    case None => Post(PayloadOf(d.form))
  }

  /** What pressing save starts: nothing is sent unless the form is valid. */
  datatype SaveStep = Blocked(errors: map<ErrorKey, string>) | Send(request: Request)

  function BeginSave(d: Dialog): (r: SaveStep)
    ensures r.Send? <==> FormValid(d.form)
    ensures r.Blocked? ==> r.errors == ValidationErrors(d.form) && |r.errors| > 0
    ensures r.Send? ==> r.request == RequestOf(d)
  {
    var errors := ValidationErrors(d.form);
    if |errors| == 0 then Send(RequestOf(d)) else Blocked(errors)
  }

  /** The dialog after the server answers: a 2xx answer with the saved
      project closes it; anything else leaves it open with the server's
      error, or a default message, as the only error. `describe` is the
      message of an exception the handler caught. */
  datatype SaveResult = Closed(saved: ProjectView) | StillOpen(dialog: Dialog)

  function ErrorText(b: Body, describe: Cause -> string): string
  {
    match b
    case Message(t) => if t != "" then t else SaveFailed
    case Exception(c) => if describe(c) != "" then describe(c) else SaveFailed
    case _ => SaveFailed
  }

  function FinishSave(d: Dialog, resp: Response, describe: Cause -> string): (r: SaveResult)
    ensures r.Closed? <==> 200 <= resp.status < 300 && resp.body.One?
    ensures r.StillOpen? ==> (r.dialog.form == d.form && r.dialog.editing == d.editing
      && r.dialog.errors.Keys == {SubmitKey} && r.dialog.errors[SubmitKey] != "")
    ensures r.StillOpen? && resp.body.Message? && resp.body.text != "" ==> r.dialog.errors[SubmitKey] == resp.body.text
    ensures r.StillOpen? && resp.body.Exception? && describe(resp.body.cause) != "" ==>
      r.dialog.errors[SubmitKey] == describe(resp.body.cause)
    ensures r.StillOpen? && !resp.body.Exception? && !(resp.body.Message? && resp.body.text != "") ==>
      r.dialog.errors[SubmitKey] == SaveFailed
    ensures r.StillOpen? && resp.body.Exception? && describe(resp.body.cause) == "" ==> r.dialog.errors[SubmitKey] == SaveFailed
  {
    if 200 <= resp.status < 300 && resp.body.One? then Closed(resp.body.project)
    else StillOpen(d.(errors := map[SubmitKey := ErrorText(resp.body, describe)]))
  }

  // ---------------------------------------------------------------------
  // The dialog against the project handlers

  /** The handler a request reaches. */
  function Serve(st: Store, req: Request, now: int): Outcome
  {
    match req
    case Post(p) => CreateProject(st, p, now)
    case Put(id, p) => UpdateProject(st, id, p, now)
  }

  predicate NoCategories(ds: seq<DescriptionInput>)
  {
    forall i :: 0 <= i < |ds| ==> ds[i].category.None?
  }

  /** Create refuses a body whose descriptions carry no category, before
      writing anything; with the scalars present and some description, the
      message is the missing category. */
  lemma CreateRefusesUncategorised(st: Store, p: ProjectPayload, now: int)
    requires p.descriptions.Val? && NoCategories(p.descriptions.v)
    ensures CreateProject(st, p, now).store == st
    ensures CreateProject(st, p, now).response.status == 400
    ensures (Truthy(p.title) && Truthy(p.imgPath) && Truthy(p.githubUrl) && Truthy(p.previewUrl)
      && |p.descriptions.v| > 0) ==> CreateProject(st, p, now).response == Response(400, Message(CategoryRequired))
  {
    var ds := p.descriptions.v;
    if |ds| > 0 {
      assert !DescriptionOk(ds[0]);
      assert FirstFault(ds) == Some(CategoryRequired);
    }
  }

  /** Update refuses the same bodies in its checking phase, so nothing is
      deleted; the clash check comes later and is never reached. */
  lemma UpdateRefusesUncategorised(st: Store, id: int, p: ProjectPayload, now: int)
    requires p.descriptions.Val? && NoCategories(p.descriptions.v)
    ensures UpdateProject(st, id, p, now).store == st
    ensures UpdateProject(st, id, p, now).response.status == 400
    ensures (!PresentButBlank(p.title) && !PresentButBlank(p.imgPath) && !PresentButBlank(p.githubUrl)
      && !PresentButBlank(p.previewUrl) && |p.descriptions.v| > 0) ==>
      UpdateProject(st, id, p, now).response == Response(400, Message(CategoryRequired))
  {
    var ds := p.descriptions.v;
    if |ds| > 0 {
      assert !DescriptionOk(ds[0]);
      assert FirstFault(ds) == Some(CategoryRequired);
    }
    assert !UpdateChecksPass(st, id, p);
  }

  /** The dialog never sends a category with a section, and both handlers
      require one: every request the dialog can send is refused with 400 and
      writes nothing. With at least one section, and a form valid enough to
      be sent, the refusal is the missing-category message. */
  lemma EveryDialogSaveIsRefused(st: Store, d: Dialog, now: int)
    ensures var o := Serve(st, RequestOf(d), now);
      o.store == st && o.response.status == 400
    ensures FormValid(d.form) && HasSections(d.form) ==>
      Serve(st, RequestOf(d), now).response == Response(400, Message(CategoryRequired))
  {
    var f := d.form;
    var p := PayloadOf(f);
    assert NoCategories(p.descriptions.v);
    if FormValid(f) {
      NonBlankIsTruthy(f.title);
      NonBlankIsTruthy(f.imgPath);
      NonBlankIsTruthy(f.githubUrl);
      NonBlankIsTruthy(f.previewUrl);
    }
    match d.editing
    case None => CreateRefusesUncategorised(st, p, now);
    case Some(id) => UpdateRefusesUncategorised(st, id, p, now);
  }

  lemma NonBlankIsTruthy(s: string)
    requires !Blank(s)
    ensures Truthy(Some(s)) && !PresentButBlank(Some(s))
  {
  }

  /** So a valid dialog that presses save ends up still open, showing the
      missing-category message, with the store untouched. */
  lemma ValidSaveEndsWithCategoryError(st: Store, d: Dialog, now: int, describe: Cause -> string)
    requires FormValid(d.form) && HasSections(d.form)
    ensures BeginSave(d) == Send(RequestOf(d))
    ensures Serve(st, RequestOf(d), now).store == st
    ensures FinishSave(d, Serve(st, RequestOf(d), now).response, describe)
      == StillOpen(d.(errors := map[SubmitKey := CategoryRequired]))
  {
    EveryDialogSaveIsRefused(st, d, now);
    RefusalKeepsDialogOpen(d, describe);
  }

  lemma RefusalKeepsDialogOpen(d: Dialog, describe: Cause -> string)
    ensures FinishSave(d, Response(400, Message(CategoryRequired)), describe)
      == StillOpen(d.(errors := map[SubmitKey := CategoryRequired]))
  {
  }
}

=== FILE: projects_view.dfy ===
/** The admin projects grid: the colour of a technology chip, where a
    submitted dialog result goes, the delete confirmation and the footer. */
module ProjectsView {
  import opened Wrappers
  import opened JsText
  import opened ProjectController

  // ---------------------------------------------------------------------
  // Technology chip colours

  datatype ChipColor = ChipColor(bg: string, color: string, border: string)

  const Palette: seq<ChipColor> := [
    ChipColor("#e3f2fd", "#1976d2", "#bbdefb"), ChipColor("#f3e5f5", "#7b1fa2", "#ce93d8"),
    ChipColor("#e8f5e8", "#388e3c", "#a5d6a7"), ChipColor("#fff3e0", "#f57c00", "#ffcc02"),
    ChipColor("#fce4ec", "#c2185b", "#f8bbd9"), ChipColor("#e0f2f1", "#00796b", "#80cbc4"),
    ChipColor("#f1f8e9", "#689f38", "#aed581"), ChipColor("#fff8e1", "#ffa000", "#ffcc02"),
    ChipColor("#e8eaf6", "#3f51b5", "#9fa8da"), ChipColor("#efebe9", "#5d4037", "#a1887f"),
    ChipColor("#fafafa", "#424242", "#bdbdbd"), ChipColor("#e0f7fa", "#00acc1", "#4dd0e1")
  ]

  const TwoTo32: int := 0x1_0000_0000
  const TwoTo31: int := 0x8000_0000

  /** ECMAScript ToInt32 on an integer: reduce modulo 2^32 into the signed
      range. */
  function ToInt32(n: int): (r: int)
    ensures -TwoTo31 <= r < TwoTo31
    ensures (r - n) % TwoTo32 == 0
  {
    var m := n % TwoTo32;
    if m >= TwoTo31 then m - TwoTo32 else m
  }

  /** `hash << 5`: the shift works on the 32-bit value and wraps. */
  function ShiftLeft5(h: int): (r: int)
    ensures -TwoTo31 <= r < TwoTo31
  {
    ToInt32(ToInt32(h) * 32)
  }

  /** One step of the loop: `hash = code + ((hash << 5) - hash)`. Only the
      shift wraps; the subtraction and addition are exact. */
  function HashStep(h: int, c: char): int
  {
    c as int + (ShiftLeft5(h) - h)
  }

  /** The hash of a name, as the characters are folded in from the left. */
  function HashOf(s: string): int
  {
    if |s| == 0 then 0 else HashStep(HashOf(s[..|s| - 1]), s[|s| - 1])
  }

  /** The loop of `getTechnologyColor`, character by character. */
  method TechnologyHash(name: string) returns (hash: int)
    ensures hash == HashOf(name)
    ensures |name| == 0 ==> hash == 0
    ensures |name| > 0 ==> hash == HashStep(HashOf(name[..|name| - 1]), name[|name| - 1])
  {
    hash := 0;
    var i := 0;
    while i < |name|
      invariant 0 <= i <= |name|
      invariant hash == HashOf(name[..i])
    {
      assert name[..i + 1][..i] == name[..i];
      hash := HashStep(hash, name[i]);
      i := i + 1;
    }
    assert name[..i] == name;
  }

  function Abs(n: int): nat
  {
    if n < 0 then -n else n
  }

  /** `Math.abs(hash) % colors.length`. */
  function ColorIndex(name: string): (r: nat)
    ensures r < |Palette|
    ensures r == Abs(HashOf(name)) % 12
  {
    Abs(HashOf(name)) % |Palette|
  }

  /** `getTechnologyColor`: always one of the twelve palette entries, and a
      function of the name alone. */
  function TechnologyColor(name: string): (r: ChipColor)
    ensures r in Palette
    ensures r == Palette[ColorIndex(name)]
  {
    Palette[ColorIndex(name)]
  }

  /** From a zero hash a single character hashes to its own code, so a
      one-letter name picks the palette entry its code selects. */
  lemma SingleCharacterColor(c: char)
    ensures HashOf([c]) == c as int
    ensures TechnologyColor([c]) == Palette[c as int % 12]
  {
    assert [c][..0] == [];
  }

  /** Each character adds at most its code and the shifted value's 2^31 to
      the magnitude of the hash, so the hash grows at most linearly in the
      length of the name. */
  lemma {:induction false} HashBound(s: string)
    ensures Abs(HashOf(s)) <= |s| * (TwoTo31 + 0x11_0000)
  {
    if |s| > 0 {
      HashBound(s[..|s| - 1]);
    }
  }

  const TwoTo53: int := 0x20_0000_0000_0000

  /** A name of up to four million characters keeps the hash, and the
      difference `(hash << 5) - hash` before each addition, below 2^53 in
      magnitude, where JavaScript's doubles hold integers exactly: on such
      names the unbounded integers of this model are the program's numbers. */
  lemma HashExactForRealNames(s: string)
    requires |s| <= 4_000_000
    ensures Abs(HashOf(s)) < TwoTo53
    ensures |s| > 0 ==> Abs(ShiftLeft5(HashOf(s[..|s| - 1])) - HashOf(s[..|s| - 1])) < TwoTo53
  {
    HashBound(s);
    if |s| > 0 {
      HashBound(s[..|s| - 1]);
    }
  }

  // ---------------------------------------------------------------------
  // Submitting from the dialog

  /** What `handleSubmit` does with what the dialog hands it. */
  datatype SubmitAction = RefreshOnly | CallUpdate(id: int) | CallCreate

  /** A result with a truthy `id` is an already saved project and only
      triggers a refresh (reported as a success); anything else is form
      data, sent as an update of the project being edited or as a create. */
  function HandleSubmit(dataId: Option<int>, editing: Option<ProjectView>): (r: SubmitAction)
    ensures r == RefreshOnly <==> TruthyId(dataId)
    ensures r.CallUpdate? <==> !TruthyId(dataId) && editing.Some?
    ensures r.CallUpdate? ==> r.id == editing.value.id
  {
    if TruthyId(dataId) then RefreshOnly
    else if editing.Some? then CallUpdate(editing.value.id)
    else CallCreate
  }

  /** A project the create handler has just returned from a consistent
      store carries a positive id, so handing it over never writes again. */
  lemma CreatedProjectOnlyRefreshes(st: Store, p: ProjectPayload, now: int, editing: Option<ProjectView>)
    requires Valid(st)
    requires CreateProject(st, p, now).response.status == 201
    ensures CreateProject(st, p, now).response.body.One?
    ensures HandleSubmit(Some(CreateProject(st, p, now).response.body.project.id), editing) == RefreshOnly
  {
    var o := CreateProject(st, p, now);
    assert o.response.body == One(View(o.store, st.nextId));
    assert View(o.store, st.nextId).id == st.nextId;
  }

  // ---------------------------------------------------------------------
  // Deleting

  datatype DeleteDialog = DeleteDialog(open: bool, pending: Option<ProjectView>, deleting: bool)

  /** What happened on confirming: whether the delete callback was called,
      and whether the list was refreshed. */
  datatype Confirmed = Confirmed(state: DeleteDialog, called: bool, refreshed: bool)

  /** `handleDeleteConfirm`. Without a pending project nothing happens.
      Otherwise the delete is called; `succeeded` is `result.success` (false
      when the call threw), and the list is refreshed only on success and
      when a refresh callback exists. Either way the dialog closes and
      forgets the project. */
  function HandleDeleteConfirm(s: DeleteDialog, succeeded: bool, canRefresh: bool): (r: Confirmed)
    ensures s.pending.None? ==> r == Confirmed(s, false, false)
    ensures s.pending.Some? ==> r.called && r.state == DeleteDialog(false, None, false)
    ensures r.refreshed <==> s.pending.Some? && succeeded && canRefresh
  {
    if s.pending.None? then Confirmed(s, false, false)
    else Confirmed(DeleteDialog(false, None, false), true, succeeded && canRefresh)
  }

  // ---------------------------------------------------------------------
  // Footer

  const TotalPrefix: string := "Total: "

  function FooterNoun(n: nat): string
  {
    " project" + (if n != 1 then "s" else "")
  }

  /** "Total: n project", with an "s" unless there is exactly one. */
  function FooterLabel(n: nat): (r: string)
    ensures |r| > 0 && (r[|r| - 1] == 's' <==> n != 1)
  {
    TotalPrefix + NatToString(n) + FooterNoun(n)
  }

  /** The count in the footer reads back as the number of projects. */
  lemma FooterCountReadsBack(n: nat)
    ensures FooterLabel(n)[..|TotalPrefix|] == TotalPrefix
    ensures ParseInt(FooterLabel(n)[|TotalPrefix|..]) == Some(n)
  {
    var rest := FooterNoun(n);
    assert rest[0] == ' ';
    assert DigitValue(rest[0], 10).None?;
    assert FooterLabel(n)[|TotalPrefix|..] == NatToString(n) + rest;
    ParseIntOfNatToStringThen(n, rest);
  }
}

=== FILE: reference_dialogs.dfy ===
/** The small dialogs that add or rename a category, technology or business
    type. Each keeps one `name` field and one error text (empty for none),
    checks the trimmed name for blankness and for a duplicate among the
    listed entities, and hands the trimmed name to the hook. */
module ReferenceDialogs {
  import opened Wrappers
  import opened JsText
  import opened ProjectController
  import opened ReferenceHooks

  datatype NameDialog = NameDialog(name: string, error: string, open: bool)

  function Required(k: Kind): string { CapitalNoun(k) + " name is required" }

  const Unexpected: string := "An unexpected error occurred. Please try again."

  /** The effect that runs when the dialog opens or its entity changes: the
      name of the entity being edited, or the empty form; the error is
      cleared either way. */
  function Opened(d: NameDialog, editing: Option<RefEntity>): (r: NameDialog)
    ensures r.error == "" && r.open == d.open
    ensures editing.Some? ==> r.name == editing.value.name
    ensures editing.None? ==> r.name == ""
  {
    NameDialog(if editing.Some? then editing.value.name else "", "", d.open)
  }

  /** Typing replaces the name and clears the error. */
  function HandleChange(d: NameDialog, value: string): (r: NameDialog)
    ensures r.name == value && r.error == "" && r.open == d.open
  {
    d.(name := value, error := "")
  }

  /** `handleClose`: back to the empty form, closed. */
  function HandleClose(d: NameDialog): (r: NameDialog)
    ensures r == NameDialog("", "", false)
  {
    NameDialog("", "", false)
  }

  /** `isValid`, which enables the submit button. */
  predicate IsValid(d: NameDialog)
  {
    !Blank(d.name) && d.error == ""
  }

  /** After typing, the button is enabled exactly when the typed text is not
      blank. */
  lemma TypingDecidesValidity(d: NameDialog, value: string)
    ensures IsValid(HandleChange(d, value)) <==> |Trim(value)| > 0
  {
  }

  // ---------------------------------------------------------------------
  // The dialog's duplicate check

  /** `checkDuplicate`: the input is trimmed and then lower-cased, but the
      stored names are only lower-cased. */
  predicate DialogClashesAt(items: seq<RefEntity>, i: nat, name: string, editing: Option<RefEntity>)
    requires i < |items|
  {
    ToLower(items[i].name) == ToLower(Trim(name)) && (editing.None? || items[i].id != editing.value.id)
  }

  predicate CheckDuplicate(items: seq<RefEntity>, name: string, editing: Option<RefEntity>)
  {
    exists i :: 0 <= i < |items| && DialogClashesAt(items, i, name, editing)
  }

  /** The id the hook leaves out of its scan for the same dialog. */
  function ExcludedId(editing: Option<RefEntity>): (r: Option<int>)
    ensures r.Some? <==> editing.Some?
    ensures r.Some? ==> r.value == editing.value.id
  {
    if editing.Some? then Some(editing.value.id) else None
  }

  /** One entry the dialog finds clashing is one the hook finds clashing. */
  lemma DialogClashIsHookClash(items: seq<RefEntity>, i: nat, name: string, editing: Option<RefEntity>)
    requires i < |items| && DialogClashesAt(items, i, name, editing)
    ensures ClashesAt(items, i, name, ExcludedId(editing))
  {
    var stored := items[i].name;
    TrimLowerCommute(stored);
    TrimLowerCommute(name);
    TrimLowerCommute(Trim(name));
    TrimIdempotent(name);
    assert HookKey(stored) == Trim(ToLower(Trim(name)));
  }

  /** Whatever the stored names look like, a duplicate the dialog reports is
      one the hook would also have refused. */
  lemma DialogDuplicateIsHookDuplicate(items: seq<RefEntity>, name: string, editing: Option<RefEntity>)
    requires CheckDuplicate(items, name, editing)
    ensures HasClash(items, name, ExcludedId(editing))
  {
    var i :| 0 <= i < |items| && DialogClashesAt(items, i, name, editing);
    DialogClashIsHookClash(items, i, name, editing);
  }

  /** The converse fails: a stored name with a leading space passes the
      dialog's check but not the hook's. */
  lemma HookCatchesWhatTheDialogMisses()
    ensures !CheckDuplicate([RefEntity(1, " Web")], "web", None)
    ensures HasClash([RefEntity(1, " Web")], "web", None)
  {
    var items := [RefEntity(1, " Web")];
    WebIsTrimmed();
    assert ToLower("web") == "web" by {
      assert LowerChar('w') == 'w' && LowerChar('e') == 'e' && LowerChar('b') == 'b';
    }
    assert ToLower(" Web") == " web" by {
      assert LowerChar(' ') == ' ' && LowerChar('W') == 'w';
      assert LowerChar('e') == 'e' && LowerChar('b') == 'b';
    }
    assert |ToLower(items[0].name)| != |ToLower(Trim("web"))|;
    assert !DialogClashesAt(items, 0, "web", None);
    assert TrimStart(" web") == TrimStart("web") by {
      assert IsSpace(' ');
      assert " web"[1..] == "web";
    }
    assert HookKey(" Web") == HookKey("web");
    assert ClashesAt(items, 0, "web", None);
  }

  /** "web" has no white space to trim. */
  lemma WebIsTrimmed()
    ensures TrimStart("web") == "web" && TrimEnd("web") == "web" && Trim("web") == "web"
  {
    assert !IsSpace('w') && !IsSpace('b');
  }

  /** When every stored name is already trimmed the two checks agree. */
  lemma ChecksAgreeOnTrimmedNames(items: seq<RefEntity>, name: string, editing: Option<RefEntity>)
    requires forall i :: 0 <= i < |items| ==> Trim(items[i].name) == items[i].name
    ensures CheckDuplicate(items, name, editing) <==> HasClash(items, name, ExcludedId(editing))
  {
    if CheckDuplicate(items, name, editing) {
      DialogDuplicateIsHookDuplicate(items, name, editing);
    }
    if HasClash(items, name, ExcludedId(editing)) {
      var i :| 0 <= i < |items| && ClashesAt(items, i, name, ExcludedId(editing));
      var stored := items[i].name;
      TrimLowerCommute(stored);
      TrimLowerCommute(name);
      assert DialogClashesAt(items, i, name, editing);
    }
  }

  // ---------------------------------------------------------------------
  // Submitting

  /** What `handleSubmit` does before awaiting: either it stops with an
      error, or it clears the error and hands over the trimmed name. */
  datatype SubmitStep = Stopped(dialog: NameDialog) | Handed(dialog: NameDialog, name: string)

  function BeginSubmit(k: Kind, d: NameDialog, items: seq<RefEntity>, editing: Option<RefEntity>): (r: SubmitStep)
    ensures r.Handed? <==> !Blank(d.name) && !CheckDuplicate(items, Trim(d.name), editing)
    ensures Blank(d.name) ==> r == Stopped(d.(error := Required(k)))
    ensures !Blank(d.name) && CheckDuplicate(items, Trim(d.name), editing) ==> r == Stopped(d.(error := DuplicateMessage(k)))
    ensures r.Handed? ==> r.name == Trim(d.name) && r.dialog == d.(error := "")
    ensures r.Handed? ==> |r.name| > 0
  {
    var trimmed := Trim(d.name);
    if trimmed == "" then Stopped(d.(error := Required(k)))
    else if CheckDuplicate(items, trimmed, editing) then Stopped(d.(error := DuplicateMessage(k)))
    else Handed(d.(error := ""), trimmed)
  }

  /** `handleSubmit` checks the already trimmed name, which `checkDuplicate`
      trims again; the second trim changes nothing. */
  lemma DuplicateOfTrimmed(items: seq<RefEntity>, name: string, editing: Option<RefEntity>)
    ensures CheckDuplicate(items, Trim(name), editing) <==> CheckDuplicate(items, name, editing)
  {
    TrimIdempotent(name);
    forall i | 0 <= i < |items|
      ensures DialogClashesAt(items, i, Trim(name), editing) == DialogClashesAt(items, i, name, editing)
    {
    }
  }

  /** What the awaited call produced: the hook's result, or an exception. */
  datatype Answer = Answered(result: HookResult) | AnswerThrew

  /** After the await: success resets and closes; a reported error is shown
      and the dialog stays open; a thrown exception shows a fixed text; a
      failure without an error text leaves the dialog as it was. */
  function FinishSubmit(d: NameDialog, answer: Answer): (r: NameDialog)
    ensures answer.Answered? && answer.result.Succeeded? ==> r == NameDialog("", "", false)
    ensures answer.Answered? && answer.result.Failed? && Truthy(answer.result.error) ==>
      r == d.(error := answer.result.error.value)
    ensures answer.Answered? && answer.result.Failed? && !Truthy(answer.result.error) ==> r == d
    ensures answer.AnswerThrew? ==> r == d.(error := Unexpected)
    ensures r.open ==> r.name == d.name
  {
    match answer
    case AnswerThrew => d.(error := Unexpected)
    case Answered(Succeeded(_)) => NameDialog("", "", false)
    case Answered(Failed(e)) => if Truthy(e) then d.(error := e.value) else d
  }

  /** The view's `handleSubmit`: an update of the entity being edited, or a
      create. */
  function Dispatch(k: Kind, items: seq<RefEntity>, editing: Option<RefEntity>, name: string, reply: Reply, refetch: Refetch): (r: HookStep)
    ensures editing.Some? ==> r == Update(k, items, editing.value.id, name, reply, refetch)
    ensures editing.None? ==> r == Create(k, items, name, reply, refetch)
  {
    if editing.Some? then Update(k, items, editing.value.id, name, reply, refetch)
    else Create(k, items, name, reply, refetch)
  }

  /** A whole submit of the dialog against the hook that holds the same
      list: the dialog after it, and what the hook did. */
  datatype Round = Round(dialog: NameDialog, hook: HookStep)

  function Submit(k: Kind, d: NameDialog, items: seq<RefEntity>, editing: Option<RefEntity>, reply: Reply, refetch: Refetch): (r: Round)
    ensures r.hook.sent ==> !Blank(d.name) && !CheckDuplicate(items, Trim(d.name), editing)
    ensures !r.hook.sent ==> r.hook.items == items
  {
    match BeginSubmit(k, d, items, editing)
    case Stopped(stopped) => Round(stopped, HookStep(items, Failed(None), false))
    case Handed(cleared, name) =>
      var step := Dispatch(k, items, editing, name, reply, refetch);
      Round(FinishSubmit(cleared, Answered(step.result)), step)
  }

  /** A submit closes the dialog exactly when the hook sent the write and
      the server accepted it; every name that reaches the server is trimmed
      and unique in the hook's sense. */
  lemma SubmitClosesOnlyOnSuccess(k: Kind, d: NameDialog, items: seq<RefEntity>, editing: Option<RefEntity>, reply: Reply, refetch: Refetch)
    requires d.open
    ensures var r := Submit(k, d, items, editing, reply, refetch);
      !r.dialog.open <==> r.hook.result.Succeeded?
    ensures var r := Submit(k, d, items, editing, reply, refetch);
      r.hook.result.Succeeded? ==> reply.Ok? && !HasClash(items, Trim(d.name), ExcludedId(editing))
  {
    var b := BeginSubmit(k, d, items, editing);
    if b.Handed? {
      var step := Dispatch(k, items, editing, b.name, reply, refetch);
      assert Submit(k, d, items, editing, reply, refetch) == Round(FinishSubmit(b.dialog, Answered(step.result)), step);
      assert b.dialog.open;
    } else {
      assert Submit(k, d, items, editing, reply, refetch).dialog == b.dialog;
    }
  }

  /** A name that passes the dialog but that the hook refuses (a stored name
      with stray white space) comes back as the hook's duplicate message,
      which reads the same as the dialog's own, and nothing is sent. */
  lemma HookRefusalShowsInDialog(k: Kind, d: NameDialog, items: seq<RefEntity>, editing: Option<RefEntity>, reply: Reply, refetch: Refetch)
    requires !Blank(d.name) && !CheckDuplicate(items, Trim(d.name), editing)
    requires HasClash(items, Trim(d.name), ExcludedId(editing))
    ensures var r := Submit(k, d, items, editing, reply, refetch);
      !r.hook.sent && r.dialog == d.(error := DuplicateMessage(k))
  {
  }
}

=== FILE: reference_hooks.dfy ===
/** The admin hooks that keep the category, technology and business-type
    lists: a client-side duplicate check before a create or an update, a
    confirmation before a delete, and a refetch after every successful
    write. The three hooks differ only in their nouns, so one model serves
    all three, parameterised by the kind of entity. */
module ReferenceHooks {
  import opened Wrappers
  import opened JsText
  import opened ProjectController

  datatype Kind = CategoryKind | TechnologyKind | BusinessTypeKind

  /** The noun in the messages, in lower case. */
  function Noun(k: Kind): string
  {
    match k
    case CategoryKind => "category"
    case TechnologyKind => "technology"
    case BusinessTypeKind => "business type"
  }

  /** The noun at the start of a sentence. */
  function CapitalNoun(k: Kind): string
  {
    match k
    case CategoryKind => "Category"
    case TechnologyKind => "Technology"
    case BusinessTypeKind => "Business type"
  }

  function DuplicateMessage(k: Kind): string { "A " + Noun(k) + " with this name already exists" }
  function SaveFailed(k: Kind): string { "Failed to save " + Noun(k) }
  function DeleteFailed(k: Kind): string { "Failed to delete " + Noun(k) }
  function Added(k: Kind): string { CapitalNoun(k) + " added successfully" }
  function Updated(k: Kind): string { CapitalNoun(k) + " updated successfully" }
  function Deleted(k: Kind): string { CapitalNoun(k) + " deleted successfully" }

  // ---------------------------------------------------------------------
  // The duplicate check

  /** The hook's comparison key: `name.toLowerCase().trim()`, applied to both
      the stored name and the new one. */
  function HookKey(name: string): string
  {
    Trim(ToLower(name))
  }

  /** Whether the entity at `i` clashes with `name`; `exclude` is the id of
      the entity being updated, which never clashes with itself. */
  predicate ClashesAt(items: seq<RefEntity>, i: nat, name: string, exclude: Option<int>)
    requires i < |items|
  {
    HookKey(items[i].name) == HookKey(name) && (exclude.None? || items[i].id != exclude.value)
  }

  predicate HasClash(items: seq<RefEntity>, name: string, exclude: Option<int>)
  {
    exists i :: 0 <= i < |items| && ClashesAt(items, i, name, exclude)
  }

  /** `items.find(...)` from position `from` on: the first clashing entry. */
  function FindClash(items: seq<RefEntity>, name: string, exclude: Option<int>, from: nat): (r: Option<nat>)
    requires from <= |items|
    ensures r.Some? ==> from <= r.value < |items| && ClashesAt(items, r.value, name, exclude)
    ensures r.Some? ==> forall j :: from <= j < r.value ==> !ClashesAt(items, j, name, exclude)
    ensures r.None? ==> forall j :: from <= j < |items| ==> !ClashesAt(items, j, name, exclude)
    decreases |items| - from
  {
    if from == |items| then None
    else if ClashesAt(items, from, name, exclude) then Some(from)
    else FindClash(items, name, exclude, from + 1)
  }

  /** The scan finds something exactly when some entry clashes. */
  lemma FindClashIffHasClash(items: seq<RefEntity>, name: string, exclude: Option<int>)
    ensures FindClash(items, name, exclude, 0).Some? <==> HasClash(items, name, exclude)
  {
    var r := FindClash(items, name, exclude, 0);
    if r.Some? {
      assert ClashesAt(items, r.value, name, exclude);
    }
  }

  /** With the hook's key, letter case and surrounding white space on either
      side never matter. */
  lemma HookKeyIgnoresCaseAndSpace(name: string)
    ensures HookKey(Trim(name)) == HookKey(name)
    ensures HookKey(ToLower(name)) == HookKey(name)
  {
    TrimLowerCommute(name);
    TrimLowerCommute(Trim(name));
    TrimIdempotent(name);
    ToLowerIdempotent(name);
  }

  /** The update check excludes only the entity being updated: with an id
      that names no listed entity it is the create check. */
  lemma UpdateCheckWithUnknownIdIsCreateCheck(items: seq<RefEntity>, name: string, id: int)
    requires forall i :: 0 <= i < |items| ==> items[i].id != id
    ensures HasClash(items, name, Some(id)) <==> HasClash(items, name, None)
  {
    if HasClash(items, name, None) {
      var i :| 0 <= i < |items| && ClashesAt(items, i, name, None);
      assert items[i].id != id;
      assert ClashesAt(items, i, name, Some(id));
    }
    if HasClash(items, name, Some(id)) {
      var i :| 0 <= i < |items| && ClashesAt(items, i, name, Some(id));
      assert ClashesAt(items, i, name, None);
    }
  }

  /** Keeping an entity's own name is never a duplicate when no other
      entity has that name. */
  lemma KeepingOwnNameIsNoClash(items: seq<RefEntity>, k: nat)
    requires k < |items|
    requires forall i :: 0 <= i < |items| && i != k ==> HookKey(items[i].name) != HookKey(items[k].name)
    requires forall i :: 0 <= i < |items| && i != k ==> items[i].id != items[k].id
    ensures !HasClash(items, items[k].name, Some(items[k].id))
    ensures HasClash(items, items[k].name, None)
  {
    assert ClashesAt(items, k, items[k].name, None);
  }

  // ---------------------------------------------------------------------
  // The requests

  /** How a write request ended: an ok status, a status that is not ok
      with the `error` field of its body (absent or empty counts as
      missing), or an exception from `fetch` itself. */
  datatype Reply = Ok | NotOk(errorField: Option<string>) | Threw(message: string)

  /** How the refetch after a successful write ended: the array the list
      endpoint answered with, or an exception (from `fetch` or from a body
      that is not JSON), which the fetch helper catches, leaving the list as
      it was. The helper does not look at the status, so a JSON body that is
      not an array would replace the list; this datatype has no case for it. */
  datatype Refetch = Refetched(items: seq<RefEntity>) | RefetchFailed

  function AfterRefetch(items: seq<RefEntity>, f: Refetch): seq<RefEntity>
  {
    match f
    case Refetched(latest) => latest
    case RefetchFailed => items
  }

  /** What a hook call returns: `{success: true, message}` or
      `{success: false, error}`, where a declined delete has no error. */
  datatype HookResult = Succeeded(message: string) | Failed(error: Option<string>)

  /** The hook's list after a call, what it returned, and whether a write
      request went out. */
  datatype HookStep = HookStep(items: seq<RefEntity>, result: HookResult, sent: bool)

  /** The error a failed write reports: the body's error or the fallback
      for a status that is not ok, the exception's message otherwise. */
  function WriteError(fallback: string, reply: Reply): (r: string)
    requires !reply.Ok?
    ensures reply.NotOk? && Truthy(reply.errorField) ==> r == reply.errorField.value
    ensures reply.NotOk? && !Truthy(reply.errorField) ==> r == fallback
    ensures reply.Threw? ==> r == reply.message
  {
    match reply
    case NotOk(field) => OrElse(field, fallback)
    case Threw(message) => message
  }

  /** A write once the duplicate check has passed: on an ok reply the list
      is refetched and only then is success reported; otherwise the list
      stays and the error is reported. */
  function Write(k: Kind, items: seq<RefEntity>, success: string, reply: Reply, refetch: Refetch): (r: HookStep)
    ensures r.sent
    ensures r.result.Succeeded? <==> reply.Ok?
    ensures reply.Ok? ==> r.items == AfterRefetch(items, refetch) && r.result == Succeeded(success)
    ensures !reply.Ok? ==> r.items == items && r.result == Failed(Some(WriteError(SaveFailed(k), reply)))
  {
    if reply.Ok? then HookStep(AfterRefetch(items, refetch), Succeeded(success), true)
    else HookStep(items, Failed(Some(WriteError(SaveFailed(k), reply))), true)
  }

  /** `createX(data)`. A name that clashes with any listed entity is refused
      before anything is sent. */
  function Create(k: Kind, items: seq<RefEntity>, name: string, reply: Reply, refetch: Refetch): (r: HookStep)
    ensures r.sent <==> !HasClash(items, name, None)
    ensures !r.sent ==> r.items == items && r.result == Failed(Some(DuplicateMessage(k)))
    ensures r.result.Succeeded? <==> !HasClash(items, name, None) && reply.Ok?
    ensures r.result.Succeeded? ==> r.items == AfterRefetch(items, refetch) && r.result.message == Added(k)
    ensures r.result.Failed? ==> r.items == items && r.result.error.Some?
  {
    FindClashIffHasClash(items, name, None);
    if FindClash(items, name, None, 0).Some? then HookStep(items, Failed(Some(DuplicateMessage(k))), false)
    else Write(k, items, Added(k), reply, refetch)
  }

  /** `updateX(id, data)`. As create, except that the entity being updated
      is left out of the duplicate scan. */
  function Update(k: Kind, items: seq<RefEntity>, id: int, name: string, reply: Reply, refetch: Refetch): (r: HookStep)
    ensures r.sent <==> !HasClash(items, name, Some(id))
    ensures !r.sent ==> r.items == items && r.result == Failed(Some(DuplicateMessage(k)))
    ensures r.result.Succeeded? <==> !HasClash(items, name, Some(id)) && reply.Ok?
    ensures r.result.Succeeded? ==> r.items == AfterRefetch(items, refetch) && r.result.message == Updated(k)
    ensures r.result.Failed? ==> r.items == items && r.result.error.Some?
  {
    FindClashIffHasClash(items, name, Some(id));
    if FindClash(items, name, Some(id), 0).Some? then HookStep(items, Failed(Some(DuplicateMessage(k))), false)
    else Write(k, items, Updated(k), reply, refetch)
  }

  /** How a delete request ended: ok, a status that is not ok (its body is
      not read), or an exception from `fetch`. */
  datatype DeleteReply = DeleteOk | DeleteNotOk | DeleteThrew(message: string)

  /** `deleteX(id)`. When the confirmation is declined nothing is sent and
      the result carries no error. */
  function Delete(k: Kind, items: seq<RefEntity>, confirmed: bool, reply: DeleteReply, refetch: Refetch): (r: HookStep)
    ensures r.sent <==> confirmed
    ensures !confirmed ==> r == HookStep(items, Failed(None), false)
    ensures r.result.Succeeded? <==> confirmed && reply.DeleteOk?
    ensures r.result.Succeeded? ==> r.items == AfterRefetch(items, refetch) && r.result.message == Deleted(k)
    ensures confirmed && reply.DeleteNotOk? ==> r.items == items && r.result == Failed(Some(DeleteFailed(k)))
    ensures confirmed && reply.DeleteThrew? ==> r.items == items && r.result == Failed(Some(reply.message))
  {
    if !confirmed then HookStep(items, Failed(None), false)
    else match reply
      case DeleteOk => HookStep(AfterRefetch(items, refetch), Succeeded(Deleted(k)), true)
      case DeleteNotOk => HookStep(items, Failed(Some(DeleteFailed(k))), true)
      case DeleteThrew(message) => HookStep(items, Failed(Some(message)), true)
  }

  /** Every failure of a write reports a non-empty error, provided an
      exception's message is non-empty; only a declined delete fails
      without one. */
  lemma FailedWritesExplainThemselves(k: Kind, items: seq<RefEntity>, id: int, name: string, reply: Reply, refetch: Refetch)
    requires reply.Threw? ==> reply.message != ""
    ensures Create(k, items, name, reply, refetch).result.Failed? ==> Create(k, items, name, reply, refetch).result.error.value != ""
    ensures Update(k, items, id, name, reply, refetch).result.Failed? ==> Update(k, items, id, name, reply, refetch).result.error.value != ""
  {
    assert |DuplicateMessage(k)| > 0;
    if !reply.Ok? {
      WriteErrorNonEmpty(k, reply);
    }
    var c := Create(k, items, name, reply, refetch);
    if c.result.Failed? && c.sent {
      assert c.result == Write(k, items, Added(k), reply, refetch).result;
    }
    var u := Update(k, items, id, name, reply, refetch);
    if u.result.Failed? && u.sent {
      assert u.result == Write(k, items, Updated(k), reply, refetch).result;
    }
  }

  lemma WriteErrorNonEmpty(k: Kind, reply: Reply)
    requires !reply.Ok? && (reply.Threw? ==> reply.message != "")
    ensures WriteError(SaveFailed(k), reply) != ""
  {
    assert |SaveFailed(k)| > 0;
  }

  /** Whatever the server says, a list the hook refuses as a duplicate is
      never written and never changes. */
  lemma DuplicatesNeverReachTheServer(k: Kind, items: seq<RefEntity>, name: string, i: nat, reply: Reply, refetch: Refetch)
    requires i < |items| && HookKey(items[i].name) == HookKey(name)
    ensures !Create(k, items, name, reply, refetch).sent
    ensures Create(k, items, name, reply, refetch).items == items
  {
    assert ClashesAt(items, i, name, None);
  }
}

=== FILE: seqs.dfy ===
/** Sequence operations the handlers and components share: `Array#filter`,
    `Array#slice` with JavaScript's index clamping, fixed-size chunking,
    flattening, and a sort by an integer key. */
module Seqs {

  // ---------------------------------------------------------------------
  // Filtering

  /** `s.filter(keep)`. */
  function Filter<T>(s: seq<T>, keep: T -> bool): (r: seq<T>)
    ensures |r| <= |s|
    ensures forall x :: x in r ==> x in s && keep(x)
    ensures forall i :: 0 <= i < |r| ==> keep(r[i])
    ensures forall x :: x in s && keep(x) ==> x in r
  {
    if |s| == 0 then []
    else if keep(s[0]) then [s[0]] + Filter(s[1..], keep)
    else Filter(s[1..], keep)
  }

  /** Filtering works piece by piece, so it keeps relative order. */
  lemma {:induction false} FilterConcat<T>(a: seq<T>, b: seq<T>, keep: T -> bool)
    ensures Filter(a + b, keep) == Filter(a, keep) + Filter(b, keep)
  {
    if |a| > 0 {
      FilterConcat(a[1..], b, keep);
      assert a == [a[0]] + a[1..];
      ConcatAssoc([a[0]], a[1..], b);
      FilterCons(a[0], a[1..], keep);
      FilterCons(a[0], a[1..] + b, keep);
      ConcatAssoc(if keep(a[0]) then [a[0]] else [], Filter(a[1..], keep), Filter(b, keep));
    } else {
      assert a + b == b;
    }
  }

  lemma ConcatAssoc<T>(x: seq<T>, y: seq<T>, z: seq<T>)
    ensures x + (y + z) == (x + y) + z
  {
  }

  /** Filtering a list with a first element decides that element alone. */
  lemma FilterCons<T>(x: T, s: seq<T>, keep: T -> bool)
    ensures Filter([x] + s, keep) == (if keep(x) then [x] else []) + Filter(s, keep)
  {
    assert ([x] + s)[0] == x && ([x] + s)[1..] == s;
  }

  /** Filtering one more element at the end. */
  lemma FilterSnoc<T>(a: seq<T>, x: T, keep: T -> bool)
    ensures Filter(a + [x], keep) == Filter(a, keep) + (if keep(x) then [x] else [])
  {
    FilterConcat(a, [x], keep);
  }

  /** An element the filter drops leaves no trace, wherever it stands. */
  lemma FilterSkipsDropped<T>(a: seq<T>, x: T, b: seq<T>, keep: T -> bool)
    requires !keep(x)
    ensures Filter(a + [x] + b, keep) == Filter(a + b, keep)
  {
    FilterConcat(a + [x], b, keep);
    FilterSnoc(a, x, keep);
    FilterConcat(a, b, keep);
  }

  /** A filter that keeps everything is the identity. */
  lemma {:induction false} FilterKeepsAll<T>(s: seq<T>, keep: T -> bool)
    requires forall i :: 0 <= i < |s| ==> keep(s[i])
    ensures Filter(s, keep) == s
  {
    if |s| > 0 {
      FilterKeepsAll(s[1..], keep);
    }
  }

  /** Filtering depends only on which elements the test keeps. */
  lemma {:induction false} FilterExt<T>(s: seq<T>, p: T -> bool, q: T -> bool)
    requires forall x :: p(x) == q(x)
    ensures Filter(s, p) == Filter(s, q)
  {
    if |s| > 0 {
      FilterExt(s[1..], p, q);
    }
  }

  /** A filter applied only when `active` is a filter by the test that
      lets everything through when inactive. */
  lemma FilterWhen<T>(s: seq<T>, active: bool, p: T -> bool, gated: T -> bool)
    requires forall x :: gated(x) == (!active || p(x))
    ensures (if active then Filter(s, p) else s) == Filter(s, gated)
  {
    if active {
      FilterExt(s, p, gated);
    } else {
      FilterKeepsAll(s, gated);
    }
  }

  /** Two filters one after the other are one filter by the conjunction. */
  lemma {:induction false} FilterFilter<T>(s: seq<T>, p: T -> bool, q: T -> bool, both: T -> bool)
    requires forall x :: both(x) == (p(x) && q(x))
    ensures Filter(Filter(s, p), q) == Filter(s, both)
  {
    if |s| > 0 {
      FilterFilter(s[1..], p, q, both);
    }
  }

  // ---------------------------------------------------------------------
  // Slicing

  function Min(a: int, b: int): int { if a <= b then a else b }
  function Max(a: int, b: int): int { if a <= b then b else a }

  /** How `Array#slice` turns a relative index into a position. */
  function SliceIndex(k: int, len: nat): (r: nat)
    ensures r <= len
  {
    if k < 0 then Max(len + k, 0) else Min(k, len)
  }

  /** `s.slice(start, end)`: negative indices count from the end, indices
      are clamped to the sequence, and an inverted range is empty. */
  function Slice<T>(s: seq<T>, start: int, end: int): (r: seq<T>)
    ensures 0 <= start <= end <= |s| ==> r == s[start..end]
    ensures 0 <= start && |s| <= start ==> r == []
    ensures 0 <= start <= |s| <= end ==> r == s[start..]
  {
    var from := SliceIndex(start, |s|);
    var to := SliceIndex(end, |s|);
    if to <= from then [] else s[from..to]
  }

  // ---------------------------------------------------------------------
  // Chunking

  /** Consecutive pieces of `n` elements, the last one possibly shorter. */
  function Chunks<T>(s: seq<T>, n: nat): (r: seq<seq<T>>)
    requires n > 0
    decreases |s|
  {
    if |s| == 0 then []
    else if |s| <= n then [s]
    else [s[..n]] + Chunks(s[n..], n)
  }

  /** There are ceil(|s| / n) chunks: enough to hold every element, and
      one fewer would not be. */
  lemma {:induction false} ChunkCount<T>(s: seq<T>, n: nat)
    requires n > 0
    ensures |Chunks(s, n)| * n >= |s|
    ensures |s| > 0 ==> (|Chunks(s, n)| - 1) * n < |s|
    ensures |s| == 0 <==> |Chunks(s, n)| == 0
    decreases |s|
  {
    if |s| > n {
      ChunkCount(s[n..], n);
      var c := |Chunks(s[n..], n)|;
      assert |Chunks(s, n)| == c + 1;
      assert (c + 1) * n == c * n + n;
    }
  }

  function Flatten<T>(ss: seq<seq<T>>): seq<T>
  {
    if |ss| == 0 then [] else ss[0] + Flatten(ss[1..])
  }

  lemma {:induction false} FlattenConcat<T>(a: seq<seq<T>>, b: seq<seq<T>>)
    ensures Flatten(a + b) == Flatten(a) + Flatten(b)
  {
    if |a| > 0 {
      FlattenConcat(a[1..], b);
      assert (a + b)[1..] == a[1..] + b;
    } else {
      assert a + b == b;
    }
  }

  /** Chunking loses nothing and reorders nothing. */
  lemma {:induction false} FlattenChunks<T>(s: seq<T>, n: nat)
    requires n > 0
    ensures Flatten(Chunks(s, n)) == s
    decreases |s|
  {
    if |s| > n {
      FlattenChunks(s[n..], n);
      assert s[..n] + s[n..] == s;
    } else if |s| > 0 {
      assert Flatten(Chunks(s, n)) == s + Flatten([]);
    }
  }

  /** Every chunk has between 1 and `n` elements, and only the last may
      have fewer than `n`. */
  lemma {:induction false} ChunkSizes<T>(s: seq<T>, n: nat)
    requires n > 0
    ensures forall k :: 0 <= k < |Chunks(s, n)| ==> 1 <= |Chunks(s, n)[k]| <= n
    ensures forall k :: 0 <= k < |Chunks(s, n)| - 1 ==> |Chunks(s, n)[k]| == n
    decreases |s|
  {
    if |s| > n {
      ChunkSizes(s[n..], n);
      var r := Chunks(s, n);
      assert forall k :: 1 <= k < |r| ==> r[k] == Chunks(s[n..], n)[k - 1];
    }
  }

  /** Chunk `k` is the slice starting at `k * n`. */
  lemma {:induction false} ChunkIsSlice<T>(s: seq<T>, n: nat, k: nat)
    requires n > 0 && k < |Chunks(s, n)|
    ensures k * n < |s|
    ensures Chunks(s, n)[k] == s[k * n..Min(k * n + n, |s|)]
    decreases |s|
  {
    if k > 0 {
      var t := s[n..];
      ChunkIsSlice(t, n, k - 1);
      var m := (k - 1) * n;
      assert m + n == k * n;
      assert Chunks(s, n)[k] == Chunks(t, n)[k - 1];
      assert t[m..Min(m + n, |t|)] == s[n + m..n + Min(m + n, |t|)];
    }
  }

  // ---------------------------------------------------------------------
  // Mapping

  /** `s.map(f)`. */
  function Map<A, B>(s: seq<A>, f: A -> B): (r: seq<B>)
    ensures |r| == |s| && forall i :: 0 <= i < |s| ==> r[i] == f(s[i])
  {
    seq(|s|, i requires 0 <= i < |s| => f(s[i]))
  }

  lemma MapConcat<A, B>(a: seq<A>, b: seq<A>, f: A -> B)
    ensures Map(a + b, f) == Map(a, f) + Map(b, f)
  {
  }

  /** Two multisets that agree after adding the same element agree. */
  lemma CancelOne<T>(m: multiset<T>, n: multiset<T>, x: T)
    requires m + multiset{x} == n + multiset{x}
    ensures m == n
  {
    forall y ensures m[y] == n[y] {
      assert (m + multiset{x})[y] == (n + multiset{x})[y];
    }
  }

  /** Mapping a list with one element singled out maps the two sides and
      the element. */
  lemma MapAround<A, B>(s: seq<A>, k: nat, f: A -> B)
    requires k < |s|
    ensures Map(s, f) == Map(s[..k], f) + [f(s[k])] + Map(s[k + 1..], f)
  {
  }

  /** Taking one element out of a list takes it out of the list's multiset. */
  lemma SpliceMultiset<T>(p: seq<T>, x: T, q: seq<T>)
    ensures multiset(p + [x] + q) == multiset(p + q) + multiset{x}
  {
  }

  /** Taking one element out of a list takes its image out of the mapped
      list. */
  lemma MapSpliceOut<A, B>(s: seq<A>, k: nat, f: A -> B)
    requires k < |s|
    ensures multiset(Map(s, f)) == multiset(Map(s[..k] + s[k + 1..], f)) + multiset{f(s[k])}
  {
    MapAround(s, k, f);
    MapConcat(s[..k], s[k + 1..], f);
    SpliceMultiset(Map(s[..k], f), f(s[k]), Map(s[k + 1..], f));
  }

  /** The tails after a matching first element are permutations too. */
  lemma PermutationTail<T>(a: seq<T>, b: seq<T>, k: nat)
    requires |a| > 0 && k < |b| && b[k] == a[0] && multiset(a) == multiset(b)
    ensures multiset(a[1..]) == multiset(b[..k] + b[k + 1..])
  {
    assert b == b[..k] + [b[k]] + b[k + 1..];
    SpliceMultiset(b[..k], b[k], b[k + 1..]);
    assert a == [a[0]] + a[1..];
    CancelOne(multiset(a[1..]), multiset(b[..k] + b[k + 1..]), a[0]);
  }

  /** Mapping a list that starts with `x` starts with `f(x)`. */
  lemma MapCons<A, B>(a: seq<A>, f: A -> B)
    requires |a| > 0
    ensures multiset(Map(a, f)) == multiset(Map(a[1..], f)) + multiset{f(a[0])}
  {
    assert Map(a, f) == [f(a[0])] + Map(a[1..], f);
  }

  /** Mapping commutes with reordering. */
  lemma {:induction false} MapPermutes<A, B>(a: seq<A>, b: seq<A>, f: A -> B)
    requires multiset(a) == multiset(b)
    ensures multiset(Map(a, f)) == multiset(Map(b, f))
    decreases |a|
  {
    if |a| == 0 {
      assert |b| == |multiset(b)| == 0;
    } else {
      assert a[0] in multiset(b);
      var k :| 0 <= k < |b| && b[k] == a[0];
      PermutationTail(a, b, k);
      MapPermutes(a[1..], b[..k] + b[k + 1..], f);
      MapSpliceOut(b, k, f);
      MapCons(a, f);
    }
  }

  // ---------------------------------------------------------------------
  // Lists without repetition

  ghost predicate NoDup<T>(s: seq<T>)
  {
    forall i, j :: 0 <= i < j < |s| ==> s[i] != s[j]
  }

  /** A list is free of repetition exactly when its head is not in its
      tail and its tail is free of repetition. */
  lemma NoDupCons<T>(s: seq<T>)
    requires |s| > 0
    ensures NoDup(s) <==> NoDup(s[1..]) && s[0] !in s[1..]
  {
    var t := s[1..];
    if NoDup(s) {
      forall i, j | 0 <= i < j < |t| ensures t[i] != t[j] {
        assert t[i] == s[i + 1] && t[j] == s[j + 1];
      }
      forall k | 0 <= k < |t| ensures t[k] != s[0] {
        assert t[k] == s[k + 1];
      }
    }
    if NoDup(t) && s[0] !in t {
      forall i, j | 0 <= i < j < |s| ensures s[i] != s[j] {
        assert s[j] == t[j - 1];
        if i > 0 {
          assert s[i] == t[i - 1];
        }
      }
    }
  }

  /** No repetition means every element is counted at most once. */
  lemma {:induction false} NoDupCounts<T>(s: seq<T>)
    ensures NoDup(s) <==> forall x :: multiset(s)[x] <= 1
    decreases |s|
  {
    if |s| > 0 {
      var t := s[1..];
      NoDupCounts(t);
      NoDupCons(s);
      assert s == [s[0]] + t;
      assert multiset(s) == multiset{s[0]} + multiset(t);
      if NoDup(s) {
        forall x ensures multiset(s)[x] <= 1 {
          assert multiset(s)[x] == multiset(t)[x] + (if x == s[0] then 1 else 0);
        }
      }
      if forall x :: multiset(s)[x] <= 1 {
        forall x ensures multiset(t)[x] <= 1 {
          assert multiset(s)[x] == multiset(t)[x] + (if x == s[0] then 1 else 0);
        }
        assert multiset(s)[s[0]] == multiset(t)[s[0]] + 1 && multiset(s)[s[0]] <= 1;
      }
    }
  }

  /** Reordering keeps a list free of repetition. */
  lemma NoDupPermutes<T>(a: seq<T>, b: seq<T>)
    requires multiset(a) == multiset(b) && NoDup(a)
    ensures NoDup(b)
  {
    NoDupCounts(a);
    NoDupCounts(b);
  }

  // ---------------------------------------------------------------------
  // Sorting by an integer key

  ghost predicate SortedBy<T>(s: seq<T>, key: T -> int)
  {
    forall i, j :: 0 <= i < j < |s| ==> key(s[i]) <= key(s[j])
  }

  /** Inserts `x` before the first element whose key is not smaller. */
  function Insert<T>(x: T, s: seq<T>, key: T -> int): (r: seq<T>)
    requires SortedBy(s, key)
    ensures SortedBy(r, key)
    ensures multiset(r) == multiset(s) + multiset{x}
    ensures |r| == |s| + 1
  {
    if |s| == 0 then [x]
    else if key(x) <= key(s[0]) then [x] + s
    else
      var rest := Insert(x, s[1..], key);
      InsertBehindHead(x, s, key, rest);
      [s[0]] + rest
  }

  /** The recursive case of `Insert`: the head stays in front of the list
      with `x` inserted into the tail. */
  lemma InsertBehindHead<T>(x: T, s: seq<T>, key: T -> int, rest: seq<T>)
    requires |s| > 0 && SortedBy(s, key) && key(s[0]) < key(x)
    requires SortedBy(rest, key) && multiset(rest) == multiset(s[1..]) + multiset{x}
    ensures SortedBy([s[0]] + rest, key)
    ensures multiset([s[0]] + rest) == multiset(s) + multiset{x}
  {
    assert s == [s[0]] + s[1..];
    InsertLowerBound(x, s[1..], key, rest, key(s[0]));
    ConsSorted(s[0], rest, key);
  }

  lemma ConsSorted<T>(h: T, s: seq<T>, key: T -> int)
    requires SortedBy(s, key) && forall j :: 0 <= j < |s| ==> key(h) <= key(s[j])
    ensures SortedBy([h] + s, key)
  {
    var r := [h] + s;
    forall i, j | 0 <= i < j < |r| ensures key(r[i]) <= key(r[j]) {
      assert r[j] == s[j - 1];
      if i > 0 {
        assert r[i] == s[i - 1];
      }
    }
  }

  lemma InsertLowerBound<T>(x: T, s: seq<T>, key: T -> int, rest: seq<T>, bound: int)
    requires multiset(rest) == multiset(s) + multiset{x}
    requires bound <= key(x) && forall j :: 0 <= j < |s| ==> bound <= key(s[j])
    ensures forall j :: 0 <= j < |rest| ==> bound <= key(rest[j])
  {
    forall j | 0 <= j < |rest|
      ensures bound <= key(rest[j])
    {
      assert rest[j] in multiset(rest);
      if rest[j] != x {
        assert rest[j] in multiset(s);
        var k :| 0 <= k < |s| && s[k] == rest[j];
      }
    }
  }

  /** An insertion sort by ascending key; like `Array#sort` with a
      `(a, b) => key(a) - key(b)` comparator it is a sorted permutation. */
  function SortBy<T>(s: seq<T>, key: T -> int): (r: seq<T>)
    ensures SortedBy(r, key)
    ensures multiset(r) == multiset(s)
    ensures |r| == |s|
  {
    if |s| == 0 then []
    else
      assert s == [s[0]] + s[1..];
      Insert(s[0], SortBy(s[1..], key), key)
  }
}

=== FILE: session.dfy ===
/** The admin "session": the login dialog writes a flag and a timestamp to
    the browser's local storage, and the guarded route admits a visitor
    while the flag is set and less than a day has passed since the stamp.
    Storage is a map from key to text and the clock is an input. */
module Session {
  import opened Wrappers
  import opened JsText

  type Storage = map<string, string>

  const AuthKey: string := "adminAuthenticated"
  const TimeKey: string := "adminLoginTime"
  const AuthFlag: string := "true"

  /** Twenty-four hours in milliseconds. */
  const SessionLength: int := 24 * 60 * 60 * 1000

  const AdminPath: string := "/admin"
  const HomePath: string := "/"

  /** `localStorage.getItem`: null for a missing key. */
  function GetItem(s: Storage, key: string): (r: Option<string>)
    ensures r.Some? <==> key in s
    ensures r.Some? ==> r.value == s[key]
  {
    if key in s then Some(s[key]) else None
  }

  // ---------------------------------------------------------------------
  // The guarded route

  /** `isAuthenticated && isSessionValid`: the flag reads "true", the stamp
      is present and non-empty, and `Date.now() - parseInt(stamp)` is below a
      day. A stamp that does not parse gives NaN, and every comparison with
      NaN is false. */
  predicate SessionValid(s: Storage, now: int)
  {
    && GetItem(s, AuthKey) == Some(AuthFlag)
    && Truthy(GetItem(s, TimeKey))
    && ParseInt(s[TimeKey]).Some?
    && now - ParseInt(s[TimeKey]).value < SessionLength
  }

  /** What the route renders: its children, or a redirect home. */
  datatype Route = Children | Redirect(path: string)

  datatype Guarded = Guarded(storage: Storage, route: Route)

  /** `ProtectedAdminRoute`: a valid session renders the children and leaves
      storage alone; anything else removes both keys and redirects. */
  function Guard(s: Storage, now: int): (r: Guarded)
    ensures r.route == Children <==> SessionValid(s, now)
    ensures SessionValid(s, now) ==> r.storage == s
    ensures !SessionValid(s, now) ==> r.storage == s - {AuthKey, TimeKey} && r.route == Redirect(HomePath)
    ensures !SessionValid(s, now) ==> AuthKey !in r.storage && TimeKey !in r.storage
    ensures forall k :: k in s && k != AuthKey && k != TimeKey ==> k in r.storage && r.storage[k] == s[k]
  {
    if SessionValid(s, now) then Guarded(s, Children)
    else Guarded(s - {AuthKey, TimeKey}, Redirect(HomePath))
  }

  /** A denial is final: the keys it removed are needed for any later
      admission, so every later visit is denied too and changes nothing. */
  lemma DenialIsFinal(s: Storage, now: int, later: int)
    requires !SessionValid(s, now)
    ensures Guard(Guard(s, now).storage, later).route == Redirect(HomePath)
    ensures Guard(Guard(s, now).storage, later).storage == Guard(s, now).storage
  {
    var cleared := Guard(s, now).storage;
    assert AuthKey !in cleared;
    assert cleared - {AuthKey, TimeKey} == cleared;
  }

  // ---------------------------------------------------------------------
  // The login dialog

  datatype LoginDialog = LoginDialog(username: string, password: string, error: string, showPassword: bool, open: bool)

  const InvalidCredentials: string := "Invalid username or password"

  /** The configured pair: the build's environment values, else
      admin/admin123. */
  datatype Credentials = Credentials(username: string, password: string)

  function AdminCredentials(envUsername: Option<string>, envPassword: Option<string>): (r: Credentials)
    ensures !Truthy(envUsername) ==> r.username == "admin"
    ensures !Truthy(envPassword) ==> r.password == "admin123"
    ensures Truthy(envUsername) ==> r.username == envUsername.value
    ensures Truthy(envPassword) ==> r.password == envPassword.value
  {
    Credentials(OrElse(envUsername, "admin"), OrElse(envPassword, "admin123"))
  }

  datatype Field = Username | Password

  /** Typing into a field replaces it and clears the error. */
  function HandleChange(d: LoginDialog, f: Field, value: string): (r: LoginDialog)
    ensures r.error == "" && r.showPassword == d.showPassword && r.open == d.open
    ensures f == Username ==> r.username == value && r.password == d.password
    ensures f == Password ==> r.password == value && r.username == d.username
  {
    match f
    case Username => d.(username := value, error := "")
    case Password => d.(password := value, error := "")
  }

  /** `handleClose`: both fields, the error and the password toggle reset. */
  function HandleClose(d: LoginDialog): (r: LoginDialog)
    ensures r == LoginDialog("", "", "", false, false)
  {
    LoginDialog("", "", "", false, false)
  }

  /** The submit button is disabled while loading or while a field is
      empty. */
  predicate SubmitDisabled(d: LoginDialog, loading: bool)
  {
    loading || d.username == "" || d.password == ""
  }

  /** The result of a submit: the dialog, the storage, and where the app
      navigated, if anywhere. */
  datatype Attempt = Attempt(dialog: LoginDialog, storage: Storage, navigated: Option<string>)

  /** `handleSubmit` after its delay. On an exact match of both fields the
      flag and the current time are written, the app goes to the admin
      page, the dialog closes and the fields are cleared; otherwise storage
      is untouched and the error is shown. */
  function HandleSubmit(d: LoginDialog, creds: Credentials, s: Storage, now: nat): (r: Attempt)
    ensures r.navigated.Some? <==> d.username == creds.username && d.password == creds.password
    ensures r.navigated.Some? ==>
      && r.navigated.value == AdminPath
      && r.storage == s[AuthKey := AuthFlag][TimeKey := NatToString(now)]
      && r.dialog.username == "" && r.dialog.password == "" && !r.dialog.open
    ensures r.navigated.None? ==> r.storage == s && r.dialog == d.(error := InvalidCredentials)
  {
    if d.username == creds.username && d.password == creds.password then
      Attempt(d.(username := "", password := "", error := "", open := false),
        s[AuthKey := AuthFlag][TimeKey := NatToString(now)], Some(AdminPath))
    else
      Attempt(d.(error := InvalidCredentials), s, None)
  }

  /** A login at time `t` admits the visitor at time `now` exactly when
      less than a day has passed; at exactly one day the route is closed. */
  lemma LoginLastsOneDay(d: LoginDialog, creds: Credentials, s: Storage, t: nat, now: int)
    requires d.username == creds.username && d.password == creds.password
    ensures var st := HandleSubmit(d, creds, s, t).storage;
      SessionValid(st, now) <==> now - t < SessionLength
    ensures !SessionValid(HandleSubmit(d, creds, s, t).storage, t + SessionLength)
  {
    var st := HandleSubmit(d, creds, s, t).storage;
    assert AuthKey != TimeKey;
    assert st[AuthKey] == AuthFlag && st[TimeKey] == NatToString(t);
    ParseIntOfNatToString(t);
  }

  /** A failed login leaves whatever the route would decide unchanged. */
  lemma FailedLoginChangesNoAccess(d: LoginDialog, creds: Credentials, s: Storage, t: nat, now: int)
    requires !(d.username == creds.username && d.password == creds.password)
    ensures SessionValid(HandleSubmit(d, creds, s, t).storage, now) <==> SessionValid(s, now)
  {
  }

  /** The disabled test never stands in the way of the right answer: an
      empty variable falls back to the default, so the configured
      credentials are never empty, and typing them enables the button
      whenever nothing is loading; the press then opens the admin page. */
  lemma CorrectCredentialsAreNeverBlocked(envUsername: Option<string>, envPassword: Option<string>,
                                          d: LoginDialog, s: Storage, now: nat)
    requires var creds := AdminCredentials(envUsername, envPassword);
      d.username == creds.username && d.password == creds.password
    ensures !SubmitDisabled(d, false)
    ensures HandleSubmit(d, AdminCredentials(envUsername, envPassword), s, now).navigated == Some(AdminPath)
  {
  }
}

=== FILE: theme.dfy ===
/** The site-wide colour theme: a name read from local storage at start,
    toggled between "dark" and "light", and written back with the body's
    classes on every change. */
module Theme {
  import opened Wrappers

  const ThemeKey: string := "currentTheme"
  const Dark: string := "dark"
  const Light: string := "light"

  /** `localStorage.getItem("currentTheme")`. */
  function Saved(storage: map<string, string>): (r: Option<string>)
    ensures r.Some? <==> ThemeKey in storage
    ensures r.Some? ==> r.value == storage[ThemeKey]
  {
    if ThemeKey in storage then Some(storage[ThemeKey]) else None
  }

  /** The state's initialiser: the saved name, or "dark" when nothing (or
      an empty text) is saved. */
  function InitialTheme(saved: Option<string>): (r: string)
    ensures Truthy(saved) ==> r == saved.value
    ensures !Truthy(saved) ==> r == Dark
    ensures r != ""
  {
    OrElse(saved, Dark)
  }

  /** `toggleTheme`: dark becomes light and every other value becomes dark. */
  function Toggle(theme: string): (r: string)
    ensures r == Dark || r == Light
    ensures r == Light <==> theme == Dark
  {
    if theme == Dark then Light else Dark
  }

  predicate IsDark(theme: string) { theme == Dark }
  predicate IsLight(theme: string) { theme == Light }

  /** Toggling twice returns to a dark or light theme; any other saved name
      is replaced by dark on the first toggle and never comes back. */
  lemma ToggleTwice(theme: string)
    ensures theme == Dark || theme == Light ==> Toggle(Toggle(theme)) == theme
    ensures theme != Dark && theme != Light ==> Toggle(Toggle(theme)) == Light
  {
  }

  /** The two flags never hold together, and after a toggle exactly one
      holds. */
  lemma FlagsExclusive(theme: string)
    ensures !(IsDark(theme) && IsLight(theme))
    ensures IsDark(Toggle(theme)) != IsLight(Toggle(theme))
  {
    assert Dark != Light;
  }

  /** What the effect touches: local storage and the body's class list. */
  datatype Page = Page(storage: map<string, string>, bodyClasses: set<string>)

  /** The effect on every theme change: the body carries "light" exactly
      when the theme is light and "dark" exactly when it is dark, its other
      classes stay, and the theme is saved. */
  function Persist(p: Page, theme: string): (r: Page)
    ensures Light in r.bodyClasses <==> theme == Light
    ensures Dark in r.bodyClasses <==> theme == Dark
    ensures forall c :: c in p.bodyClasses && c != Light && c != Dark ==> c in r.bodyClasses
    ensures forall c :: c in r.bodyClasses && c != Light && c != Dark ==> c in p.bodyClasses
    ensures ThemeKey in r.storage && r.storage[ThemeKey] == theme
    ensures forall k :: k in p.storage && k != ThemeKey ==> k in r.storage && r.storage[k] == p.storage[k]
  {
    var classes := p.bodyClasses - {Light, Dark}
      + (if theme == Light then {Light} else {})
      + (if theme == Dark then {Dark} else {});
    Page(p.storage[ThemeKey := theme], classes)
  }

  /** What a later visit starts with is what this visit last showed. */
  lemma ThemeSurvivesReload(p: Page, theme: string)
    requires theme != ""
    ensures InitialTheme(Saved(Persist(p, theme).storage)) == theme
  {
  }

  /** A fresh visit that toggles once lands on light and saves it. */
  lemma FirstToggleOfAFreshVisit(p: Page)
    requires ThemeKey !in p.storage
    ensures var t := InitialTheme(Saved(p.storage));
      t == Dark && Toggle(t) == Light && Persist(p, Toggle(t)).storage[ThemeKey] == Light
  {
  }
}

=== FILE: wrappers.dfy ===
/** Small value wrappers shared by every module of the model. */
module Wrappers {

  /** The conventional optional value. */
  datatype Option<+T> = None | Some(value: T)

  /** A property of a JSON request body as a JavaScript handler sees it:
      missing (`undefined`), present but `null`, or present with a value.
      Used only where the handlers treat `undefined` and `null` differently
      (destructuring defaults, `!== undefined` tests). */
  datatype Js<+T> = Undefined | Null | Val(v: T)

  /** JavaScript truthiness of an optional string: present and not "". */
  predicate Truthy(s: Option<string>)
  {
    s.Some? && s.value != ""
  }

  /** JavaScript truthiness of an optional numeric id: present and not 0. */
  predicate TruthyId(n: Option<int>)
  {
    n.Some? && n.value != 0
  }

  /** `a || b` on optional strings. */
  function OrElse(s: Option<string>, default: string): (r: string)
    ensures Truthy(s) ==> r == s.value
    ensures !Truthy(s) ==> r == default
  {
    if s.Some? && s.value != "" then s.value else default
  }
}
